=== FILE: README.md ===
# Goa Police citizen app: a Dafny model of its logic

The Goa Police app is a multilingual citizen-service app with English, Hindi and Konkani interfaces, plus Russian in the chat. Citizens use it to:

- file a report, a complaint or a police clearance certificate (PCC) application through five-step wizards;
- submit a complaint to the women officer section;
- read their rights for common situations;
- talk to a scripted officer or a two-way interpreter;
- ask a retrieval-based assistant.

Police staff see the stored complaints on a dashboard.

This project models the logic behind those screens as pure Dafny functions over immutable datatypes, and proves what each one promises. Each module follows one source file:

| module | file | models |
|---|---|---|
| `Text`, `Common` | — | the JavaScript string and array built-ins the code relies on: `includes`, `toLowerCase`, `trim`, `split(/\s+/)`, `join`, `filter`, `find` |
| `Languages` | src/types/language.ts | the interface language and the four detected-language codes |
| `RagLanguage` | src/services/ragService.ts | `detectLanguage` |
| `History` | src/services/ragService.ts | `addToHistory`, `getConversationContext`, `clearHistory` |
| `Retrieval` | src/services/ragService.ts | `calculateSimilarity`, `findRelevantIncidents` (score, stable sort, slice, threshold) |
| `Reply` | src/services/ragService.ts | `isGreeting`, `translateText`, `generateContextualResponse`, `generateResponse`, `getLanguageCode` |
| `Chatbot` | src/components/RAGChatbot.tsx | the assistant's chat window |
| `Interpreter` | script.js | the offline interpreter: its own `detectLanguage`, `translateOffline`, `getFallbackMessage`, `findBestVoice`, and the recording/processing flags as an event machine |
| `OfficerChat` | src/components/TalkToOfficer.tsx | `generateOfficerResponse` and `sendMessage` |
| `Assistant` | src/components/TranslationAssistant.tsx | `mockTranslate`, the locale choices, `handleTranslation`, `clearMessages` |
| `Dashboard` | src/components/PoliceDashboard.tsx | the pending and completed tabs, the type filter with search, the type labels, the stat cards |
| `Wizard` | FileReport, ComplaintFiling, PCCFiling | the step counter, the document checklist, and field updates shared by the wizards |
| `FileReport`, `ComplaintFiling`, `PccFiling`, `WomenOfficer` | the components of the same names | issue selection, back-translation tables, Next guards, submit guards and the stored record |
| `PccPdf` | src/utils/pccPdfGenerator.ts | `translateToEnglish` of the certificate PDF, and which printed fields pass through it |
| `Information` | src/components/GetInformation.tsx | `formatContentForSpeech` and the shape of `commonQueries` |

How the model treats the source:

- **State.** Every React handler becomes a function from the old state to the new state.
- **Foreign calls become parameters.** This covers:
  - the cloud translator's answers in TalkToOfficer (an `Option` and a function);
  - whether the database save succeeded (a `bool`);
  - the answer to `prompt()` in ComplaintFiling;
  - whether a speech recogniser exists and whether it started;
  - the list of synthesis voices;
  - the random tokens and today's date.
- **Chat window and engine.** The window receives the engine's outcome as a parameter: `None` is a failed call and `Some(r)` is the engine's answer. `Chatbot.Ask` supplies `Reply.GenerateResponse` for the lemmas that connect the two. A failed call has already recorded the question in the engine's history, because `generateResponse` records it before any step that can fail.
- **Scores.** Similarity scores are exact rationals (`real`), so the 0.5 answer weight and the strict `> 0.1` threshold are exact.
- **Sorting.** The sort is an insertion sort that keeps equal scores in corpus order, which is the order of a stable `Array.prototype.sort`.
- **Lower-casing.** `toLowerCase` maps the Basic Latin capitals and the Cyrillic capitals U+0400–U+042F. Every other code point, Devanagari included, is kept as it is.
- **Matching.** `/[а-яё]/i` becomes a code-point predicate. `split(/\s+/)` is modelled exactly, with the empty leading and trailing tokens JavaScript produces.

Retrieval and replies work as follows:

- **Field score.** An incident scores `max(question, category, 0.5 × answer)`.
- **Similarity.** Similarity is the number of matched query words divided by the larger of the query's and the target's word counts. A word matches when either word contains the other.
- **Threshold.** The three best incidents are kept first (`slice(0, 3)`). Of those, only the ones scoring strictly above 0.1 remain.
- **Language detection.** Detection tests whether marker words occur as substrings.
- **Urgency.** The only special case is the call-100 note that a single-match reply gets when the context mentions "emergency" or "urgent".
- **No rewriting.** Replies have no term substitution and no follow-up question.
- **Context.** The context shows the last four turns.

Some lemmas pin down behaviour of the code as written that a reader may not expect:

- **"Which" is a greeting.** "Which form do I need?" is answered with the greeting, because "hi" is matched inside "Which" (`Reply.WhichIsGreeting`).
- **"My family" is Konkani.** The chat engine classifies "my family" as Konkani, because "ami" is matched inside "family" (`RagLanguage.FamilyIsKonkani`). The interpreter calls the same text English (`Interpreter.DetectorsDisagreeOnFamily`).
- **"This" is a greeting.** The officer answers "this" as a greeting (`OfficerChat.ThisIsAGreeting`).
- **The interpreter's word scores never decide anything.** Its Hindi and Konkani word lists are Devanagari, and Devanagari text has already returned earlier (`Interpreter.ScoringFallbackIsEnglish`).
- **Processing can get stuck.** When recognition ends without a result after a stop, the interpreter stays in processing and ignores the microphone button (`Interpreter.EndWithoutResultKeepsProcessing`).
- **"Other" reports are not translated.** A Hindi or Konkani report of the "other" issue is stored untranslated (`FileReport.OtherStaysUntranslated`).
- **The PDF translates the certificate type, not the purpose.** The type chosen on the cards is printed through the English table. The purpose is free text and is printed exactly as typed, in whatever language it was written (`PccPdf.PurposePrintsAsTyped`).
- **Two PDF documents differ from the checklist.** The last two required documents print in the PDF with a wording different from the English checklist's (`PccPdf.LastDocumentsPrintDifferently`).
- **Toggling twice can move a document.** A document checked in the middle of the list and toggled twice moves to the end (`Wizard.ToggleTwiceIdentical`).

## Model

| member | source | states |
|---|---|---|
| RagLanguage.Score | src/services/ragService.ts:53-59 | a score never exceeds the number of words, and is zero exactly when no word contains any vocabulary word |
| RagLanguage.ScoreVerdict | src/services/ragService.ts:61-64 | Konkani exactly when the Konkani score is strictly higher; Hindi exactly when it is not and the Hindi score is positive; English exactly when both scores are zero |
| RagLanguage.DetectLanguage | src/services/ragService.ts:25-65 | Russian exactly when the text holds a Cyrillic letter; Devanagari text without Cyrillic is Hindi or Konkani, Konkani exactly when a Devanagari marker word occurs; Latin text with a Konkani marker word is Konkani; any other text gets the verdict of its Hindi and Konkani word scores over the lower-cased words |
| RagLanguage.EmptyIsEnglish | src/services/ragService.ts:61-64 | an empty message falls through every test and is English |
| RagLanguage.LowerPreservesScripts | src/services/ragService.ts:26-34 | lower-casing neither adds nor removes a Cyrillic or a Devanagari letter, so the script tests see the same thing either way |
| RagLanguage.DetectIgnoresCase | src/services/ragService.ts:25-65 | a message and its lower-cased form get the same language |
| RagLanguage.FamilyIsKonkani | src/services/ragService.ts:44-46 | the English phrase "my family" is classified as Konkani, because the marker "ami" is matched inside "family" |
| RagLanguage.TransliteratedHindiIsHindi | src/services/ragService.ts:49-64 | "mujhe madad do" has no marker and is classified as Hindi by its word scores |
| RagLanguage.DevanagariWithoutMarkersIsHindi | src/services/ragService.ts:34-41 | Devanagari text without Cyrillic and without any of the six marker words is Hindi |
| RagLanguage.LowerKeepsDevanagariOccurrences | src/services/ragService.ts:26-37 | a Devanagari marker occurs in the lower-cased text exactly when it occurs in the text, so testing the lower-cased text is the same as testing the original |
| History.LastN | src/services/ragService.ts:149-152 | the result is the last n elements, or the whole sequence when it is shorter, in their original order |
| History.AddToHistory | src/services/ragService.ts:141-153 | the new turn is last; the history never exceeds ten turns; below ten the old turns are kept as a prefix, otherwise the oldest is dropped and the rest keep their order |
| History.AddAllIsWindow | src/services/ragService.ts:141-153 | however many turns are added one at a time, the history is the newest ten of the old history followed by the new turns |
| History.AddTwoIsWindow | src/services/ragService.ts:175-199 | adding two turns in a row leaves the newest ten of the old history followed by both turns |
| History.ClearHistory | src/services/ragService.ts:270-272 | the cleared history has no turns |
| History.Render | src/services/ragService.ts:163 | a turn is shown as its role, a colon and a space, followed by exactly its content; the line holds a line break exactly when the content does |
| History.RenderParses | src/services/ragService.ts:163 | reading a rendered line back gives the turn's role and content |
| History.Context | src/services/ragService.ts:158-165 | the context is empty exactly when there is no history, and it contains the content of each of the last four turns; when no shown content holds a line break, it splits at newlines into one line per shown turn, and each line reads back as that turn's role and content, oldest first |
| History.ContextShowsWindow | src/services/ragService.ts:161-164 | the joined rendering of the last four turns is not empty and contains each of their contents |
| History.ContextLines | src/services/ragService.ts:158-165 | the newline-joined rendering of single-line turns splits back into one line per turn, each reading back as that turn |
| History.ContextShowsLatest | src/services/ragService.ts:158-165 | the turn just added always appears in the context |
| History.ClearedContextIsEmpty | src/services/ragService.ts:159 | after clearing, the context is the empty string |
| Retrieval.Words | src/services/ragService.ts:71-72 | splitting on whitespace yields at least one word, as a JavaScript split does |
| Retrieval.Matches | src/services/ragService.ts:74-79 | at most one match per query word; zero exactly when no query word matches a target word; all of them exactly when every query word does |
| Retrieval.EmptyTokenMatches | src/services/ragService.ts:76 | the empty word, which a leading blank or an empty query produces, matches every non-empty list of target words |
| Retrieval.Similarity | src/services/ragService.ts:70-82 | the similarity lies between 0 and 1; it is 0 exactly when nothing matches, and 1 exactly when every query word matches and the query has at least as many words as the target |
| Retrieval.EmptyQuerySimilarity | src/services/ragService.ts:70-82 | an empty query is similar to every text, with similarity one over that text's word count, because its single empty word matches everything |
| Retrieval.SimilaritySelf | src/services/ragService.ts:70-82 | a text is fully similar to itself |
| Retrieval.Score | src/services/ragService.ts:88-95 | the score is at least the question, the category and half the answer similarity, lies between 0 and 1, and is itself one of those three values |
| Retrieval.AnswerOnlyScoreBound | src/services/ragService.ts:93 | a record matched only through its answer scores at most one half |
| Retrieval.ScoreAll | src/services/ragService.ts:88-95 | every corpus record is paired, in order, with its own index and its own score |
| Retrieval.Insert | src/services/ragService.ts:98 | inserting adds exactly the one element to the list's contents |
| Retrieval.InsertKeepsOrder | src/services/ragService.ts:98 | inserting into a best-first list keeps it best-first |
| Retrieval.InsertKeepsTies | src/services/ragService.ts:98 | inserting a record that comes before all others in the corpus keeps records with equal scores in corpus order |
| Retrieval.Sort | src/services/ragService.ts:98 | the sorted list is a permutation of its input with scores in non-increasing order |
| Retrieval.SortStable | src/services/ragService.ts:98 | the sort is stable: records with equal scores keep their corpus order |
| Retrieval.Take | src/services/ragService.ts:99 | the result is the prefix of length min(limit, length) |
| Retrieval.TopAbove | src/services/ragService.ts:97-101 | at most `limit` records, each above 0.1 and unchanged from the scored corpus, best first with ties in corpus order, and a prefix of the sorted corpus |
| Retrieval.TopAboveIsSortedPrefix | src/services/ragService.ts:97-100 | taking the best `limit` records and then filtering at the threshold gives a prefix of the sorted corpus, best first and stable |
| Retrieval.FilterAboveIsPrefix | src/services/ragService.ts:100 | on a best-first list the threshold filter keeps a prefix, and every dropped record scores at most 0.1 |
| Retrieval.Ranked | src/services/ragService.ts:87-101 | at most `limit` records of the corpus, each with its true score above 0.1, best first, ties in corpus order, and a prefix of the sorted scores |
| Retrieval.RankedComplete | src/services/ragService.ts:97-101 | the ranking holds exactly min(limit, number of records scoring above 0.1) records, so nothing that qualifies is left out |
| Retrieval.IncidentsOf | src/services/ragService.ts:101 | each ranked entry is replaced by its record, in order |
| Retrieval.FindRelevantIncidents | src/services/ragService.ts:87-102 | at most three records, each in the corpus with a score above 0.1, in non-increasing score order |
| Reply.IsGreeting | src/services/ragService.ts:207-216 | a message is a greeting exactly when its lower-cased text contains one of the greeting words; any text containing "hi" or "hello" in any case is one, and a greeting has at least two characters |
| Reply.GreetingIgnoresCase | src/services/ragService.ts:207-216 | greeting detection gives the same answer for a message and its lower-cased form |
| Reply.WhichIsGreeting | src/services/ragService.ts:207-216 | "Which form do I need?" counts as a greeting, because "hi" is matched inside "Which" |
| Reply.CapitalisedRussianGreeting | src/services/ragService.ts:211-215 | a capitalised Russian greeting is recognised, because Cyrillic capitals are lower-cased first |
| Reply.GreetingTemplate | src/services/ragService.ts:110-115 | each language has a non-empty greeting text |
| Reply.NoMatchTemplate | src/services/ragService.ts:116-121 | each language has a non-empty no-match text |
| Reply.TranslateText | src/services/ragService.ts:107-136 | a greeting trigger phrase gives the greeting template; otherwise the rephrase phrase gives the no-match template; any other text is returned unchanged |
| Reply.ForeignTemplatesHaveNoTrigger | src/services/ragService.ts:110-121 | the Hindi, Konkani and Russian templates contain no English trigger phrase |
| Reply.EnglishTemplateTriggers | src/services/ragService.ts:114-131 | the English greeting triggers the greeting branch; the English no-match text triggers only the no-match branch |
| Reply.TemplateTriggers | src/services/ragService.ts:109-131 | a greeting template triggers the greeting branch exactly when it is English; no no-match template triggers it; a no-match template triggers the no-match branch exactly when it is English |
| Reply.TranslateIdempotent | src/services/ragService.ts:107-136 | translating a translated text again into the same language changes nothing |
| Reply.TemplatesAreFixed | src/services/ragService.ts:124-131 | each template translated into its own language comes back unchanged |
| Reply.FallbackHasNoTrigger | src/services/ragService.ts:253-257 | the last-resort reply contains neither trigger phrase |
| Reply.EngineMessagesBecomeTemplates | src/services/ragService.ts:177-195 | the English greeting and no-match messages become the templates of the target language, and the last-resort reply always stays English |
| Reply.SingleMatchText | src/services/ragService.ts:229-236 | the reply opens with the lower-cased category and the answer; the call-100 note is added, at the end, exactly when the context mentions an emergency or urgency; otherwise the reply is the lead, the category and the answer and nothing more |
| Reply.HelloInAnswerBecomesGreeting | src/services/ragService.ts:231-238 | a single-match answer that contains "Hello" is replaced by the greeting template |
| Reply.UrgentQueryGetsAddendum | src/services/ragService.ts:175-236 | a user who writes "urgent" gets the call-100 note on a single-match reply, because the message is already in the context |
| Reply.UrgentQueryMakesUrgentContext | src/services/ragService.ts:226-234 | once a message containing "urgent" is recorded, the context asks for the call-100 note |
| Reply.NatToString | src/services/ragService.ts:246 | a number is written as at least one decimal digit |
| Reply.NatToStringRoundTrip | src/services/ragService.ts:246 | the written number reads back as the same number |
| Reply.Item | src/services/ragService.ts:246 | a list item opens with its number, a dot, and the bold category followed by a colon, and ends with the answer and a blank line |
| Reply.MultiMatchText | src/services/ragService.ts:240-250 | the reply opens with the header, ends with the closing question, and between them holds exactly the numbered items |
| Reply.BuildMultiMatchReply | src/services/ragService.ts:242-251 | the reply built one item at a time is the multi-match text: it opens with the header, ends with the closing question, and contains each incident under its position plus one |
| Reply.MultiMatchListsEveryItem | src/services/ragService.ts:242-251 | the multi-match reply opens with the header, ends with the closing question, and lists every retrieved incident under its position plus one |
| Reply.ItemsContain | src/services/ragService.ts:245-247 | each of the first n items appears in the list of the first n items |
| Reply.ItemsInOrder | src/services/ragService.ts:245-247 | the items appear in retrieval order: a shorter list is a prefix of a longer one |
| Reply.ContextualResponse | src/services/ragService.ts:221-258 | no incident gives the English last-resort reply; one gives the translated single-match text; several give the translated list; the reply is never empty |
| Reply.Answer | src/services/ragService.ts:177-198 | a greeting gets the greeting template; no retrieved incident gets the no-match template; otherwise the contextual reply; never empty |
| Reply.GenerateResponse | src/services/ragService.ts:170-202 | the reply language is the detected one; the history grows by two up to ten and ends with the user turn and the reply; the reply is the answer computed with the user turn already in the context |
| Reply.GenerateResponseRecordsTwoTurns | src/services/ragService.ts:175-201 | the history afterwards is the newest ten of the old history, the user turn and the reply |
| Reply.SpeechLocale | src/services/ragService.ts:277-285 | Hindi and Konkani are spoken as hi-IN, Russian as ru-RU, and every other code as en-IN |
| Chatbot.LanguageTag | src/components/RAGChatbot.tsx:133-139 | the interface language maps to en, hi or kok, never to ru |
| Chatbot.SpeechLanguageCode | src/components/RAGChatbot.tsx:141-148 | the window's speech map agrees with the engine's, and gives en-IN exactly for codes other than hi, kok and ru |
| Chatbot.LanguageFlag | src/components/RAGChatbot.tsx:316-323 | hi, kok and ru get their own badges, and EN is shown exactly for every other code |
| Chatbot.FlagOfTag | src/components/RAGChatbot.tsx:316-323 | a detected language shows the EN badge exactly when it is English |
| Chatbot.WelcomeMessage | src/components/RAGChatbot.tsx:122-131 | the welcome is not empty, and it opens with a Latin capital exactly in English |
| Chatbot.WelcomesDistinct | src/components/RAGChatbot.tsx:122-131 | the three languages have three different welcomes |
| Chatbot.Apology | src/components/RAGChatbot.tsx:279-283 | the apology is not empty, and it opens with a Latin capital exactly in English |
| Chatbot.ApologiesDistinct | src/components/RAGChatbot.tsx:279-283 | the three languages have three different apologies |
| Chatbot.UserLanguage | src/components/RAGChatbot.tsx:243 | a non-empty detected code tags the user's message; otherwise the interface language's code does |
| Chatbot.HandleUserMessage | src/components/RAGChatbot.tsx:237-297 | a blank message changes nothing; otherwise exactly two bubbles are appended after the old ones, the user's message and then either the engine's reply tagged with the reply language and the engine's new history, or the apology tagged with the interface language and the old history plus the user's turn, tagged with its detected language |
| Chatbot.SpokenTurnTagsAgree | src/components/RAGChatbot.tsx:49-58 | a spoken question and its reply carry the same language tag |
| Chatbot.TypedTurnTagsMayDiffer | src/components/RAGChatbot.tsx:299-303 | a typed Russian question in the English interface is tagged en while its reply is tagged ru |
| Chatbot.FailureApologises | src/components/RAGChatbot.tsx:275-294 | when the engine fails, the last bubble is the assistant's apology; the engine history is the newest ten of the old turns followed by the user's turn, and the next context shows the question |
| Chatbot.FailureKeepsWhatSuccessRecords | src/services/ragService.ts:170-200 | a failed call and a successful one record the same question: the answered history is the failed one plus the reply |
| Chatbot.ClearConversation | src/components/RAGChatbot.tsx:305-314 | only the welcome bubble, tagged with the interface language, remains and the engine history is empty |
| Chatbot.ClearedChatStartsFresh | src/components/RAGChatbot.tsx:305-314 | the first exchange after clearing leaves three bubbles and exactly two history turns |
| Interpreter.WordScore | script.js:333-341 | a score never exceeds the number of words, and is zero exactly when no word is one of the listed words |
| Interpreter.ScoreVerdict | script.js:343-346 | never Russian; Konkani exactly when its score beats both others; Hindi exactly when it is not Konkani and the Hindi score beats the English one |
| Interpreter.DetectLanguage | script.js:307-347 | Russian exactly when the text holds a Cyrillic letter; Devanagari text is Hindi or Konkani by the three marker words; plain Latin text is English |
| Interpreter.ScoreWordsAreDevanagari | script.js:329-330 | every Hindi and Konkani score word starts with a Devanagari letter |
| Interpreter.NoDevanagariWord | script.js:333-341 | a text without Devanagari scores zero against a Devanagari word list |
| Interpreter.ScoringFallbackIsEnglish | script.js:324-347 | every text without Cyrillic or Devanagari is English, so the word scores never decide anything |
| Interpreter.DetectorsAgreeOnScripts | script.js:307-322 | this detector and the chat engine's agree on Russian, and a Konkani verdict here is a Konkani verdict there |
| Interpreter.DetectorsDisagreeOnFamily | script.js:324-327 | "my family" is English here but Konkani for the chat engine |
| Interpreter.SectionOf | script.js:387-393 | a section is found exactly when the dictionary has one for the source language, and it is the first such section |
| Interpreter.TranslateIn | script.js:393-407 | nothing is found exactly when no phrase is a hit; an exact phrase with a translation wins; otherwise the result is the translation of a contained phrase |
| Interpreter.TranslateOffline | script.js:384-407 | nothing without a section for the source or for a target that is not a language; otherwise any result is the translation of a hit in the source's section; in the first section for the source there is a result exactly when some phrase is a hit, and an exact entry takes precedence over every partial match |
| Interpreter.UnlistedSourceHasNoTranslation | script.js:31-37 | Marathi has a voice but no dictionary section, and "auto" has neither, so neither translates |
| Interpreter.NothingTranslatesIntoAuto | script.js:384-407 | nothing is ever translated into the language "auto" |
| Interpreter.RussianSection | script.js:192-198 | the Russian section is the Russian phrase list |
| Interpreter.EnglishSection | script.js:168-177 | the English section is the English phrase list |
| Interpreter.RussianGreetingNormalizes | script.js:385 | a padded, capitalised Russian greeting normalises to the lower-case phrase |
| Interpreter.RussianGreetingTranslates | script.js:384-396 | a padded, capitalised Russian greeting translates to "hello" through the exact-phrase path |
| Interpreter.OfficerGreetingNormalizes | script.js:385 | "hello officer" is already normal |
| Interpreter.ContainedPhraseTranslates | script.js:398-404 | "hello officer" is translated into Russian through the first phrase it contains |
| Interpreter.GetFallbackMessage | script.js:411-420 | each known language gets its own message, and English is given exactly for codes other than hi, kok and ru |
| Interpreter.SupportedLocale | script.js:31-37 | exactly the five listed languages have a locale, and Konkani's is hi-IN |
| Interpreter.Family | script.js:478 | the family is the part of the locale before its first hyphen |
| Interpreter.FindBestVoice | script.js:470-491 | nothing without voices or for an unsupported language; otherwise the first voice of the exact locale when there is one, else the first of the locale's family when there is one, else the first default voice when there is one, else the first voice |
| Interpreter.PreferredVoiceWins | script.js:477 | a voice of the exact locale placed at the head of the list is the one chosen |
| Interpreter.ExactVoiceSurvivesAppend | script.js:477 | once a voice of the exact locale is chosen, voices loaded later do not change the choice |
| Interpreter.KonkaniSpeaksWithHindiVoice | script.js:31-37 | Konkani is always spoken with the voice Hindi would get |
| Interpreter.WithLang | script.js:290 | only the given speaker's language changes |
| Interpreter.AddLine | script.js:496-530 | the line is appended to the given speaker's panel and nothing else changes |
| Interpreter.StartRecording | script.js:223-248 | without a recogniser nothing changes; otherwise the locale follows the speaker, recording starts when the recogniser starts, and nothing else changes |
| Interpreter.RecognitionLocale | script.js:231-233 | the recogniser listens in en-IN exactly for the officer, and in hi-IN for the visitor |
| Interpreter.StopRecording | script.js:252-262 | a recording is turned into processing; otherwise nothing changes |
| Interpreter.ToggleRecording | script.js:207-219 | ignored while processing; stops a recording; otherwise starts one; speaker and panels never change |
| Interpreter.Rendering | script.js:356-368 | the dictionary translation when there is one, otherwise the fallback message of the target language |
| Interpreter.TranslateAndSpeak | script.js:353-378 | the rendering, tagged with the target language, is appended to the target speaker's panel, processing ends, and nothing else changes |
| Interpreter.OnResult | script.js:276-301 | the trimmed transcript sets the speaker's language and is appended to the speaker's panel; its translation goes to the other panel; processing ends; the other language is kept |
| Interpreter.OnError | script.js:533-539 | both flags drop and nothing else changes |
| Interpreter.ErrorMessage | script.js:541-558 | the generic message is shown exactly for codes other than the four named ones |
| Interpreter.OnEnd | script.js:563-565 | recording stops and processing is left as it was |
| Interpreter.OnHidden | script.js:738-744 | a hidden page never records, and a running recording turns into processing |
| Interpreter.StepKeepsSafe | script.js:207-565 | no event makes the page record and process at once |
| Interpreter.RunKeepsSafe | script.js:207-565 | whatever sequence of events happens, the page never records and processes at once |
| Interpreter.EndWithoutResultKeepsProcessing | script.js:563-570 | when recognition ends without a result after a stop, processing stays set and the microphone button is ignored |
| Interpreter.Step | script.js:106-157 | a speaker button changes the speaker and nothing else; no other event changes the speaker; the end of recognition stops recording and leaves processing as it was |
| Interpreter.Run | script.js:106-157 | no events leave the page as it was, and a series without a speaker button keeps the speaker chosen before |
| Interpreter.OfficerFirstGetsFallback | script.js:39-42 | an officer speaking before the visitor reaches the visitor's panel only as the English fallback message |
| Interpreter.UnheardSideGetsFallback | script.js:297-300 | a side whose language is still "auto" receives the fallback message |
| OfficerChat.RulesInOrder | src/components/TalkToOfficer.tsx:110-121 | the six keyword branches are tried in the order complaint, emergency, clearance, status, thanks, greeting, each with its own keywords |
| OfficerChat.Classify | src/components/TalkToOfficer.tsx:107-124 | a complaint exactly when a complaint keyword occurs in the lower-cased message; each later topic only when one of its keywords occurs; the fallback exactly when no keyword occurs |
| OfficerChat.FirstRule | src/components/TalkToOfficer.tsx:110-124 | the fallback exactly when no rule's keywords occur |
| OfficerChat.ClassifyIsFirstRule | src/components/TalkToOfficer.tsx:107-124 | the cascade is "the first rule whose keywords occur wins" |
| OfficerChat.ComplaintWinsOverEverything | src/components/TalkToOfficer.tsx:110-111 | a message naming a complaint, a file or a report is a complaint whatever else it says |
| OfficerChat.HelpBeatsThanks | src/components/TalkToOfficer.tsx:112-119 | "help, thanks" is answered as an emergency, because help is tried before thanks |
| OfficerChat.ThisIsAGreeting | src/components/TalkToOfficer.tsx:120-121 | the word "this" is answered as a greeting, because "hi" is matched inside it |
| OfficerChat.GenerateOfficerResponse | src/components/TalkToOfficer.tsx:107-125 | the answer is always one of the seven fixed answers, the complaint answer whenever a complaint keyword occurs, and the answer of the first matching rule |
| OfficerChat.Opened | src/components/TalkToOfficer.tsx:31-44 | the conversation opens with exactly one officer message that carries no original text |
| OfficerChat.Welcome | src/components/TalkToOfficer.tsx:33-40 | the opening line is not empty, and it opens with a Latin capital exactly in English |
| OfficerChat.WelcomesDistinct | src/components/TalkToOfficer.tsx:33-40 | the three languages have three different opening lines, and the English one counts as a greeting for the cascade |
| OfficerChat.SendMessage | src/components/TalkToOfficer.tsx:54-105 | a blank message changes nothing; otherwise the visitor's message and one officer answer are appended; in English the answer is the cascade's; otherwise the translated message goes through the cascade, and the answer is the cascade's reply translated back with that reply kept as the original, or the apology without an original when the translation back fails |
| OfficerChat.BlankMessageIgnored | src/components/TalkToOfficer.tsx:55 | a message of white space only leaves the conversation as it was |
| OfficerChat.TranslatedAnswerComesFromCascade | src/components/TalkToOfficer.tsx:69-92 | an answer without an original is the apology; an answer with one came from a translated message, its original is the cascade's reply to that message and one of the seven fixed answers, and its text is that reply translated back |
| Assistant.Bracketed | src/components/TranslationAssistant.tsx:113 | an unknown phrase is shown inside "[Translation: " and "]" |
| Assistant.LookupOr | src/components/TranslationAssistant.tsx:113-121 | a present, non-empty entry is used; anything else gives the bracketed text |
| Assistant.MockTranslate | src/components/TranslationAssistant.tsx:102-151 | an English visitor's words are unchanged; Hindi and Konkani visitors go through their tables; an officer phrase is rendered in the visitor's language, or bracketed when it is not listed |
| Assistant.OfficerTableIsIdentityInEnglish | src/components/TranslationAssistant.tsx:126-147 | every officer phrase is its own English rendering |
| Assistant.OfficerEnglishIsIdentityOrBracket | src/components/TranslationAssistant.tsx:126-149 | for an English visitor the officer's words come back unchanged when listed and bracketed otherwise |
| Assistant.HindiGreetingsRoundTrip | src/components/TranslationAssistant.tsx:106-149 | the Hindi hello and thank-you survive the trip to English and back |
| Assistant.KonkaniGreetingsRoundTrip | src/components/TranslationAssistant.tsx:114-149 | the Konkani hello and thank-you survive the trip to English and back |
| Assistant.HelpDoesNotRoundTrip | src/components/TranslationAssistant.tsx:106-149 | "I need help" is known to the visitor's table but not the officer's, so it comes back bracketed |
| Assistant.LanguageLocale | src/components/TranslationAssistant.tsx:153-159 | Hindi and Konkani are spoken as hi-IN and English as en-US |
| Assistant.RecognitionLocale | src/components/TranslationAssistant.tsx:66-68 | the officer is always heard as en-US; hi-IN exactly for a Hindi or Konkani visitor |
| Assistant.VisitorRecognitionMatchesSpeech | src/components/TranslationAssistant.tsx:66-68 | the visitor is heard in the locale their language is spoken in |
| Assistant.StartListening | src/components/TranslationAssistant.tsx:61-73 | nothing without a recogniser or while listening; otherwise listening starts in the speaker's locale |
| Assistant.HandleTranslation | src/components/TranslationAssistant.tsx:82-100 | exactly one message is appended, from the current speaker, with its text and its canned translation |
| Assistant.PlaybackLocale | src/components/TranslationAssistant.tsx:98 | a visitor's translation is read in en-US, an officer's in the visitor's locale |
| Assistant.ClearThenConverse | src/components/TranslationAssistant.tsx:177-179 | after clearing, the panel holds exactly one message per utterance spoken since, from its speaker, in order |
| Assistant.ConverseAppends | src/components/TranslationAssistant.tsx:82-100 | a run of utterances keeps every earlier message and adds one per utterance, from that utterance's speaker |
| Dashboard.PendingComplaints | src/components/PoliceDashboard.tsx:108 | exactly the complaints that are pending or in progress, in their order |
| Dashboard.CompletedComplaints | src/components/PoliceDashboard.tsx:109 | exactly the resolved complaints, in their order |
| Dashboard.TabsPartition | src/components/PoliceDashboard.tsx:108-109 | no complaint is on both tabs, and together the tabs hold as many complaints as there are |
| Dashboard.GetFilteredComplaints | src/components/PoliceDashboard.tsx:111-118 | an order-preserving subsequence that holds exactly the complaints of the selected type whose lower-cased name or token contains the lower-cased search term |
| Dashboard.NoFilterShowsAll | src/components/PoliceDashboard.tsx:111-118 | with every type selected and an empty search the list is shown unchanged |
| Dashboard.SearchIgnoresCase | src/components/PoliceDashboard.tsx:114-115 | the search term's letter case never changes the result |
| Dashboard.SosCount | src/components/PoliceDashboard.tsx:485 | the SOS card is zero exactly when no complaint is of type sos |
| Dashboard.WomenSafetyCount | src/components/PoliceDashboard.tsx:378 | the women's-safety card is zero exactly when no complaint has that category |
| Dashboard.SosCountIsSosList | src/components/PoliceDashboard.tsx:111-118 | the SOS card counts exactly what the SOS filter lists with an empty search |
| Dashboard.TypeName | src/components/PoliceDashboard.tsx:89-106 | the four known types get a non-empty label different from the type; any other type is shown as it is |
| Dashboard.TypeNamesDistinct | src/components/PoliceDashboard.tsx:89-106 | in every language the four known types get four different labels |
| Wizard.HandleNext | src/components/FileReport.tsx:217-221 | one step forward below step 5, otherwise no change, so the step stays within 1..5 |
| Wizard.Advance | src/components/FileReport.tsx:799-805 | the Next button, shared by the three wizards: the step advances exactly when it is below 5 and the button is not disabled, and otherwise stays |
| Wizard.HandleBack | src/components/FileReport.tsx:223-229 | one step back above step 1; at step 1 the wizard is left and the step is unchanged |
| Wizard.NextBackInverse | src/components/FileReport.tsx:217-229 | Back undoes Next below the last step, and Next undoes Back above the first |
| Wizard.NavigateStaysInRange | src/components/FileReport.tsx:217-229 | whatever buttons are pressed, the step stays within 1..5, and the wizard is only left from step 1 |
| Wizard.ToggleDocument | src/components/FileReport.tsx:245-251 | the toggled document's membership flips, every other document's is kept, no duplicate is introduced, and a new document goes at the end |
| Wizard.ToggleTwiceSameDocuments | src/components/FileReport.tsx:245-251 | toggling a document twice leaves the same documents checked |
| Wizard.ToggleTwiceAbsent | src/components/FileReport.tsx:245-251 | checking an unchecked document and unchecking it again restores the list exactly |
| Wizard.ToggleTwicePresent | src/components/FileReport.tsx:245-251 | unchecking a checked document and checking it again moves it to the end |
| Wizard.ToggleTwiceIdentical | src/components/FileReport.tsx:245-251 | the list comes back identical from two toggles exactly when the document was absent, or was only at the end |
| Wizard.ToggleWithinList | src/components/ComplaintFiling.tsx:359-365 | toggling a listed document keeps the checklist duplicate-free, within the list, and no longer than it |
| Wizard.SetField | src/components/ComplaintFiling.tsx:352-357 | exactly the named personal field takes the new value |
| Wizard.SetFieldLaws | src/components/ComplaintFiling.tsx:352-357 | editing a field twice keeps the last value, and edits of two different fields commute |
| Wizard.EmptyFiling | src/components/FileReport.tsx:36-48 | the form starts with no issue, no documents, empty fields and today's date |
| Wizard.UpdateInfo | src/components/FileReport.tsx:238-243 | one incident field changes and nothing else does |
| Wizard.CheckDocument | src/components/FileReport.tsx:245-251 | only the checklist changes, with the document's membership flipped |
| FileReport.IssueTypes | src/components/FileReport.tsx:62-72 | there are nine issues |
| FileReport.HandleIssueSelect | src/components/FileReport.tsx:231-236 | only the issue type changes, to the name of the first issue with that id; an unknown id changes nothing |
| FileReport.SelectedIssueId | src/components/FileReport.tsx:376 | the id of the first issue with that name, or "other" when none has it |
| FileReport.SelectThenLookUp | src/components/FileReport.tsx:231-236 | with distinct names, the process and checklist steps find the issue that was selected |
| FileReport.IssueNamesDistinct | src/components/FileReport.tsx:62-72 | within one language no two issues share a name |
| FileReport.TranslateToEnglish | src/components/FileReport.tsx:321-340 | a listed name becomes its English name; anything else is kept |
| FileReport.IssueNamesTranslate | src/components/FileReport.tsx:62-71 | every issue but "other" is stored under its English name, whatever the interface language |
| FileReport.EnglishNamesUnmapped | src/components/FileReport.tsx:321-339 | no English issue name is a key of the map |
| FileReport.HindiNamesMapped | src/components/FileReport.tsx:322-330 | every Hindi issue name but "other" is a key, mapped to the English name |
| FileReport.KonkaniNamesMapped | src/components/FileReport.tsx:322-337 | every Konkani issue name but "other" is a key, mapped to the English name |
| FileReport.OtherStaysUntranslated | src/components/FileReport.tsx:71 | a Hindi or Konkani report of the "other" issue is stored under its Hindi or Konkani name |
| FileReport.TranslateIdempotent | src/components/FileReport.tsx:321-340 | translating twice is translating once |
| FileReport.PressNext | src/components/FileReport.tsx:799-805 | step 1 is left exactly when an issue is chosen, step 3 exactly when the six incident fields are filled, and steps 2 and 4 always move on |
| FileReport.Submit | src/components/FileReport.tsx:286-318 | refused exactly when the issue, name, phone or description is empty; otherwise a pending complaint under the given token, with the English issue name and the checked documents; the receipt only after a successful save |
| FileReport.PassingTheStepsAllowsSubmit | src/components/FileReport.tsx:286-292 | whoever got past steps 1 and 3 with Next can submit |
| FileReport.SubmittedReportIsPending | src/components/FileReport.tsx:298-311 | a submitted report lands on the dashboard's pending tab under a localized type label |
| ComplaintFiling.IssueTypes | src/components/ComplaintFiling.tsx:77-84 | six issues, the last being "others" |
| ComplaintFiling.HandleIssueSelect | src/components/ComplaintFiling.tsx:336-350 | a listed issue is taken as it is; "others" takes the typed description, and nothing changes when none is given |
| ComplaintFiling.TranslateToEnglish | src/components/ComplaintFiling.tsx:405-420 | a listed term becomes English; anything else is kept |
| ComplaintFiling.IssueLabelsTranslate | src/components/ComplaintFiling.tsx:405-420 | every issue but "others" reaches the police under its English label |
| ComplaintFiling.SelectedIssueStoredInEnglish | src/components/ComplaintFiling.tsx:336-350 | an issue picked from the list is stored under its English label; a typed "others" description is stored as the lookup translates it |
| ComplaintFiling.PccLabelsAgree | src/components/ComplaintFiling.tsx:410-418 | both certificate labels become "Police Clearance Certificate (PCC)" |
| ComplaintFiling.TranslateIdempotent | src/components/ComplaintFiling.tsx:405-420 | translating twice is translating once |
| ComplaintFiling.TranslatedCopy | src/components/ComplaintFiling.tsx:383-390 | the stored copy differs from the form only in the translated issue and description |
| ComplaintFiling.EnglishCopyUnchanged | src/components/ComplaintFiling.tsx:383-390 | an English complaint whose texts are not keys is stored as entered |
| ComplaintFiling.PressNext | src/components/ComplaintFiling.tsx:805-812 | steps 1 and 2 are left exactly when an issue is chosen, step 3 exactly when the six incident fields are filled, and step 4 always moves on |
| ComplaintFiling.DraftNeedsCompleteForm | src/components/ComplaintFiling.tsx:808-812 | step 4 is reachable only with an issue and all six incident fields filled |
| PccFiling.EmptyPcc | src/components/PCCFiling.tsx:37-51 | the form starts with no type, no purpose, no documents and every applicant field empty |
| PccFiling.RequiredDocuments | src/components/PCCFiling.tsx:70-77 | six documents in every language |
| PccFiling.HandlePccTypeSelect | src/components/PCCFiling.tsx:93-95 | only the certificate type changes |
| PccFiling.HandlePurposeChange | src/components/PCCFiling.tsx:97-99 | only the purpose changes |
| PccFiling.HandlePersonalInfoChange | src/components/PCCFiling.tsx:101-106 | only the named applicant field changes |
| PccFiling.HandleDocumentCheck | src/components/PCCFiling.tsx:108-114 | only the checklist changes: the document's membership is flipped, every other document keeps its membership, and a duplicate-free checklist stays duplicate-free |
| PccFiling.CheckAll | src/components/PCCFiling.tsx:108-114 | a series of toggles changes only the checklist |
| PccFiling.ChecklistStaysWithinRequired | src/components/PCCFiling.tsx:401 | ticking only listed documents keeps the checklist a duplicate-free subset of the six, so the preview never counts more than six |
| PccFiling.PressNext | src/components/PCCFiling.tsx:466-473 | step 1 is left exactly when a type is chosen, step 2 exactly when a purpose is typed, step 3 exactly when every applicant field but the e-mail is filled, and step 4 always moves on |
| PccFiling.EmptyFormIsStuck | src/components/PCCFiling.tsx:469-470 | Next does nothing on the empty form |
| PccFiling.TypeAndPurposeReachDetails | src/components/PCCFiling.tsx:469-471 | with a type and a purpose, two presses of Next reach the details step |
| WomenOfficer.UrgencyTable | src/components/WomenOfficerSection.tsx:46-89 | exactly the four listed types are high urgency, none is low, and the ids are distinct |
| WomenOfficer.TypeName | src/components/WomenOfficerSection.tsx:46-89 | a type's displayed name is not empty, and it opens with a Latin capital exactly in English |
| WomenOfficer.TypeNamesDistinct | src/components/WomenOfficerSection.tsx:46-89 | in every language the seven cards carry seven different names |
| WomenOfficer.Initial | src/components/WomenOfficerSection.tsx:32-41 | the form starts empty except for today's date, with medium urgency |
| WomenOfficer.HandleInputChange | src/components/WomenOfficerSection.tsx:91-93 | exactly the named field changes |
| WomenOfficer.HandleTypeSelect | src/components/WomenOfficerSection.tsx:95-97 | exactly the type and the urgency change |
| WomenOfficer.SelectingTypeSetsUrgency | src/components/WomenOfficerSection.tsx:46-97 | choosing a listed type makes the form high urgency exactly for the four listed types |
| WomenOfficer.Submit | src/components/WomenOfficerSection.tsx:99-136 | refused exactly while the type, name, phone or description is empty; otherwise a pending women_safety complaint with the form's urgency as priority, assigned to the women officer, and a receipt |
| WomenOfficer.ReceiptDespiteFailure | src/components/WomenOfficerSection.tsx:110-136 | the receipt is shown whether or not the save succeeds |
| WomenOfficer.SubmissionCountsOnWomenCard | src/components/WomenOfficerSection.tsx:112-125 | a submitted complaint raises the women's-safety card by one and leaves the SOS card as it was |
| PccPdf.TranslateToEnglish | src/utils/pccPdfGenerator.ts:21-54 | English text is kept; otherwise a listed term becomes English, and anything else is kept |
| PccPdf.ValuesAreNotKeys | src/utils/pccPdfGenerator.ts:25-51 | no English value of the table is itself a key |
| PccPdf.TranslateIdempotent | src/utils/pccPdfGenerator.ts:21-54 | translating twice is translating once |
| PccPdf.PccTypesPrintInEnglish | src/utils/pccPdfGenerator.ts:27-38 | every certificate type prints as its English label, whatever the interface language |
| PccPdf.HindiPccTypeListed | src/utils/pccPdfGenerator.ts:27-32 | every Hindi certificate type is a key, mapped to the English label |
| PccPdf.KonkaniPccTypeListed | src/utils/pccPdfGenerator.ts:33-38 | every Konkani certificate type is a key, mapped to the English label |
| PccPdf.FirstDocumentsPrintInEnglish | src/utils/pccPdfGenerator.ts:41-46 | the first four required documents print under their English names |
| PccPdf.PrintedFields | src/utils/pccPdfGenerator.ts:101-183 | the certificate type and each checked document are printed through the table, one printed name per checked document in order; the typed purpose and the applicant's details are printed as entered |
| PccPdf.ChosenTypePrintsInEnglish | src/utils/pccPdfGenerator.ts:101 | a type picked from the cards in any language prints as its English label, and the printed purpose stays as typed |
| PccPdf.PurposePrintsAsTyped | src/utils/pccPdfGenerator.ts:112-113 | the purpose is not translated: a Hindi purpose that reads like a type label still prints in Hindi, while the same text as the type prints in English |
| PccPdf.LastDocumentsPrintDifferently | src/utils/pccPdfGenerator.ts:47-50 | the last two documents of a Hindi or Konkani application print with a wording that differs from the English checklist's |
| Information.CommonQueriesShape | src/components/GetInformation.tsx:26-237 | ten situations with distinct ids, each with three rights, three steps and three documents |
| Information.SpeechHeadings | src/components/GetInformation.tsx:280 | English and Hindi get their own headings, and Konkani the remaining ones |
| Information.Speech | src/components/GetInformation.tsx:275-281 | the text opens with the title and ". ", is followed at once by the rights section and then the steps section, each joined by ". ", and ends with the documents joined by ", "; its length leaves room for nothing else |
| Information.FormatContentForSpeech | src/components/GetInformation.tsx:275-281 | the same, under the headings of the interface language |
| Information.EveryItemIsSpoken | src/components/GetInformation.tsx:276-280 | every right, step and document of the situation is read out |

## Left out

- Rendering (JSX and styles), screen navigation, scrolling, and the beeps and status texts of the interpreter page: presentation only.
- Speech capture and playback (`speakText`, `startListening`/`stopListening` of the chat window, the audio recorder of the officer screen, voice loading): these are browser I/O. The voice list reaches `Interpreter.FindBestVoice` as a parameter, and recogniser availability reaches the recording functions as a `bool`.
- The cloud translator, the Whisper transcription service and the database client are foreign calls. Their results are parameters: the translator's answers in `OfficerChat.SendMessage`, and the success of a save in the `Submit` functions.
- The dashboard's `updateComplaintStatus`, `updateComplaintData` and `loadComplaints`: these are database writes and reads with no logic of their own.
- `generateDraft` of the complaint and certificate wizards draws a random token, saves and prints. The saved complaint copy is modelled (`ComplaintFiling.TranslatedCopy`); the token is not.
- Random tokens, message ids, timestamps and today's date are parameters, or they are dropped from the records.
- The PDF and receipt layout (jsPDF): only the certificate PDF's `translateToEnglish` is modelled.
- `translateWithAPI` in script.js is never called, so it is not modelled.
- The keyboard shortcut and speaker buttons of the interpreter page appear only as the `SelectSpeaker` and `Toggle` events.
- The incident corpus (`incidents.json`) is not part of this model; the corpus is a parameter.
- The process texts, required-document lists and rights texts of the report and complaint wizards are static data. Only the lookup that selects them is modelled (`FileReport.SelectedIssueId`).
- Only the English texts of `commonQueries` are included. The Hindi and Konkani texts are data of the same shape.
- `setTimeout` delays and React's deferred state updates: each handler is one state-to-state step. For the chat window this means the user's bubble and the reply are appended in one step.
- `toLowerCase` is modelled for the Basic Latin and Cyrillic capitals only. Capitals of other cased scripts, such as Latin-1 accented letters and Greek, are kept as they are, where JavaScript would lower-case them.
- History.Context: the exact "role: content" lines are stated only when no shown turn's content holds a line break. Then splitting the context at newlines gives one line per shown turn, and each line parses back to that turn's role and content (`History.ContextLines`). When a content holds a line break, the contract states only that each shown turn's content appears in the context.
- ComplaintFiling.TranslateToEnglish: a lookup `map[text] || text` in JavaScript also finds the members every object inherits. For keys such as "constructor", "toString", "valueOf" and "__proto__" it returns that inherited member, not the text. The model's map holds only the listed entries, so those keys give back the text.
- Assistant.LookupOr: for the inherited keys ("constructor", "toString", "valueOf", "__proto__"), JavaScript returns the inherited member, while the model returns the bracketed text.
- Assistant.MockTranslate: a visitor's phrase equal to an inherited key ("constructor", "toString", "valueOf", "__proto__") is looked up the same way and likewise not modelled. An officer's phrase is looked up as `englishTranslations[text]?.[userLang]`, which yields no string for those keys, so that branch gives the bracketed text as the model does.
- FileReport.TranslateToEnglish and PccPdf.TranslateToEnglish: the same inherited-key lookup is not modelled. Their inputs are the fixed type labels and form fields.
- History.LastN: for n = 0 the model gives no elements, where JavaScript's `slice(-0)` gives them all. The code calls it only with 10 and 4.
- WomenOfficer.TypeName: an id outside the seven cards is named like "other_women". The page takes the name from the card, so no such id reaches it.
- Retrieval.Similarity: the contract fixes the bounds and exactly when the value is 0 or 1. The value in between is given by the definition only.
- Dashboard.TypeName: the contract says a known type gets a non-empty label different from the type, and `Dashboard.TypeNamesDistinct` that the four labels differ; the label texts themselves are given by the definition only.
- OfficerChat.Classify: for the topics after "complaint", the contract states only that a keyword of the topic occurs. The full precedence is stated by `OfficerChat.ClassifyIsFirstRule`.

=== FILE: chatbot.dfy ===
/** The assistant chat window (`RAGChatbot`): it shows the conversation,
    hands each non-blank message to the retrieval-and-reply engine, and
    falls back to an apology in the interface language when the engine
    fails. Speech input and output are browser I/O; the detected language of
    a spoken message arrives as a parameter, and engine failure as a flag. */
module Chatbot {
  import opened Common
  import opened Text
  import opened Languages
  import RagLanguage
  import Retrieval
  import History
  import Reply

  /** `getLanguageCode` of the chat window: the tag of the interface language. */
  function LanguageTag(language: Language): (r: Tag)
    ensures r != Ru
    ensures language == English <==> r == En
    ensures language == Hindi <==> r == Hi
  {
    match language
    case Hindi => Hi
    case Konkani => Kok
    case English => En
  }

  /** `getSpeechLanguageCode`: the same map as the engine's `getLanguageCode`. */
  function SpeechLanguageCode(code: string): (r: string)
    ensures r == Reply.SpeechLocale(code)
    ensures r == "en-IN" <==> code !in {"hi", "kok", "ru"}
  {
    match code
    case "hi" => "hi-IN"
    case "kok" => "hi-IN"
    case "ru" => "ru-RU"
    case _ => "en-IN"
  }

  /** `getLanguageFlag`: a fixed badge for hi, kok and ru, `EN` for anything else. */
  function LanguageFlag(code: string): (r: string)
    ensures code == "hi" ==> r == "हि"
    ensures code == "kok" ==> r == "कोंक"
    ensures code == "ru" ==> r == "РУ"
    ensures r == "EN" <==> code !in {"hi", "kok", "ru"}
  {
    match code
    case "hi" => "हि"
    case "kok" => "कोंक"
    case "ru" => "РУ"
    case _ => "EN"
  }

  /** The badge shown for a message tagged with a detected language. */
  lemma FlagOfTag(t: Tag)
    ensures LanguageFlag(TagCode(t)) == "EN" <==> t == En
  {
  }

  // The texts after each greeting word, kept apart so that proofs about the
  // opening characters need not unfold them.
  const WelcomeRestEnglish := "I am Goa Police AI Assistant. How can I help you today? You can ask me about police procedures, your rights, or any legal matters."
  const WelcomeRestHindi := "मैं गोवा पुलिस एआई सहायक हूं। मैं आपकी कैसे मदद कर सकता हूं? आप मुझसे पुलिस प्रक्रियाओं, अपने अधिकारों, या किसी भी कानूनी मुद्दे के बारे में पूछ सकते हैं।"
  const WelcomeRestKonkani := "हांव गोवा पोलिस एआई सहाय्यक. हांव तुमची कशी मदत करूं शकतां? तुम्ही म्हाका पोलिस प्रक्रिया, तुमचे हक्क, वा खंयच्याय कायदेशीर मुद्द्याविशीं विचारूं शकता."
  const ApologyRestEnglish := "but I am having trouble processing your request. Please try again."
  const ApologyRestHindi := "लेकिन मुझे आपके अनुरोध को संसाधित करने में समस्या हो रही है। कृपया पुनः प्रयास करें।"
  const ApologyRestKonkani := "पूण म्हाका तुमची विनंती प्रक्रिया करपांत अडचण येत आसा. कृपया परत प्रयत्न करा."

  /** `getWelcomeMessage`: the opening bubble in the interface language; only
      the English one is in Latin script. */
  function WelcomeMessage(language: Language): (r: string)
    ensures |r| > 0
    ensures language == English <==> 'A' <= r[0] <= 'Z'
  {
    match language
    case Hindi => "नमस्ते! " + WelcomeRestHindi
    case Konkani => "नमस्कार! " + WelcomeRestKonkani
    case English => "Hello! " + WelcomeRestEnglish
  }

  /** The apology shown when the engine fails, in the interface language. */
  function Apology(language: Language): (r: string)
    ensures |r| > 0
    ensures language == English <==> 'A' <= r[0] <= 'Z'
  {
    match language
    case English => "I apologize, " + ApologyRestEnglish
    case Hindi => "मुझे खेद है, " + ApologyRestHindi
    case Konkani => "म्हाका माफ करा, " + ApologyRestKonkani
  }

  /** Each language has its own welcome. */
  lemma WelcomesDistinct(a: Language, b: Language)
    ensures a != b ==> WelcomeMessage(a) != WelcomeMessage(b)
  {
    // only the English text opens with a Latin capital, and the other two
    // part at their fifth character
    if a != b && a != English && b != English {
      assert WelcomeMessage(a)[4] != WelcomeMessage(b)[4];
    }
  }

  /** Each language has its own apology. */
  lemma ApologiesDistinct(a: Language, b: Language)
    ensures a != b ==> Apology(a) != Apology(b)
  {
    // only the English text opens with a Latin capital, and the other two
    // part at their second character
    if a != b && a != English && b != English {
      assert Apology(a)[1] != Apology(b)[1];
    }
  }

  datatype Sender = User | Ai

  /** A chat bubble and the language code it is tagged with. */
  datatype ChatMessage = ChatMessage(text: string, sender: Sender, language: string)

  /** The window's messages and the engine's conversation history. */
  datatype Chat = Chat(messages: seq<ChatMessage>, history: seq<History.Message>)

  /** `detectedLang || getLanguageCode(language)`: an absent or empty
      detected code gives way to the interface language. */
  function UserLanguage(detected: Option<string>, language: Language): (r: string)
    ensures detected.Some? && detected.value != "" ==> r == detected.value
    ensures detected.None? || detected.value == "" ==> r == TagCode(LanguageTag(language))
  {
    if detected.Some? && detected.value != "" then detected.value else TagCode(LanguageTag(language))
  }

  /** The turn the engine records for a query before anything else it does
      can fail: the query, tagged with the language detected from it. */
  function UserTurn(text: string): (m: History.Message)
    ensures m.role == History.User && m.content == text
    ensures m.language == Some(RagLanguage.DetectLanguage(text))
  {
    History.Message(History.User, text, Some(RagLanguage.DetectLanguage(text)))
  }

  /** `handleUserMessage`: nothing for a blank message; otherwise the user's
      message, then either the engine's reply tagged with the reply language
      or, when the engine call fails (`outcome` is `None`), the apology
      tagged with the interface language. A failure can only come after
      the engine has recorded the user turn, so the history then holds it. */
  function HandleUserMessage(c: Chat, text: string, detected: Option<string>, language: Language,
                             outcome: Option<Reply.Response>): (r: Chat)
    ensures Trim(text) == "" ==> r == c
    ensures Trim(text) != "" ==> |r.messages| == |c.messages| + 2 && r.messages[..|c.messages|] == c.messages
    ensures Trim(text) != "" ==> r.messages[|c.messages|] == ChatMessage(text, User, UserLanguage(detected, language))
    ensures Trim(text) != "" && outcome.None? ==>
              r.messages[|c.messages| + 1] == ChatMessage(Apology(language), Ai, TagCode(LanguageTag(language)))
              && r.history == History.AddToHistory(c.history, UserTurn(text))
    ensures Trim(text) != "" && outcome.Some? ==>
              r.messages[|c.messages| + 1] == ChatMessage(outcome.value.response, Ai, TagCode(outcome.value.language))
              && r.history == outcome.value.history
  {
    if Trim(text) == "" then c
    else
      var user := ChatMessage(text, User, UserLanguage(detected, language));
      match outcome
      case None =>
        Chat(c.messages + [user, ChatMessage(Apology(language), Ai, TagCode(LanguageTag(language)))],
             History.AddToHistory(c.history, UserTurn(text)))
      case Some(g) =>
        Chat(c.messages + [user, ChatMessage(g.response, Ai, TagCode(g.language))], g.history)
  }

  /** The engine's answer to a message sent from the window. */
  function Ask(c: Chat, text: string, corpus: seq<Retrieval.Incident>): Option<Reply.Response> {
    Some(Reply.GenerateResponse(c.history, text, corpus))
  }

  /** A spoken message is tagged with the language detected from it, and the
      engine detects the same language, so question and reply carry the same
      tag. */
  lemma SpokenTurnTagsAgree(c: Chat, transcript: string, language: Language, corpus: seq<Retrieval.Incident>)
    requires Trim(transcript) != ""
    ensures var r := HandleUserMessage(c, transcript, Some(TagCode(RagLanguage.DetectLanguage(transcript))), language,
                                       Ask(c, transcript, corpus));
            r.messages[|c.messages|].language == r.messages[|c.messages| + 1].language
  {
    var d := TagCode(RagLanguage.DetectLanguage(transcript));
    var g := Reply.GenerateResponse(c.history, transcript, corpus);
    var r := HandleUserMessage(c, transcript, Some(d), language, Some(g));
    assert d != "";
    assert r.messages[|c.messages|] == ChatMessage(transcript, User, d);
    assert g.language == RagLanguage.DetectLanguage(transcript);
  }

  /** A typed message is tagged with the interface language, whatever the
      engine detects: a Russian question typed in the English interface is
      tagged `en` while its reply is tagged `ru`. */
  lemma TypedTurnTagsMayDiffer(c: Chat, text: string, corpus: seq<Retrieval.Incident>)
    requires Trim(text) != "" && RagLanguage.HasCyrillic(text)
    ensures var r := HandleUserMessage(c, text, None, English, Ask(c, text, corpus));
            r.messages[|c.messages|].language == "en" && r.messages[|c.messages| + 1].language == "ru"
  {
    var g := Reply.GenerateResponse(c.history, text, corpus);
    var r := HandleUserMessage(c, text, None, English, Some(g));
    assert g.language == Ru;
    assert r.messages[|c.messages|] == ChatMessage(text, User, "en");
  }

  /** When the engine fails the window still answers, with the apology in the
      interface language. The engine keeps the question without an answer:
      its history is the newest ten of the old turns and the question, so the
      next reply's context shows it. */
  lemma FailureApologises(c: Chat, text: string, detected: Option<string>, language: Language)
    requires Trim(text) != "" && |c.history| <= History.MaxHistory
    ensures var r := HandleUserMessage(c, text, detected, language, None);
            r.messages[|r.messages| - 1].text == Apology(language) && r.messages[|r.messages| - 1].sender == Ai
            && r.history == History.LastN(c.history + [UserTurn(text)], History.MaxHistory)
            && r.history[|r.history| - 1].role == History.User
            && Contains(History.Context(r.history), text)
  {
    var m := UserTurn(text);
    History.AddAllIsWindow(c.history, [m]);
    assert History.AddAll(c.history, [m]) == History.AddAll(History.AddToHistory(c.history, m), [m][1..]);
    History.ContextShowsLatest(c.history, m);
  }

  /** A failed call and a successful one record the same question: the
      answered history is the failed one plus the reply. */
  lemma FailureKeepsWhatSuccessRecords(c: Chat, text: string, corpus: seq<Retrieval.Incident>)
    requires Trim(text) != ""
    ensures var failed := HandleUserMessage(c, text, None, English, None);
            var g := Reply.GenerateResponse(c.history, text, corpus);
            g.history == History.AddToHistory(failed.history, History.Message(History.Assistant, g.response, Some(g.language)))
  {
  }

  /** `clearConversation`: only the welcome message remains, and the
      engine's history is emptied. */
  function ClearConversation(c: Chat, language: Language): (r: Chat)
    ensures |r.messages| == 1
    ensures r.messages[0] == ChatMessage(WelcomeMessage(language), Ai, TagCode(LanguageTag(language)))
    ensures |r.history| == 0
  {
    Chat([ChatMessage(WelcomeMessage(language), Ai, TagCode(LanguageTag(language)))], History.ClearHistory())
  }

  /** After clearing, the next reply is built without any earlier turn: the
      engine's history then holds exactly the new exchange. */
  lemma ClearedChatStartsFresh(c: Chat, language: Language, text: string, corpus: seq<Retrieval.Incident>)
    requires Trim(text) != ""
    ensures var c0 := ClearConversation(c, language);
            var r := HandleUserMessage(c0, text, None, language, Ask(c0, text, corpus));
            |r.messages| == 3 && |r.history| == 2
  {
    var c0 := ClearConversation(c, language);
    var g := Reply.GenerateResponse(c0.history, text, corpus);
    assert |g.history| == 2;
    ExchangeAfterWelcome(c0, text, language, g);
  }

  lemma ExchangeAfterWelcome(c: Chat, text: string, language: Language, g: Reply.Response)
    requires Trim(text) != "" && |c.messages| == 1 && |g.history| == 2
    ensures var r := HandleUserMessage(c, text, None, language, Some(g));
            |r.messages| == 3 && |r.history| == 2
  {
  }
}

=== FILE: common.dfy ===
/** Small sequence utilities shared by every part of the model: an optional
    value, first-match search (JavaScript's `find`/`findIndex`), counting,
    order-preserving filtering and duplicate-freedom. */
module Common {

  datatype Option<T> = None | Some(value: T)

  /** Index of the first element satisfying `p`, as `Array.prototype.findIndex`. */
  function FirstIndex<T>(s: seq<T>, p: T -> bool): (r: Option<nat>)
    ensures r.Some? ==> r.value < |s| && p(s[r.value])
    ensures r.Some? ==> forall j | 0 <= j < r.value :: !p(s[j])
    ensures r.None? <==> forall j | 0 <= j < |s| :: !p(s[j])
  {
    if |s| == 0 then None
    else if p(s[0]) then Some(0)
    else match FirstIndex(s[1..], p)
      case None => None
      case Some(k) => Some(k + 1)
  }

  /** First element satisfying `p`, as `Array.prototype.find`. */
  function Find<T>(s: seq<T>, p: T -> bool): (r: Option<T>)
    ensures r.Some? ==> r.value in s && p(r.value)
    ensures r.None? <==> forall j | 0 <= j < |s| :: !p(s[j])
    ensures r.Some? ==> exists i | 0 <= i < |s| :: s[i] == r.value && forall j | 0 <= j < i :: !p(s[j])
  {
    match FirstIndex(s, p)
    case None => None
    case Some(i) => Some(s[i])
  }

  /** `Array.prototype.filter`. */
  function Filter<T>(s: seq<T>, p: T -> bool): (r: seq<T>)
    ensures |r| <= |s|
    ensures forall i | 0 <= i < |r| :: r[i] in s && p(r[i])
    ensures forall i | 0 <= i < |s| :: p(s[i]) ==> s[i] in r
    ensures IsSubsequence(r, s)
  {
    if |s| == 0 then []
    else if p(s[0]) then [s[0]] + Filter(s[1..], p)
    else Filter(s[1..], p)
  }

  /** Number of elements satisfying `p` (`filter(p).length`). */
  function Count<T>(s: seq<T>, p: T -> bool): (n: nat)
    ensures n <= |s|
    ensures n == 0 <==> forall j | 0 <= j < |s| :: !p(s[j])
    ensures n == |s| <==> forall j | 0 <= j < |s| :: p(s[j])
  {
    if |s| == 0 then 0 else (if p(s[0]) then 1 else 0) + Count(s[1..], p)
  }

  /** Filtering keeps as many elements as it counts. */
  lemma {:induction false} FilterLengthIsCount<T>(s: seq<T>, p: T -> bool)
    ensures |Filter(s, p)| == Count(s, p)
  {
    if |s| > 0 {
      FilterLengthIsCount(s[1..], p);
    }
  }

  /** Filters that agree on every element keep the same elements. */
  lemma {:induction false} FilterAgree<T>(s: seq<T>, p: T -> bool, q: T -> bool)
    requires forall i | 0 <= i < |s| :: p(s[i]) == q(s[i])
    ensures Filter(s, p) == Filter(s, q)
  {
    if |s| > 0 {
      FilterAgree(s[1..], p, q);
    }
  }

  /** A filter every element passes changes nothing. */
  lemma {:induction false} FilterKeepsAll<T>(s: seq<T>, p: T -> bool)
    requires forall i | 0 <= i < |s| :: p(s[i])
    ensures Filter(s, p) == s
  {
    if |s| > 0 {
      FilterKeepsAll(s[1..], p);
      assert s == [s[0]] + s[1..];
    }
  }

  /** Two properties no element has both of, and every element has one of,
      split the count of a sequence. */
  lemma {:induction false} CountSplit<T>(s: seq<T>, p: T -> bool, q: T -> bool)
    requires forall i | 0 <= i < |s| :: p(s[i]) != q(s[i])
    ensures Count(s, p) + Count(s, q) == |s|
  {
    if |s| > 0 {
      CountSplit(s[1..], p, q);
    }
  }

  /** Appending one element adds one to the count exactly when it qualifies. */
  lemma {:induction false} CountAppend<T>(s: seq<T>, x: T, p: T -> bool)
    ensures Count(s + [x], p) == Count(s, p) + (if p(x) then 1 else 0)
  {
    if |s| > 0 {
      assert (s + [x])[1..] == s[1..] + [x];
      CountAppend(s[1..], x, p);
    } else {
      assert (s + [x])[1..] == [];
    }
  }

  /** `a` is `b` with some elements dropped, order kept. */
  ghost predicate IsSubsequence<T>(a: seq<T>, b: seq<T>)
    decreases |b|
  {
    |a| == 0 || (|b| > 0 && ((a[0] == b[0] && IsSubsequence(a[1..], b[1..])) || IsSubsequence(a, b[1..])))
  }

  lemma SubsequenceRefl<T>(a: seq<T>)
    ensures IsSubsequence(a, a)
  {
    if |a| > 0 {
      SubsequenceRefl(a[1..]);
    }
  }

  predicate NoDup<T(==)>(s: seq<T>) {
    forall i, j | 0 <= i < j < |s| :: s[i] != s[j]
  }

  /** Removing every copy of `x`, as `filter(e => e !== x)`. */
  function RemoveAll<T(==)>(s: seq<T>, x: T): (r: seq<T>)
    ensures forall i | 0 <= i < |r| :: r[i] in s && r[i] != x
    ensures forall i | 0 <= i < |s| :: s[i] != x ==> s[i] in r
    ensures |r| <= |s|
    ensures x !in s ==> r == s
    ensures NoDup(s) ==> NoDup(r)
  {
    if |s| == 0 then []
    else if s[0] == x then RemoveAll(s[1..], x)
    else [s[0]] + RemoveAll(s[1..], x)
  }

  /** Removal works piecewise over a concatenation. */
  lemma {:induction false} RemoveAllConcat<T>(a: seq<T>, b: seq<T>, x: T)
    ensures RemoveAll(a + b, x) == RemoveAll(a, x) + RemoveAll(b, x)
  {
    if |a| > 0 {
      assert (a + b)[1..] == a[1..] + b;
      RemoveAllConcat(a[1..], b, x);
    } else {
      assert a + b == b;
    }
  }

  /** A duplicate-free sequence has as many elements as its set. */
  lemma {:induction false} NoDupCardinality<T>(s: seq<T>)
    requires NoDup(s)
    ensures |set x | x in s| == |s|
  {
    if |s| > 0 {
      var rest := set x | x in s[1..];
      NoDupCardinality(s[1..]);
      assert s[0] !in rest by {
        forall j | 0 <= j < |s[1..]|
          ensures s[1..][j] != s[0]
        {
          assert s[1..][j] == s[j + 1];
        }
      }
      assert (set x | x in s) == {s[0]} + rest;
    }
  }

  /** A duplicate-free sequence drawn from `pool` is no longer than `pool`'s set of values. */
  lemma {:induction false} NoDupSubsetBound<T>(s: seq<T>, pool: seq<T>)
    requires NoDup(s)
    requires forall x | x in s :: x in pool
    ensures |s| <= |set x | x in pool|
  {
    NoDupCardinality(s);
    var a := set x | x in s;
    var b := set x | x in pool;
    assert a <= b;
    SubsetCardinality(a, b);
  }

  lemma SubsetCardinality<T>(a: set<T>, b: set<T>)
    requires a <= b
    ensures |a| <= |b|
  {
    if a != {} {
      var x :| x in a;
      SubsetCardinality(a - {x}, b - {x});
    }
  }

  function Max(a: int, b: int): int { if a >= b then a else b }
  function MaxReal(a: real, b: real): real { if a >= b then a else b }
}

=== FILE: complaint_filing.dfy ===
/** The complaint wizard (`ComplaintFiling`): the issue is picked from the
    interface's issue names or, for "others", typed into a prompt; the
    stored copy carries the issue and the description translated to English.
    The prompt's answer is a parameter. */
module ComplaintFiling {
  import opened Common
  import opened Languages
  import opened Wizard

  /** `issueTypes`. */
  function IssueTypes(language: Language): (r: seq<string>)
    ensures |r| == 6 && r[5] == IssueLabel(OtherIssue, language)
  {
    [ IssueLabel(Theft, language), IssueLabel(Harassment, language), IssueLabel(Cybercrime, language),
      IssueLabel(TrafficViolation, language), IssueLabel(PccIssue, language), IssueLabel(OtherIssue, language) ]
  }

  /** `handleIssueSelect`: "others" asks for a description and takes a
      non-empty answer; any other issue is taken as it is. */
  function HandleIssueSelect(d: FilingData, issue: string, language: Language, answer: Option<string>): (r: FilingData)
    ensures r.info == d.info && r.documentsChecked == d.documentsChecked
    ensures issue != IssueLabel(OtherIssue, language) ==> r.issueType == issue
    ensures issue == IssueLabel(OtherIssue, language) && answer.Some? && answer.value != "" ==> r.issueType == answer.value
    ensures issue == IssueLabel(OtherIssue, language) && (answer.None? || answer.value == "") ==> r == d
  {
    if issue == IssueLabel(OtherIssue, language) then
      (if answer.Some? && answer.value != "" then d.(issueType := answer.value) else d)
    else d.(issueType := issue)
  }

  const TranslationMap: map<string, string> := map[
    "चोरी" := "Theft",
    "उत्पीड़न" := "Harassment",
    "साइबर अपराध" := "Cybercrime",
    "यातायात उल्लंघन" := "Traffic Violation",
    "पुलिस चरित्र प्रमाणपत्र (पीसीसी)" := "Police Clearance Certificate (PCC)",
    "छळवणूक" := "Harassment",
    "सायबर गुन्हा" := "Cybercrime",
    "वाहतूक उल्लंघन" := "Traffic Violation",
    "पोलिस चारित्र्य प्रमाणपत्र (पीसीसी)" := "Police Clearance Certificate (PCC)"
  ]

  /** `translateToEnglish`: a total lookup that leaves unknown text as it is. */
  function TranslateToEnglish(text: string): (r: string)
    ensures text in TranslationMap ==> r == TranslationMap[text]
    ensures text !in TranslationMap ==> r == text
  {
    if text in TranslationMap && TranslationMap[text] != "" then TranslationMap[text] else text
  }

  /** Every issue but "others" reaches the police under its English name. */
  lemma IssueLabelsTranslate(issue: Issue, language: Language)
    requires issue != OtherIssue
    ensures TranslateToEnglish(IssueLabel(issue, language)) == IssueLabel(issue, English)
  {
    match language
    case English =>
      var e := IssueLabel(issue, English);
      assert 'A' <= e[0] <= 'Z';
    case Hindi =>
    case Konkani =>
  }

  /** An issue picked from the list reaches the stored copy under its English
      name; a typed "others" answer reaches it as the lookup leaves it. */
  lemma SelectedIssueStoredInEnglish(d: FilingData, issue: Issue, language: Language, answer: Option<string>)
    ensures issue != OtherIssue ==>
              TranslatedCopy(HandleIssueSelect(d, IssueLabel(issue, language), language, answer)).issueType
              == IssueLabel(issue, English)
    ensures issue == OtherIssue && answer.Some? && answer.value != "" ==>
              TranslatedCopy(HandleIssueSelect(d, IssueLabel(issue, language), language, answer)).issueType
              == TranslateToEnglish(answer.value)
  {
    if issue != OtherIssue {
      assert IssueLabel(issue, language) != IssueLabel(OtherIssue, language) by {
        var x, y := IssueLabel(issue, language), IssueLabel(OtherIssue, language);
        assert x[0] != y[0] || x[1] != y[1] || |x| != |y|;
      }
      IssueLabelsTranslate(issue, language);
    }
  }

  /** Both certificate labels become the same English one. */
  lemma PccLabelsAgree()
    ensures TranslateToEnglish(IssueLabel(PccIssue, Hindi)) == "Police Clearance Certificate (PCC)"
    ensures TranslateToEnglish(IssueLabel(PccIssue, Konkani)) == "Police Clearance Certificate (PCC)"
  {
  }

  /** No English value is a key, so translating twice is translating once. */
  lemma TranslateIdempotent(text: string)
    ensures TranslateToEnglish(TranslateToEnglish(text)) == TranslateToEnglish(text)
  {
    KeysAreDevanagari();
    ValuesAreLatin();
  }

  lemma KeysAreDevanagari()
    ensures forall t | t in TranslationMap :: |t| > 0 && t[0] >= '\U{0900}'
  {
  }

  lemma ValuesAreLatin()
    ensures forall t | t in TranslationMap :: |TranslationMap[t]| > 0 && TranslationMap[t][0] <= 'Z'
  {
  }

  /** The copy saved for the police: the issue and the description in
      English, every other field as entered. */
  function TranslatedCopy(d: FilingData): (r: FilingData)
    ensures r.issueType == TranslateToEnglish(d.issueType)
    ensures r.info.description == TranslateToEnglish(d.info.description)
    ensures forall f | f != Description :: FieldOf(r.info, f) == FieldOf(d.info, f)
    ensures r.documentsChecked == d.documentsChecked
  {
    d.(issueType := TranslateToEnglish(d.issueType), info := d.info.(description := TranslateToEnglish(d.info.description)))
  }

  /** An English complaint is stored as entered, as long as its texts are not
      themselves Devanagari labels. */
  lemma EnglishCopyUnchanged(d: FilingData)
    requires d.issueType !in TranslationMap && d.info.description !in TranslationMap
    ensures TranslatedCopy(d) == d
  {
  }

  /** The Next button's `disabled` condition: steps 1 and 2 without an issue,
      or step 3 with one of the six incident fields empty. */
  predicate NextDisabled(step: int, d: FilingData) {
    ((step == 1 || step == 2) && d.issueType == "") || (step == 3 && !IncidentFieldsFilled(d.info))
  }

  /** Next on the complaint form: an issue is needed to leave steps 1 and 2
      and the six incident fields to leave step 3, while step 4 always moves on. */
  function PressNext(step: int, d: FilingData): (r: int)
    ensures ValidStep(step) ==> ValidStep(r)
    ensures r == step + 1 <==> step < LastStep && !NextDisabled(step, d)
    ensures r != step + 1 ==> r == step
    ensures step == 1 || step == 2 ==> (r == step + 1 <==> d.issueType != "")
    ensures step == 3 ==> (r == 4 <==> IncidentFieldsFilled(d.info))
    ensures step == 4 ==> r == 5
  {
    Advance(step, NextDisabled(step, d))
  }

  /** The draft step is reachable only with an issue and all six incident
      fields filled: pressing Next from step 1 to step 4 requires them. */
  lemma DraftNeedsCompleteForm(d: FilingData)
    requires PressNext(PressNext(PressNext(1, d), d), d) == 4
    ensures d.issueType != "" && IncidentFieldsFilled(d.info)
  {
  }
}

=== FILE: dashboard.dfy ===
/** The police dashboard: complaints split into pending and completed tabs,
    narrowed by a type filter and a case-insensitive search on the
    complainant's name or token, labelled by type, and counted for the
    summary cards. Loading and status updates go through the database
    client and are not part of this model. */
module Dashboard {
  import opened Common
  import opened Text
  import opened Languages

  datatype Status = Pending | InProgress | Resolved

  /** The fields of a stored complaint the dashboard reads; `category` is
      `complaint_data.category` when present. */
  datatype Complaint = Complaint(kind: string, token: string, name: string, status: Status, category: Option<string>)

  predicate IsOpen(c: Complaint) {
    c.status == Pending || c.status == InProgress
  }

  predicate IsResolved(c: Complaint) {
    c.status == Resolved
  }

  /** `pendingComplaints`: the open complaints, in their order. */
  function PendingComplaints(cs: seq<Complaint>): (r: seq<Complaint>)
    ensures IsSubsequence(r, cs)
    ensures forall i | 0 <= i < |r| :: r[i] in cs && r[i].status != Resolved
    ensures forall i | 0 <= i < |cs| :: cs[i].status != Resolved ==> cs[i] in r
  {
    Filter(cs, IsOpen)
  }

  /** `completedComplaints`: the resolved complaints, in their order. */
  function CompletedComplaints(cs: seq<Complaint>): (r: seq<Complaint>)
    ensures IsSubsequence(r, cs)
    ensures forall i | 0 <= i < |r| :: r[i] in cs && r[i].status == Resolved
    ensures forall i | 0 <= i < |cs| :: cs[i].status == Resolved ==> cs[i] in r
  {
    Filter(cs, IsResolved)
  }

  /** The two tabs partition the complaints: none is on both, and between
      them they hold every complaint once. */
  lemma TabsPartition(cs: seq<Complaint>)
    ensures |PendingComplaints(cs)| + |CompletedComplaints(cs)| == |cs|
    ensures forall c | c in PendingComplaints(cs) :: c !in CompletedComplaints(cs)
  {
    FilterLengthIsCount(cs, IsOpen);
    FilterLengthIsCount(cs, IsResolved);
    CountSplit(cs, IsOpen, IsResolved);
  }

  /** The type selector: everything, or one type. */
  datatype TypeFilter = All | OfKind(kind: string)

  predicate MatchesFilter(c: Complaint, filter: TypeFilter) {
    filter.All? || c.kind == filter.kind
  }

  predicate MatchesSearch(c: Complaint, term: string) {
    Contains(ToLower(c.name), ToLower(term)) || Contains(ToLower(c.token), ToLower(term))
  }

  predicate Shown(c: Complaint, filter: TypeFilter, term: string) {
    MatchesFilter(c, filter) && MatchesSearch(c, term)
  }

  /** `getFilteredComplaints`: the complaints of the selected type whose name
      or token contains the search term, ignoring case, in their order. */
  function GetFilteredComplaints(cs: seq<Complaint>, filter: TypeFilter, term: string): (r: seq<Complaint>)
    ensures IsSubsequence(r, cs)
    ensures forall i | 0 <= i < |r| :: MatchesFilter(r[i], filter) && MatchesSearch(r[i], term)
    ensures forall i | 0 <= i < |cs| :: MatchesFilter(cs[i], filter) && MatchesSearch(cs[i], term) ==> cs[i] in r
  {
    Filter(cs, (c: Complaint) => Shown(c, filter, term))
  }

  /** With every type and an empty search, the list is shown unchanged. */
  lemma NoFilterShowsAll(cs: seq<Complaint>)
    ensures GetFilteredComplaints(cs, All, "") == cs
  {
    forall i | 0 <= i < |cs|
      ensures Shown(cs[i], All, "")
    {
      ContainsEmpty(ToLower(cs[i].name));
    }
    FilterKeepsAll(cs, (c: Complaint) => Shown(c, All, ""));
  }

  /** The search ignores the case of the term. */
  lemma SearchIgnoresCase(cs: seq<Complaint>, filter: TypeFilter, term: string)
    ensures GetFilteredComplaints(cs, filter, ToLower(term)) == GetFilteredComplaints(cs, filter, term)
  {
    ToLowerIdempotent(term);
    FilterAgree(cs, (c: Complaint) => Shown(c, filter, ToLower(term)), (c: Complaint) => Shown(c, filter, term));
  }

  /** The SOS card: complaints of type `sos`. */
  function SosCount(cs: seq<Complaint>): (n: nat)
    ensures n <= |cs|
    ensures n == 0 <==> forall i | 0 <= i < |cs| :: cs[i].kind != "sos"
  {
    Count(cs, (c: Complaint) => c.kind == "sos")
  }

  /** The women's-safety card: complaints whose data has category `women_safety`. */
  function WomenSafetyCount(cs: seq<Complaint>): (n: nat)
    ensures n <= |cs|
    ensures n == 0 <==> forall i | 0 <= i < |cs| :: cs[i].category != Some("women_safety")
  {
    Count(cs, (c: Complaint) => c.category == Some("women_safety"))
  }

  /** The SOS card counts exactly what the SOS filter lists with an empty search. */
  lemma SosCountIsSosList(cs: seq<Complaint>)
    ensures SosCount(cs) == |GetFilteredComplaints(cs, OfKind("sos"), "")|
  {
    var sos := (c: Complaint) => c.kind == "sos";
    var shown := (c: Complaint) => Shown(c, OfKind("sos"), "");
    forall i | 0 <= i < |cs|
      ensures shown(cs[i]) == sos(cs[i])
    {
      ContainsEmpty(ToLower(cs[i].name));
    }
    FilterAgree(cs, shown, sos);
    FilterLengthIsCount(cs, sos);
  }

  /** The four known types. */
  const KnownKinds: set<string> := {"complaint", "sos", "pcc", "women_complaint"}

  /** `getComplaintTypeName`: a localized label for a known type, the type
      itself for any other. */
  function TypeName(kind: string, language: Language): (r: string)
    ensures kind !in KnownKinds ==> r == kind
    ensures kind in KnownKinds ==> r != kind && |r| > 0
  {
    match kind
    case "complaint" =>
      (match language case English => "File Complaint" case Hindi => "शिकायत दर्ज" case Konkani => "शिकायत दाखल")
    case "sos" =>
      (match language case English => "SOS Emergency" case Hindi => "एसओएस आपातकाल" case Konkani => "एसओएस तातकाळ")
    case "pcc" =>
      (match language case English => "PCC Application" case Hindi => "पीसीसी आवेदन" case Konkani => "पीसीसी अर्ज")
    case "women_complaint" =>
      (match language case English => "Women Officer Section" case Hindi => "महिला अधिकारी अनुभाग" case Konkani => "महिला अधिकारी विभाग")
    case _ => kind
  }

  /** The four known types get four different labels in every language, so
      the dashboard never shows two kinds under one name. */
  lemma TypeNamesDistinct(language: Language)
    ensures forall a, b | a in KnownKinds && b in KnownKinds && a != b :: TypeName(a, language) != TypeName(b, language)
  {
    // the four labels already differ in their first character
    var c, s, p, w := TypeName("complaint", language), TypeName("sos", language),
                      TypeName("pcc", language), TypeName("women_complaint", language);
    assert c[0] != s[0] && c[0] != p[0] && c[0] != w[0] && s[0] != p[0] && s[0] != w[0] && p[0] != w[0];
  }
}

=== FILE: file_report.dfy ===
/** The report wizard (`FileReport`): pick an issue, read the process, fill
    in the incident, tick documents, submit. The issue list is indexed by an
    id; submission stores the report for the dashboard with the issue name
    translated to English. The token (random) and the outcome of the
    database write are parameters. */
module FileReport {
  import opened Common
  import opened Languages
  import opened Wizard
  import Dashboard

  /** An entry of `issueTypes`. */
  datatype IssueOption = IssueOption(id: string, name: string)

  /** `issueTypes`: nine issues; four names come from the interface tables,
      the others are spelled out per language. */
  function IssueTypes(language: Language): (r: seq<IssueOption>)
    ensures |r| == 9
  {
    [ IssueOption("theft", IssueLabel(Theft, language)),
      IssueOption("harassment", IssueLabel(Harassment, language)),
      IssueOption("cybercrime", IssueLabel(Cybercrime, language)),
      IssueOption("traffic", IssueLabel(TrafficViolation, language)),
      IssueOption("domestic", match language case English => "Domestic Violence" case Hindi => "घरेलू हिंसा" case Konkani => "घरगुती हिंसा"),
      IssueOption("missing", match language case English => "Missing Person" case Hindi => "लापता व्यक्ति" case Konkani => "बेपत्ता व्यक्ती"),
      IssueOption("noise", match language case English => "Noise Complaint" case Hindi => "शोर की शिकायत" case Konkani => "आवाजाची शिकायत"),
      IssueOption("property", match language case English => "Property Dispute" case Hindi => "संपत्ति विवाद" case Konkani => "मालमत्तेचो वाद"),
      IssueOption("other", IssueLabel(OtherIssue, language)) ]
  }

  /** `handleIssueSelect`: the issue type becomes the name of the first issue
      with that id; an unknown id changes nothing. */
  function HandleIssueSelect(d: FilingData, issues: seq<IssueOption>, id: string): (r: FilingData)
    ensures r.info == d.info && r.documentsChecked == d.documentsChecked
    ensures (forall i | 0 <= i < |issues| :: issues[i].id != id) ==> r == d
    ensures forall i | 0 <= i < |issues| && issues[i].id == id ::
              (forall j | 0 <= j < i :: issues[j].id != id) ==> r.issueType == issues[i].name
  {
    match Find(issues, (o: IssueOption) => o.id == id)
    case None => d
    case Some(o) => d.(issueType := o.name)
  }

  /** The id steps 2 and 4 look up their content by: the id of the first
      issue with the chosen name, or `other` when none has it. */
  function SelectedIssueId(issues: seq<IssueOption>, issueType: string): (r: string)
    ensures (forall i | 0 <= i < |issues| :: issues[i].name != issueType) ==> r == "other"
    ensures forall i | 0 <= i < |issues| && issues[i].name == issueType ::
              (forall j | 0 <= j < i :: issues[j].name != issueType) ==> r == (if issues[i].id == "" then "other" else issues[i].id)
  {
    match Find(issues, (o: IssueOption) => o.name == issueType)
    case None => "other"
    case Some(o) => if o.id == "" then "other" else o.id
  }

  predicate DistinctNames(issues: seq<IssueOption>) {
    forall i, j | 0 <= i < j < |issues| :: issues[i].name != issues[j].name
  }

  /** When names are distinct, the process and checklist steps find the
      issue that was selected by id on step 1. */
  lemma SelectThenLookUp(d: FilingData, issues: seq<IssueOption>, k: nat)
    requires DistinctNames(issues)
    requires k < |issues| && issues[k].id != ""
    requires forall j | 0 <= j < k :: issues[j].id != issues[k].id
    ensures SelectedIssueId(issues, HandleIssueSelect(d, issues, issues[k].id).issueType) == issues[k].id
  {
    var r := HandleIssueSelect(d, issues, issues[k].id);
    assert r.issueType == issues[k].name;
  }

  /** Within one language no two issues share a name. */
  lemma IssueNamesDistinct(language: Language)
    ensures DistinctNames(IssueTypes(language))
  {
  }

  /** `translateToEnglish`: the Hindi and Konkani issue names the dashboard
      should see in English. */
  const TypeMap: map<string, string> := map[
    "चोरी" := "Theft",
    "उत्पीड़न" := "Harassment",
    "साइबर अपराध" := "Cybercrime",
    "यातायात उल्लंघन" := "Traffic Violation",
    "घरेलू हिंसा" := "Domestic Violence",
    "लापता व्यक्ति" := "Missing Person",
    "शोर की शिकायत" := "Noise Complaint",
    "संपत्ति विवाद" := "Property Dispute",
    "छळवणूक" := "Harassment",
    "सायबर गुन्हा" := "Cybercrime",
    "वाहतूक उल्लंघन" := "Traffic Violation",
    "घरगुती हिंसा" := "Domestic Violence",
    "बेपत्ता व्यक्ती" := "Missing Person",
    "आवाजाची शिकायत" := "Noise Complaint",
    "मालमत्तेचो वाद" := "Property Dispute"
  ]

  /** `typeMap[type] || type`: a listed name in English, anything else unchanged. */
  function TranslateToEnglish(kind: string): (r: string)
    ensures kind in TypeMap ==> r == TypeMap[kind]
    ensures kind !in TypeMap ==> r == kind
  {
    if kind in TypeMap && TypeMap[kind] != "" then TypeMap[kind] else kind
  }

  /** Every issue but "other" is stored under its English name, whatever the
      interface language. */
  lemma IssueNamesTranslate(language: Language, k: nat)
    requires k < 8
    ensures TranslateToEnglish(IssueTypes(language)[k].name) == IssueTypes(English)[k].name
  {
    match language
    case English => EnglishNamesUnmapped(k);
    case Hindi => HindiNamesMapped(k);
    case Konkani => KonkaniNamesMapped(k);
  }

  lemma EnglishNamesUnmapped(k: nat)
    requires k < 9
    ensures IssueTypes(English)[k].name !in TypeMap
  {
    var e := IssueTypes(English)[k].name;
    assert 'A' <= e[0] <= 'Z';
    TypeMapKeysAreDevanagari();
  }

  lemma TypeMapValuesAreLatin()
    ensures forall t | t in TypeMap :: |TypeMap[t]| > 0 && TypeMap[t][0] <= 'Z'
  {
  }

  lemma TypeMapKeysAreDevanagari()
    ensures forall t | t in TypeMap :: |t| > 0 && t[0] >= '\U{0900}'
  {
  }

  lemma HindiNamesMapped(k: nat)
    requires k < 8
    ensures IssueTypes(Hindi)[k].name in TypeMap
    ensures TypeMap[IssueTypes(Hindi)[k].name] == IssueTypes(English)[k].name
  {
    var s := IssueTypes(Hindi);
    if k == 0 { assert s[0].name == "चोरी"; }
    else if k == 1 { assert s[1].name == "उत्पीड़न"; }
    else if k == 2 { assert s[2].name == "साइबर अपराध"; }
    else if k == 3 { assert s[3].name == "यातायात उल्लंघन"; }
  }

  lemma KonkaniNamesMapped(k: nat)
    requires k < 8
    ensures IssueTypes(Konkani)[k].name in TypeMap
    ensures TypeMap[IssueTypes(Konkani)[k].name] == IssueTypes(English)[k].name
  {
    var s := IssueTypes(Konkani);
    if k == 0 { assert s[0].name == "चोरी"; }
    else if k == 1 { assert s[1].name == "छळवणूक"; }
    else if k == 2 { assert s[2].name == "सायबर गुन्हा"; }
    else if k == 3 { assert s[3].name == "वाहतूक उल्लंघन"; }
  }

  /** The "other" issue is not in the map: a Hindi or Konkani report of that
      kind reaches the dashboard with its local name. */
  lemma OtherStaysUntranslated()
    ensures TranslateToEnglish(IssueTypes(Hindi)[8].name) == "अन्य"
    ensures TranslateToEnglish(IssueTypes(Konkani)[8].name) == "इतर"
  {
  }

  /** No English name is itself a key, so translating twice is translating once. */
  lemma TranslateIdempotent(kind: string)
    ensures TranslateToEnglish(TranslateToEnglish(kind)) == TranslateToEnglish(kind)
  {
    TypeMapKeysAreDevanagari();
    TypeMapValuesAreLatin();
  }

  /** The Next button's `disabled` condition: step 1 without an issue, or
      step 3 with one of the six incident fields empty. */
  predicate NextDisabled(step: int, d: FilingData) {
    (step == 1 && d.issueType == "") || (step == 3 && !IncidentFieldsFilled(d.info))
  }

  /** Next on the report form: an issue is needed to leave step 1 and the
      six incident fields to leave step 3, while steps 2 and 4 always move on. */
  function PressNext(step: int, d: FilingData): (r: int)
    ensures ValidStep(step) ==> ValidStep(r)
    ensures r == step + 1 || r == step
    ensures r == step + 1 <==> step < LastStep && !NextDisabled(step, d)
    ensures step == 1 ==> (r == 2 <==> d.issueType != "")
    ensures step == 3 ==> (r == 4 <==> IncidentFieldsFilled(d.info))
    ensures step == 2 || step == 4 ==> r == step + 1
  {
    Advance(step, NextDisabled(step, d))
  }

  /** What is stored: the dashboard's view of the record, and the complaint
      data with the issue in English. */
  datatype StoredReport = StoredReport(
    complaint: Dashboard.Complaint, phone: string, email: string,
    issue: string, description: string, location: string, date: string, documents: seq<string>)

  datatype SubmitOutcome =
    | Refused
    | Submitted(token: string, stored: StoredReport, receipt: bool)

  /** `handleSubmit`: refused while the issue, name, phone or description is
      empty; otherwise the report is stored as a pending complaint and the
      receipt appears only when the write succeeds. */
  function Submit(d: FilingData, token: string, saved: bool): (r: SubmitOutcome)
    ensures r.Refused? <==> d.issueType == "" || d.info.name == "" || d.info.phone == "" || d.info.description == ""
    ensures r.Submitted? ==> r.token == token && r.receipt == saved
    ensures r.Submitted? ==> r.stored.complaint == Dashboard.Complaint("complaint", token, d.info.name, Dashboard.Pending, None)
    ensures r.Submitted? ==> r.stored.issue == TranslateToEnglish(d.issueType) && r.stored.documents == d.documentsChecked
    ensures r.Submitted? ==> r.stored.description == d.info.description && r.stored.location == d.info.incidentLocation
  {
    if d.issueType == "" || d.info.name == "" || d.info.phone == "" || d.info.description == "" then Refused
    else
      var c := Dashboard.Complaint("complaint", token, d.info.name, Dashboard.Pending, None);
      Submitted(token, StoredReport(c, d.info.phone, d.info.email, TranslateToEnglish(d.issueType),
                                     d.info.description, d.info.incidentLocation, d.info.incidentDate, d.documentsChecked), saved)
  }

  /** Whoever got past step 1 and step 3 with Next has filled everything
      submission checks for. */
  lemma PassingTheStepsAllowsSubmit(d: FilingData, token: string, saved: bool)
    requires PressNext(1, d) == 2 && PressNext(3, d) == 4
    ensures Submit(d, token, saved).Submitted?
  {
  }

  /** A submitted report lands on the dashboard's pending tab under the
      "File Complaint" label. */
  lemma SubmittedReportIsPending(cs: seq<Dashboard.Complaint>, d: FilingData, token: string, saved: bool, language: Language)
    requires Submit(d, token, saved).Submitted?
    ensures Submit(d, token, saved).stored.complaint in Dashboard.PendingComplaints(cs + [Submit(d, token, saved).stored.complaint])
    ensures Dashboard.TypeName(Submit(d, token, saved).stored.complaint.kind, language) != "complaint"
  {
    var c := Submit(d, token, saved).stored.complaint;
    assert (cs + [c])[|cs|] == c;
    assert c.kind in Dashboard.KnownKinds;
  }
}

=== FILE: get_information.dfy ===
/** The information screen (`GetInformation`): ten common situations, each
    with a title, three rights, three steps and three documents, and the text
    read aloud for one of them. Only the English wording of the situations is
    modelled; the screen picks Hindi or Konkani wording the same way. */
module Information {
  import opened Languages
  import opened Text

  /** A situation: `QueryInfo` without its icon and colour. */
  datatype QueryInfo = QueryInfo(id: string, title: string, rights: seq<string>, steps: seq<string>, documents: seq<string>)

  /** `commonQueries` in English. */
  const CommonQueries: seq<QueryInfo> := [
    QueryInfo("house-theft", "House Theft",
      ["Right to file FIR immediately", "Right to get copy of FIR", "Right to investigation updates"],
      ["Report immediately to nearest police station", "File detailed FIR with stolen items list", "Provide evidence and witness details"],
      ["Identity proof", "Address proof", "List of stolen items with value"]),
    QueryInfo("assault", "Physical Assault",
      ["Right to immediate medical aid", "Right to file complaint", "Right to protection"],
      ["Seek immediate medical attention", "Report to police with medical certificate", "Identify witnesses and gather evidence"],
      ["Medical certificate", "Identity proof", "Witness contact details"]),
    QueryInfo("pcc", "Police Clearance Certificate",
      ["Right to apply for PCC", "Right to timely processing", "Right to track application status"],
      ["Fill PCC application form", "Submit required documents", "Pay prescribed fees"],
      ["Passport size photographs", "Identity and address proof", "Purpose declaration letter"]),
    QueryInfo("traffic-violation", "Traffic Violation",
      ["Right to see evidence of violation", "Right to contest the challan", "Right to legal representation"],
      ["Check challan details online", "Pay fine online or at designated centers", "Contest in traffic court if needed"],
      ["Driving license", "Vehicle registration", "Insurance papers"]),
    QueryInfo("cyber-crime", "Cyber Crime",
      ["Right to report to cyber cell", "Right to preserve digital evidence", "Right to technical assistance"],
      ["Do not delete any evidence", "Take screenshots of fraudulent messages", "Report to cyber crime cell immediately"],
      ["Screenshots of fraud messages", "Bank statements", "Transaction details"]),
    QueryInfo("domestic-violence", "Domestic Violence",
      ["Right to protection and safety", "Right to file complaint", "Right to legal aid and counseling"],
      ["Ensure immediate safety", "Contact women helpline or police", "File complaint with evidence"],
      ["Medical certificate (if injured)", "Evidence of violence (photos, videos)", "Witness statements"]),
    QueryInfo("missing-person", "Missing Person",
      ["Right to file missing person report", "Right to immediate police action", "Right to regular updates"],
      ["Report immediately to police", "Provide recent photograph and details", "Check with hospitals and relatives"],
      ["Recent photograph", "Identity proof of missing person", "Last known location details"]),
    QueryInfo("noise-complaint", "Noise Complaint",
      ["Right to peaceful environment", "Right to file noise complaint", "Right to immediate action"],
      ["Try to resolve amicably first", "Document noise levels and timings", "File complaint with police"],
      ["Audio/video evidence", "Witness statements", "Time log of disturbances"]),
    QueryInfo("property-dispute", "Property Dispute",
      ["Right to legal remedy", "Right to file complaint", "Right to protection of property"],
      ["Gather all property documents", "Try mediation first", "File complaint if needed"],
      ["Property title documents", "Sale deed/agreement", "Survey documents"]),
    QueryInfo("vehicle-theft", "Vehicle Theft",
      ["Right to file FIR immediately", "Right to insurance claim", "Right to investigation"],
      ["Report theft immediately", "File FIR with vehicle details", "Inform insurance company"],
      ["Vehicle registration certificate", "Insurance papers", "Driving license"])
  ]

  /** Every situation has its own id and exactly three rights, three steps
      and three documents. */
  lemma CommonQueriesShape()
    ensures |CommonQueries| == 10
    ensures forall i, j | 0 <= i < j < |CommonQueries| :: CommonQueries[i].id != CommonQueries[j].id
    ensures forall i | 0 <= i < |CommonQueries| ::
              |CommonQueries[i].rights| == 3 && |CommonQueries[i].steps| == 3 && |CommonQueries[i].documents| == 3
  {
  }

  /** The three headings spoken before the lists. */
  datatype Headings = Headings(rights: string, steps: string, documents: string)

  /** English, Hindi, and otherwise Konkani. */
  function SpeechHeadings(language: Language): (r: Headings)
    ensures language == English <==> r.rights == "Your rights:"
    ensures language == Hindi <==> r.rights == "आपके अधिकार:"
  {
    match language
    case English => Headings("Your rights:", "Steps to follow:", "Required documents:")
    case Hindi => Headings("आपके अधिकार:", "अनुसरण करने के चरण:", "आवश्यक दस्तावेज:")
    case Konkani => Headings("तुमचे हक्क:", "अनुसरण करपाचे पावले:", "गरजेचे कागदपत्र:")
  }

  /** `formatContentForSpeech` under headings `h`: the title, then each
      heading followed by its list; rights and steps joined with ". ",
      documents with ", ". */
  function Speech(q: QueryInfo, h: Headings): (r: string)
    ensures StartsWith(r, q.title + ". ")
    ensures EndsWith(r, h.documents + " " + Join(", ", q.documents))
    ensures Contains(r, h.rights + " " + Join(". ", q.rights) + ". ")
    ensures Contains(r, h.steps + " " + Join(". ", q.steps) + ". ")
    // right after the title come the rights, then the steps; with the length
    // this leaves room for nothing but the documents at the end
    ensures StartsWith(r[|q.title| + 2..], (h.rights + " " + Join(". ", q.rights) + ". ") + (h.steps + " " + Join(". ", q.steps) + ". "))
    ensures |r| == |q.title| + 2 + |h.rights + " " + Join(". ", q.rights) + ". "| + |h.steps + " " + Join(". ", q.steps) + ". "|
                   + |h.documents + " " + Join(", ", q.documents)|
  {
    var head := q.title + ". ";
    var rights := h.rights + " " + Join(". ", q.rights) + ". ";
    var steps := h.steps + " " + Join(". ", q.steps) + ". ";
    var docs := h.documents + " " + Join(", ", q.documents);
    assert head + rights + steps + docs == q.title + ". " + (rights + steps + docs);
    ContainsAt(head + rights + steps + docs, rights, |head|);
    ContainsAt(head + rights + steps + docs, steps, |head| + |rights|);
    FourParts(head, rights, steps, docs);
    head + rights + steps + docs
  }

  /** After the first of four concatenated parts come the second and the third. */
  lemma FourParts(a: string, b: string, c: string, d: string)
    ensures StartsWith((a + b + c + d)[|a|..], b + c)
    ensures |a + b + c + d| == |a| + |b| + |c| + |d|
  {
    assert (a + b + c + d)[|a|..] == (b + c) + d;
  }

  /** `formatContentForSpeech` with the headings of the interface language. */
  function FormatContentForSpeech(q: QueryInfo, language: Language): (r: string)
    ensures StartsWith(r, q.title + ". ")
    ensures EndsWith(r, SpeechHeadings(language).documents + " " + Join(", ", q.documents))
    ensures Contains(r, SpeechHeadings(language).rights + " " + Join(". ", q.rights) + ". ")
    ensures Contains(r, SpeechHeadings(language).steps + " " + Join(". ", q.steps) + ". ")
    ensures StartsWith(r[|q.title| + 2..], (SpeechHeadings(language).rights + " " + Join(". ", q.rights) + ". ")
                                           + (SpeechHeadings(language).steps + " " + Join(". ", q.steps) + ". "))
    ensures |r| == |q.title| + 2 + |SpeechHeadings(language).rights + " " + Join(". ", q.rights) + ". "|
                   + |SpeechHeadings(language).steps + " " + Join(". ", q.steps) + ". "|
                   + |SpeechHeadings(language).documents + " " + Join(", ", q.documents)|
  {
    Speech(q, SpeechHeadings(language))
  }

  /** Every right, step and document of the situation is read out. */
  lemma EveryItemIsSpoken(q: QueryInfo, language: Language)
    ensures forall i | 0 <= i < |q.rights| :: Contains(FormatContentForSpeech(q, language), q.rights[i])
    ensures forall i | 0 <= i < |q.steps| :: Contains(FormatContentForSpeech(q, language), q.steps[i])
    ensures forall i | 0 <= i < |q.documents| :: Contains(FormatContentForSpeech(q, language), q.documents[i])
  {
    SpeechHasEveryItem(q, SpeechHeadings(language));
  }

  lemma SpeechHasEveryItem(q: QueryInfo, h: Headings)
    ensures forall i | 0 <= i < |q.rights| :: Contains(Speech(q, h), q.rights[i])
    ensures forall i | 0 <= i < |q.steps| :: Contains(Speech(q, h), q.steps[i])
    ensures forall i | 0 <= i < |q.documents| :: Contains(Speech(q, h), q.documents[i])
  {
    var r := Speech(q, h);
    forall i | 0 <= i < |q.rights|
      ensures Contains(r, q.rights[i])
    {
      ItemInSection(r, h.rights, ". ", q.rights, ". ", i);
    }
    forall i | 0 <= i < |q.steps|
      ensures Contains(r, q.steps[i])
    {
      ItemInSection(r, h.steps, ". ", q.steps, ". ", i);
    }
    var tail := h.documents + " " + Join(", ", q.documents);
    assert r[|r| - |tail|..] == tail + "";
    ContainsAt(r, tail + "", |r| - |tail|);
    forall i | 0 <= i < |q.documents|
      ensures Contains(r, q.documents[i])
    {
      ItemInSection(r, h.documents, ", ", q.documents, "", i);
    }
  }

  /** An item of a section `heading items-joined suffix` found in `r` occurs in `r`. */
  lemma ItemInSection(r: string, heading: string, sep: string, items: seq<string>, suffix: string, i: nat)
    requires i < |items| && Contains(r, heading + " " + Join(sep, items) + suffix)
    ensures Contains(r, items[i])
  {
    var part := heading + " " + Join(sep, items) + suffix;
    JoinContains(sep, items, i);
    assert part[|heading| + 1..|heading| + 1 + |Join(sep, items)|] == Join(sep, items);
    ContainsAt(part, Join(sep, items), |heading| + 1);
    ContainsTransitive(part, Join(sep, items), items[i]);
    ContainsTransitive(r, part, items[i]);
  }
}

=== FILE: interpreter.dfy ===
/** The stand-alone offline interpreter page (`PoliceTranslationInterface`):
    a second, simpler language detector, the phrase-dictionary translator
    with its fallback messages, the choice of a synthesis voice, and the
    recording/processing flags driven by the microphone button and the
    speech-recognition callbacks. Recognition and synthesis themselves are
    browser I/O: a transcript arrives as a string, the voice list as a
    sequence, and whether recognition could start as a flag. */
module Interpreter {
  import opened Common
  import opened Text
  import opened Languages
  import RagLanguage

  // ---------------------------------------------------------------- detection

  /** The Devanagari words taken as a sign of Konkani. */
  const KonkaniMarkers: seq<string> := ["हांव", "तुम्ही", "आमी"]

  /** The word lists of the fallback score. */
  const HindiWords: seq<string> := ["है", "का", "की", "को", "में", "से", "पर", "और", "या"]
  const KonkaniWords: seq<string> := ["आसा", "चो", "ची", "क", "त", "न", "वर", "आनी", "वा"]
  const EnglishWords: seq<string> := ["the", "is", "are", "and", "or", "in", "on", "at", "to"]

  /** A code point of the class `[a-zA-Z\s.,!?'"]`. */
  predicate IsPlainChar(c: char) {
    ('a' <= c <= 'z') || ('A' <= c <= 'Z') || IsSpace(c)
    || c == '.' || c == ',' || c == '!' || c == '?' || c == '\'' || c == '"'
  }

  /** `/^[a-zA-Z\s.,!?'"]+$/`: non-empty and made only of plain characters. */
  predicate IsPlainLatin(s: string) {
    |s| > 0 && forall i | 0 <= i < |s| :: IsPlainChar(s[i])
  }

  /** Number of words equal to one of `vocabulary` (whole-word `includes`). */
  function WordScore(words: seq<string>, vocabulary: seq<string>): (n: nat)
    ensures n <= |words|
    ensures n == 0 <==> forall j | 0 <= j < |words| :: words[j] !in vocabulary
  {
    Count(words, (w: string) => w in vocabulary)
  }

  /** The three-way verdict of the fallback score: Konkani only when its
      count beats both others, Hindi when it beats English, else English. */
  function ScoreVerdict(hindi: nat, konkani: nat, english: nat): (r: Tag)
    ensures r != Ru
    ensures r == Kok <==> konkani > hindi && konkani > english
    ensures r == Hi <==> !(konkani > hindi && konkani > english) && hindi > english
  {
    if konkani > hindi && konkani > english then Kok
    else if hindi > english then Hi
    else En
  }

  /** `detectLanguage` of the interpreter page: Cyrillic, then Devanagari
      (Konkani with a marker word, else Hindi), then plain Latin text, then
      the word score. */
  function DetectLanguage(text: string): (r: Tag)
    ensures r == Ru <==> RagLanguage.HasCyrillic(text)
    ensures !RagLanguage.HasCyrillic(text) && RagLanguage.HasDevanagari(text) ==>
              r != En && (r == Kok <==> ContainsAny(ToLower(text), KonkaniMarkers))
    ensures !RagLanguage.HasCyrillic(text) && !RagLanguage.HasDevanagari(text) && IsPlainLatin(text) ==> r == En
  {
    var lower := ToLower(text);
    if RagLanguage.HasCyrillic(text) then Ru
    else if RagLanguage.HasDevanagari(text) then
      (if ContainsAny(lower, KonkaniMarkers) then Kok else Hi)
    else if IsPlainLatin(text) then En
    else
      var words := SplitWs(lower);
      ScoreVerdict(WordScore(words, HindiWords), WordScore(words, KonkaniWords), WordScore(words, EnglishWords))
  }

  /** Every Hindi and Konkani score word starts with a Devanagari letter. */
  predicate DevanagariVocabulary(vocabulary: seq<string>) {
    forall k | 0 <= k < |vocabulary| :: |vocabulary[k]| > 0 && RagLanguage.IsDevanagari(vocabulary[k][0])
  }

  lemma ScoreWordsAreDevanagari()
    ensures DevanagariVocabulary(HindiWords)
    ensures DevanagariVocabulary(KonkaniWords)
  {
  }

  /** A text without Devanagari has no word from a Devanagari vocabulary. */
  lemma NoDevanagariWord(s: string, vocabulary: seq<string>)
    requires !RagLanguage.HasDevanagari(s)
    requires DevanagariVocabulary(vocabulary)
    ensures WordScore(SplitWs(s), vocabulary) == 0
  {
    var words := SplitWs(s);
    forall j | 0 <= j < |words|
      ensures words[j] !in vocabulary
    {
      var w := words[j];
      assert w in words;
      forall k | 0 <= k < |vocabulary|
        ensures w != vocabulary[k]
      {
        if |w| > 0 {
          assert w[0] in s;
          var i :| 0 <= i < |s| && s[i] == w[0];
          assert !RagLanguage.IsDevanagari(s[i]);
        }
      }
    }
  }

  /** The word score can never decide anything: its Hindi and Konkani words
      are Devanagari, and Devanagari text has already been answered, so
      every text in neither script is English. */
  lemma ScoringFallbackIsEnglish(text: string)
    requires !RagLanguage.HasCyrillic(text) && !RagLanguage.HasDevanagari(text)
    ensures DetectLanguage(text) == En
  {
    if !IsPlainLatin(text) {
      var lower := ToLower(text);
      RagLanguage.LowerPreservesScripts(text);
      ScoreWordsAreDevanagari();
      NoDevanagariWord(lower, HindiWords);
      NoDevanagariWord(lower, KonkaniWords);
    }
  }

  /** The two detectors agree on Cyrillic, and a Konkani verdict here is a
      Konkani verdict of the retrieval engine too: the three markers are the
      first three of the engine's six. */
  lemma DetectorsAgreeOnScripts(text: string)
    ensures DetectLanguage(text) == Ru <==> RagLanguage.DetectLanguage(text) == Ru
    ensures DetectLanguage(text) == Kok ==> RagLanguage.DetectLanguage(text) == Kok
  {
    var lower := ToLower(text);
    if !RagLanguage.HasCyrillic(text) && !RagLanguage.HasDevanagari(text) {
      ScoringFallbackIsEnglish(text);
    }
    if !RagLanguage.HasCyrillic(text) && RagLanguage.HasDevanagari(text) && ContainsAny(lower, KonkaniMarkers) {
      var k :| 0 <= k < |KonkaniMarkers| && Contains(lower, KonkaniMarkers[k]);
      MarkersAreEngineMarkers();
      assert Contains(lower, RagLanguage.DevanagariKonkaniMarkers[k]);
    }
  }

  lemma MarkersAreEngineMarkers()
    ensures forall k | 0 <= k < |KonkaniMarkers| :: k < |RagLanguage.DevanagariKonkaniMarkers|
              && KonkaniMarkers[k] == RagLanguage.DevanagariKonkaniMarkers[k]
  {
  }

  /** The detectors disagree on plain Latin text holding a Konkani marker
      by accident: "my family" is English here and Konkani for the engine. */
  lemma DetectorsDisagreeOnFamily()
    ensures DetectLanguage("my family") == En
    ensures RagLanguage.DetectLanguage("my family") == Kok
  {
    RagLanguage.FamilyIsKonkani();
    FamilyIsPlainLatin();
  }

  lemma FamilyIsPlainLatin()
    ensures IsPlainLatin("my family")
    ensures !RagLanguage.HasCyrillic("my family") && !RagLanguage.HasDevanagari("my family")
  {
  }

  // ---------------------------------------------------------------- dictionary

  /** A dictionary phrase and its translations. Every target key of the
      source's table is one of the four tag codes, so the table is keyed by
      `Tag` and a target code is read with `ParseTag`. */
  datatype Phrase = Phrase(key: string, translations: map<Tag, string>)

  /** The phrases of one source language, in insertion order. */
  datatype Section = Section(source: string, phrases: seq<Phrase>)

  type Dictionary = seq<Section>

  const EnPhrases: seq<Phrase> := [
    Phrase("hello", map[Hi := "नमस्ते", Kok := "नमस्कार", Ru := "Привет"]),
    Phrase("how can i help you", map[Hi := "मैं आपकी कैसे मदद कर सकता हूं", Kok := "हांव तुमची कशी मदत करूं शकतां", Ru := "Как я могу вам помочь"]),
    Phrase("please show your id", map[Hi := "कृपया अपनी आईडी दिखाएं", Kok := "कृपया तुमची आयडी दाखवा", Ru := "Пожалуйста, покажите ваш ID"]),
    Phrase("what is the problem", map[Hi := "क्या समस्या है", Kok := "कितें समस्या आसा", Ru := "В чем проблема"]),
    Phrase("file a complaint", map[Hi := "शिकायत दर्ज करें", Kok := "शिकायत दाखल करा", Ru := "Подать жалобу"]),
    Phrase("emergency", map[Hi := "आपातकाल", Kok := "तातकाळ", Ru := "Экстренная ситуация"]),
    Phrase("police station", map[Hi := "पुलिस स्टेशन", Kok := "पोलिस स्टेशन", Ru := "Полицейский участок"]),
    Phrase("thank you", map[Hi := "धन्यवाद", Kok := "देव बरे करूं", Ru := "Спасибо"])
  ]

  const HiPhrases: seq<Phrase> := [
    Phrase("नमस्ते", map[En := "hello", Kok := "नमस्कार", Ru := "Привет"]),
    Phrase("मदद चाहिए", map[En := "need help", Kok := "मदत जाय", Ru := "Нужна помощь"]),
    Phrase("शिकायत करनी है", map[En := "want to file complaint", Kok := "शिकायत करूंक सोदता", Ru := "Хочу подать жалобу"]),
    Phrase("आपातकाल", map[En := "emergency", Kok := "तातकाळ", Ru := "Экстренная ситуация"]),
    Phrase("धन्यवाद", map[En := "thank you", Kok := "देव बरे करूं", Ru := "Спасибо"])
  ]

  const KokPhrases: seq<Phrase> := [
    Phrase("नमस्कार", map[En := "hello", Hi := "नमस्ते", Ru := "Привет"]),
    Phrase("मदत जाय", map[En := "need help", Hi := "मदद चाहिए", Ru := "Нужна помощь"]),
    Phrase("शिकायत करूंक सोदता", map[En := "want to file complaint", Hi := "शिकायत करनी है", Ru := "Хочу подать жалобу"]),
    Phrase("तातकाळ", map[En := "emergency", Hi := "आपातकाल", Ru := "Экстренная ситуация"]),
    Phrase("देव बरे करूं", map[En := "thank you", Hi := "धन्यवाद", Ru := "Спасибо"])
  ]

  const RuPhrases: seq<Phrase> := [
    Phrase("привет", map[En := "hello", Hi := "नमस्ते", Kok := "नमस्कार"]),
    Phrase("нужна помощь", map[En := "need help", Hi := "मदद चाहिए", Kok := "मदत जाय"]),
    Phrase("хочу подать жалобу", map[En := "want to file complaint", Hi := "शिकायत करनी है", Kok := "शिकायत करूंक सोदता"]),
    Phrase("экстренная ситуация", map[En := "emergency", Hi := "आपातकाल", Kok := "तातकाळ"]),
    Phrase("спасибо", map[En := "thank you", Hi := "धन्यवाद", Kok := "देव बरे करूं"])
  ]

  /** `offlineDictionary`: one section per source language. */
  const OfflineDictionary: Dictionary :=
    [Section("en", EnPhrases), Section("hi", HiPhrases), Section("kok", KokPhrases), Section("ru", RuPhrases)]

  /** `phrases[p][target]` is truthy: present and non-empty. */
  predicate Translates(p: Phrase, target: string) {
    ParseTag(target).Some? && ParseTag(target).value in p.translations
    && p.translations[ParseTag(target).value] != ""
  }

  /** The translation `Translates` found. */
  function TranslationOf(p: Phrase, target: string): string
    requires Translates(p, target)
  {
    p.translations[ParseTag(target).value]
  }

  /** `offlineDictionary[source]`: the phrases of the first section for `source`. */
  function SectionOf(dict: Dictionary, source: string): (r: Option<seq<Phrase>>)
    ensures r.None? <==> forall i | 0 <= i < |dict| :: dict[i].source != source
    ensures forall i | 0 <= i < |dict| && dict[i].source == source && (forall j | 0 <= j < i :: dict[j].source != source) ::
              r == Some(dict[i].phrases)
  {
    match FirstIndex(dict, (s: Section) => s.source == source)
    case None => None
    case Some(i) => Some(dict[i].phrases)
  }

  /** The text as the lookup sees it: lower-cased, then trimmed. */
  function Normalize(text: string): string {
    Trim(ToLower(text))
  }

  /** A phrase the partial-match loop accepts. */
  predicate IsHit(p: Phrase, lower: string, target: string) {
    Contains(lower, p.key) && Translates(p, target)
  }

  /** The lookup inside one section: the exact phrase first, then the first
      phrase in insertion order that occurs in the text. */
  function TranslateIn(phrases: seq<Phrase>, lower: string, target: string): (r: Option<string>)
    ensures r.None? <==> forall i | 0 <= i < |phrases| :: !IsHit(phrases[i], lower, target)
    ensures r.Some? ==> exists i | 0 <= i < |phrases| :: IsHit(phrases[i], lower, target) && r.value == TranslationOf(phrases[i], target)
    ensures forall i | 0 <= i < |phrases| && phrases[i].key == lower && Translates(phrases[i], target)
              && (forall j | 0 <= j < i :: phrases[j].key != lower) ::
              r == Some(TranslationOf(phrases[i], target))
    ensures (forall i | 0 <= i < |phrases| && phrases[i].key == lower :: !Translates(phrases[i], target)) ==>
              forall i | 0 <= i < |phrases| && IsHit(phrases[i], lower, target)
                && (forall j | 0 <= j < i :: !IsHit(phrases[j], lower, target)) ::
                r == Some(TranslationOf(phrases[i], target))
  {
    var exact := FirstIndex(phrases, (p: Phrase) => p.key == lower);
    if exact.Some? && Translates(phrases[exact.value], target) then
      ContainsSelf(lower);
      Some(TranslationOf(phrases[exact.value], target))
    else
      match FirstIndex(phrases, (p: Phrase) => IsHit(p, lower, target))
      case Some(i) => Some(TranslationOf(phrases[i], target))
      case None => None
  }

  /** Section `i` is the first one for `source`. */
  predicate FirstSection(dict: Dictionary, source: string, i: int) {
    0 <= i < |dict| && dict[i].source == source && forall j | 0 <= j < i :: dict[j].source != source
  }

  /** Phrase `k` is the first entry keyed exactly by the text, and it has a
      translation into `target`. */
  predicate ExactEntry(phrases: seq<Phrase>, k: int, lower: string, target: string) {
    0 <= k < |phrases| && phrases[k].key == lower && Translates(phrases[k], target)
    && forall j | 0 <= j < k :: phrases[j].key != lower
  }

  /** `translateOffline`: nothing for a source language without a section;
      otherwise the lookup inside the first section for `source`. */
  function TranslateOffline(dict: Dictionary, text: string, source: string, target: string): (r: Option<string>)
    ensures (forall i | 0 <= i < |dict| :: dict[i].source != source) ==> r.None?
    ensures ParseTag(target).None? ==> r.None?
    ensures r.Some? ==> exists i, k | 0 <= i < |dict| && 0 <= k < |dict[i].phrases| ::
              dict[i].source == source && IsHit(dict[i].phrases[k], Normalize(text), target)
              && r.value == TranslationOf(dict[i].phrases[k], target)
    // within the section that answers, a hit always gives a translation
    ensures forall i | FirstSection(dict, source, i) ::
              (r.None? <==> forall k | 0 <= k < |dict[i].phrases| :: !IsHit(dict[i].phrases[k], Normalize(text), target))
    // and the exact entry takes precedence over every partial match
    ensures forall i, k | FirstSection(dict, source, i) && ExactEntry(dict[i].phrases, k, Normalize(text), target) ::
              r == Some(TranslationOf(dict[i].phrases[k], target))
  {
    match SectionOf(dict, source)
    case None => None
    case Some(phrases) => TranslateIn(phrases, Normalize(text), target)
  }

  /** Marathi has a voice but no dictionary section, and neither has
      `'auto'`, the language of a visitor not yet heard. */
  lemma UnlistedSourceHasNoTranslation(text: string, target: string)
    ensures TranslateOffline(OfflineDictionary, text, "mr", target) == None
    ensures TranslateOffline(OfflineDictionary, text, "auto", target) == None
  {
    assert SectionOf(OfflineDictionary, "mr") == None;
    assert SectionOf(OfflineDictionary, "auto") == None;
  }

  /** Nothing is ever translated into `'auto'`. */
  lemma NothingTranslatesIntoAuto(dict: Dictionary, text: string, source: string)
    ensures TranslateOffline(dict, text, source, "auto") == None
  {
    assert ParseTag("auto").None?;
  }

  lemma RussianSection()
    ensures SectionOf(OfflineDictionary, "ru") == Some(RuPhrases)
  {
    assert OfflineDictionary[3].source == "ru";
  }

  lemma EnglishSection()
    ensures SectionOf(OfflineDictionary, "en") == Some(EnPhrases)
  {
    assert OfflineDictionary[0].source == "en";
  }

  lemma RussianGreetingNormalizes()
    ensures Normalize(" Привет ") == "привет"
  {
    RussianGreetingLowers();
    TrimPadded("привет");
    assert " " + "привет" + " " == " привет ";
  }

  lemma RussianGreetingLowers()
    ensures ToLower(" Привет ") == " привет "
  {
  }

  /** Case and surrounding white space do not matter for an exact phrase. */
  lemma RussianGreetingTranslates()
    ensures TranslateOffline(OfflineDictionary, " Привет ", "ru", "en") == Some("hello")
  {
    RussianGreetingNormalizes();
    RussianSection();
    assert RuPhrases[0].key == "привет";
    assert Translates(RuPhrases[0], "en");
  }

  lemma OfficerGreetingNormalizes()
    ensures Normalize("hello officer") == "hello officer"
  {
    var t := "hello officer";
    assert forall i | 0 <= i < |t| :: !('A' <= t[i] <= 'Z') && !('\U{0400}' <= t[i] <= '\U{042F}');
    assert ToLower(t) == t;
    assert !IsSpace(t[0]) && !IsSpace(t[|t| - 1]);
  }

  /** A longer sentence is translated by the first phrase it contains. */
  lemma ContainedPhraseTranslates()
    ensures TranslateOffline(OfflineDictionary, "hello officer", "en", "ru") == Some("Привет")
  {
    OfficerGreetingNormalizes();
    EnglishSection();
    OfficerGreetingInSection("hello officer");
  }

  /** Inside the English section, "hello" is the first phrase the sentence
      contains, and no phrase is the whole sentence. */
  lemma OfficerGreetingInSection(t: string)
    requires t == "hello officer"
    ensures TranslateIn(EnPhrases, t, "ru") == Some("Привет")
  {
    ContainsAt(t, "hello", 0);
    assert IsHit(EnPhrases[0], t, "ru");
    forall i | 0 <= i < |EnPhrases|
      ensures EnPhrases[i].key != t
    {
    }
  }

  /** `getFallbackMessage` table. */
  function FallbackText(t: Tag): string {
    match t
    case En => "Translation not available offline"
    case Hi => "अनुवाद ऑफलाइन उपलब्ध नहीं"
    case Kok => "भाषांतर ऑफलायन उपलब्ध ना"
    case Ru => "Перевод недоступен офлайн"
  }

  /** `getFallbackMessage`: the message for a known tag, English for any other code. */
  function GetFallbackMessage(code: string): (r: string)
    ensures forall t: Tag :: code == TagCode(t) ==> r == FallbackText(t)
    ensures r == FallbackText(En) <==> code != "hi" && code != "kok" && code != "ru"
  {
    match ParseTag(code)
    case Some(t) => FallbackText(t)
    case None => FallbackText(En)
  }

  // ---------------------------------------------------------------- voices

  /** A synthesis voice: its name, locale and whether it is the default. */
  datatype Voice = Voice(name: string, lang: string, isDefault: bool)

  /** The locale of `supportedLanguages`; Konkani borrows the Hindi locale. */
  function SupportedLocale(language: string): (r: Option<string>)
    ensures r.Some? <==> language in {"en", "hi", "kok", "mr", "ru"}
    ensures language == "kok" ==> r == Some("hi-IN")
  {
    match language
    case "en" => Some("en-IN")
    case "hi" => Some("hi-IN")
    case "kok" => Some("hi-IN")
    case "mr" => Some("mr-IN")
    case "ru" => Some("ru-RU")
    case _ => None
  }

  /** `code.split('-')[0]`: the part before the first hyphen. */
  function Family(code: string): (r: string)
    ensures StartsWith(code, r)
    ensures forall i | 0 <= i < |r| :: r[i] != '-'
    ensures |r| < |code| ==> code[|r|] == '-'
  {
    if |code| == 0 || code[0] == '-' then "" else [code[0]] + Family(code[1..])
  }

  /** Voice `i` is the first one in locale `code`. */
  predicate FirstInLocale(voices: seq<Voice>, i: int, code: string) {
    0 <= i < |voices| && voices[i].lang == code && forall j | 0 <= j < i :: voices[j].lang != code
  }

  /** Voice `i` is the first one whose locale lies in `family`. */
  predicate FirstInFamily(voices: seq<Voice>, i: int, family: string) {
    0 <= i < |voices| && StartsWith(voices[i].lang, family)
    && forall j | 0 <= j < i :: !StartsWith(voices[j].lang, family)
  }

  /** Voice `i` is the first default voice. */
  predicate FirstDefault(voices: seq<Voice>, i: int) {
    0 <= i < |voices| && voices[i].isDefault && forall j | 0 <= j < i :: !voices[j].isDefault
  }

  /** `findBestVoice`: nothing without voices or for an unsupported language;
      else the first voice of exactly the locale, else the first of the same
      language family, else the first default voice, else the first voice. */
  function FindBestVoice(voices: seq<Voice>, language: string): (r: Option<Voice>)
    ensures r.None? <==> |voices| == 0 || SupportedLocale(language).None?
    ensures r.Some? ==> r.value in voices
    ensures r.Some? && (exists i | 0 <= i < |voices| :: voices[i].lang == SupportedLocale(language).value) ==>
              r.value.lang == SupportedLocale(language).value
    ensures r.Some? && (exists i | 0 <= i < |voices| :: StartsWith(voices[i].lang, Family(SupportedLocale(language).value))) ==>
              StartsWith(r.value.lang, Family(SupportedLocale(language).value))
    ensures r.Some? && (exists i | 0 <= i < |voices| :: voices[i].isDefault)
              && (forall i | 0 <= i < |voices| :: !StartsWith(voices[i].lang, Family(SupportedLocale(language).value))) ==>
              r.value.isDefault
    ensures r.Some? && (forall i | 0 <= i < |voices| :: !voices[i].isDefault
                          && !StartsWith(voices[i].lang, Family(SupportedLocale(language).value))) ==>
              r.value == voices[0]
    // each tier gives the first voice of that tier, as `Array.prototype.find` does
    ensures r.Some? && (exists i | 0 <= i < |voices| :: voices[i].lang == SupportedLocale(language).value) ==>
              exists i | FirstInLocale(voices, i, SupportedLocale(language).value) :: r.value == voices[i]
    ensures r.Some? && (forall i | 0 <= i < |voices| :: voices[i].lang != SupportedLocale(language).value)
              && (exists i | 0 <= i < |voices| :: StartsWith(voices[i].lang, Family(SupportedLocale(language).value))) ==>
              exists i | FirstInFamily(voices, i, Family(SupportedLocale(language).value)) :: r.value == voices[i]
    ensures r.Some? && (exists i | 0 <= i < |voices| :: voices[i].isDefault)
              && (forall i | 0 <= i < |voices| :: !StartsWith(voices[i].lang, Family(SupportedLocale(language).value))) ==>
              exists i | FirstDefault(voices, i) :: r.value == voices[i]
  {
    if |voices| == 0 then None
    else match SupportedLocale(language)
      case None => None
      case Some(code) =>
        var family := Family(code);
        LocaleHasFamily(code);
        match Find(voices, (v: Voice) => v.lang == code)
        case Some(v) => Some(v)
        case None =>
          match Find(voices, (v: Voice) => StartsWith(v.lang, family))
          case Some(v) => Some(v)
          case None =>
            match Find(voices, (v: Voice) => v.isDefault)
            case Some(v) => Some(v)
            case None => Some(voices[0])
  }

  /** A voice of exactly the locale is also of its family. */
  lemma LocaleHasFamily(code: string)
    ensures forall l: string :: l == code ==> StartsWith(l, Family(code))
  {
  }

  /** A voice in exactly the requested locale, listed first, is the one
      used, whatever follows it. */
  lemma PreferredVoiceWins(v: Voice, voices: seq<Voice>, language: string)
    requires SupportedLocale(language).Some? && v.lang == SupportedLocale(language).value
    ensures FindBestVoice([v] + voices, language) == Some(v)
  {
    var all := [v] + voices;
    assert all[0] == v;
  }

  /** Voices that load later never displace a voice already found in the
      exact locale. */
  lemma ExactVoiceSurvivesAppend(voices: seq<Voice>, more: seq<Voice>, language: string)
    requires FindBestVoice(voices, language).Some?
    requires FindBestVoice(voices, language).value.lang == SupportedLocale(language).value
    ensures FindBestVoice(voices + more, language) == FindBestVoice(voices, language)
  {
    var code := SupportedLocale(language).value;
    var all := voices + more;
    var r := FindBestVoice(voices, language);
    var r' := FindBestVoice(all, language);
    var i :| FirstInLocale(voices, i, code) && r.value == voices[i];
    FirstInLocaleOfPrefix(voices, more, i, code);
    assert all[i].lang == code;
    var i' :| FirstInLocale(all, i', code) && r'.value == all[i'];
    FirstInLocaleUnique(all, i, i', code);
  }

  /** The first voice of a locale stays first when voices are appended. */
  lemma FirstInLocaleOfPrefix(voices: seq<Voice>, more: seq<Voice>, i: int, code: string)
    requires FirstInLocale(voices, i, code)
    ensures FirstInLocale(voices + more, i, code)
  {
    var all := voices + more;
    assert forall j | 0 <= j <= i :: all[j] == voices[j];
  }

  lemma FirstInLocaleUnique(voices: seq<Voice>, i: int, k: int, code: string)
    requires FirstInLocale(voices, i, code) && FirstInLocale(voices, k, code)
    ensures i == k
  {
  }

  /** Konkani is spoken with whatever voice Hindi gets. */
  lemma KonkaniSpeaksWithHindiVoice(voices: seq<Voice>)
    ensures FindBestVoice(voices, "kok") == FindBestVoice(voices, "hi")
  {
  }

  // ---------------------------------------------------------------- session

  datatype Speaker = Visitor | Officer

  function Other(s: Speaker): Speaker {
    if s == Visitor then Officer else Visitor
  }

  datatype Kind = Original | Translated

  /** A transcript entry: text, language code, original or translated. */
  datatype Line = Line(text: string, lang: string, kind: Kind)

  /** The page state: the two flags, the current speaker, the recognition
      locale, each side's detected language code and each side's panel. */
  datatype Session = Session(
    recording: bool,
    processing: bool,
    speaker: Speaker,
    recognitionLang: string,
    visitorLang: string,
    officerLang: string,
    visitorPanel: seq<Line>,
    officerPanel: seq<Line>)

  /** The constructor's state: idle, visitor speaking, visitor language
      `'auto'`, officer language `'en'`. */
  const Initial: Session := Session(false, false, Visitor, "", "auto", "en", [], [])

  /** The microphone is never recording and processing at once. */
  predicate Safe(s: Session) {
    !(s.recording && s.processing)
  }

  function LangOf(s: Session, sp: Speaker): string {
    if sp == Visitor then s.visitorLang else s.officerLang
  }

  function Panel(s: Session, sp: Speaker): seq<Line> {
    if sp == Visitor then s.visitorPanel else s.officerPanel
  }

  function WithLang(s: Session, sp: Speaker, lang: string): (r: Session)
    ensures LangOf(r, sp) == lang && LangOf(r, Other(sp)) == LangOf(s, Other(sp))
    ensures r.recording == s.recording && r.processing == s.processing && r.speaker == s.speaker
    ensures r.visitorPanel == s.visitorPanel && r.officerPanel == s.officerPanel
  {
    if sp == Visitor then s.(visitorLang := lang) else s.(officerLang := lang)
  }

  /** `addMessage`: append one line to a speaker's panel. */
  function AddLine(s: Session, sp: Speaker, line: Line): (r: Session)
    ensures Panel(r, sp) == Panel(s, sp) + [line]
    ensures Panel(r, Other(sp)) == Panel(s, Other(sp))
    ensures r.recording == s.recording && r.processing == s.processing && r.speaker == s.speaker
    ensures r.visitorLang == s.visitorLang && r.officerLang == s.officerLang
  {
    if sp == Visitor then s.(visitorPanel := s.visitorPanel + [line])
    else s.(officerPanel := s.officerPanel + [line])
  }

  /** The recogniser's locale: English for the officer, Hindi for the
      visitor, whatever languages the two have chosen. */
  function RecognitionLocale(sp: Speaker): (r: string)
    ensures r == "en-IN" <==> sp == Officer
    ensures sp == Visitor ==> r == "hi-IN"
  {
    if sp == Officer then "en-IN" else "hi-IN"
  }

  /** `startRecording`: nothing without a recogniser; otherwise the locale is
      set, and the page records if starting succeeds. */
  function StartRecording(s: Session, available: bool, started: bool): (r: Session)
    ensures !available ==> r == s
    ensures available ==> r.recognitionLang == RecognitionLocale(s.speaker)
    ensures r.recording == (s.recording || (available && started))
    ensures r.(recording := s.recording, recognitionLang := s.recognitionLang) == s
  {
    if !available then s
    else
      var s1 := s.(recognitionLang := RecognitionLocale(s.speaker));
      if started then s1.(recording := true) else s1
  }

  /** `stopRecording`: from recording to processing; otherwise nothing. */
  function StopRecording(s: Session): (r: Session)
    ensures !s.recording ==> r == s
    ensures s.recording ==> !r.recording && r.processing
    ensures r.(recording := s.recording, processing := s.processing) == s
  {
    if !s.recording then s else s.(recording := false, processing := true)
  }

  /** `toggleRecording`: ignored while processing; stops a recording; else starts one. */
  function ToggleRecording(s: Session, available: bool, started: bool): (r: Session)
    ensures s.processing ==> r == s
    ensures !s.processing && s.recording ==> !r.recording && r.processing
    ensures !s.processing && !s.recording ==> !r.processing && r.recording == (available && started)
    ensures r.speaker == s.speaker && r.visitorPanel == s.visitorPanel && r.officerPanel == s.officerPanel
  {
    if s.processing then s
    else if s.recording then StopRecording(s)
    else StartRecording(s, available, started)
  }

  /** What `translateAndSpeak` shows: the dictionary translation, or the
      fallback message of the target language when there is none. */
  function Rendering(dict: Dictionary, text: string, source: string, target: string): (r: string)
    ensures TranslateOffline(dict, text, source, target).Some? ==> r == TranslateOffline(dict, text, source, target).value
    ensures TranslateOffline(dict, text, source, target).None? ==> r == GetFallbackMessage(target)
  {
    match TranslateOffline(dict, text, source, target)
    case Some(t) => t
    case None => GetFallbackMessage(target)
  }

  /** `translateAndSpeak`: the rendering is added to the target speaker's
      panel, and processing ends. */
  function TranslateAndSpeak(s: Session, dict: Dictionary, text: string, source: string, target: string, to: Speaker): (r: Session)
    ensures !r.processing && r.recording == s.recording && r.speaker == s.speaker
    ensures r.visitorLang == s.visitorLang && r.officerLang == s.officerLang
    ensures Panel(r, to) == Panel(s, to) + [Line(Rendering(dict, text, source, target), target, Translated)]
    ensures Panel(r, Other(to)) == Panel(s, Other(to))
  {
    AddLine(s, to, Line(Rendering(dict, text, source, target), target, Translated)).(processing := false)
  }

  /** `onRecognitionResult`: the trimmed transcript is detected, recorded as
      the speaker's language, shown on the speaker's side, and its rendering
      in the other side's language is shown on the other side. */
  function OnResult(s: Session, dict: Dictionary, transcript: string): (r: Session)
    ensures !r.processing && r.recording == s.recording && r.speaker == s.speaker
    ensures LangOf(r, s.speaker) == TagCode(DetectLanguage(Trim(transcript)))
    ensures LangOf(r, Other(s.speaker)) == LangOf(s, Other(s.speaker))
    ensures Panel(r, s.speaker) == Panel(s, s.speaker) + [Line(Trim(transcript), TagCode(DetectLanguage(Trim(transcript))), Original)]
    ensures Panel(r, Other(s.speaker)) == Panel(s, Other(s.speaker))
              + [Line(Rendering(dict, Trim(transcript), TagCode(DetectLanguage(Trim(transcript))), LangOf(s, Other(s.speaker))),
                      LangOf(s, Other(s.speaker)), Translated)]
  {
    var text := Trim(transcript);
    var detected := TagCode(DetectLanguage(text));
    var s1 := WithLang(s, s.speaker, detected);
    var s2 := AddLine(s1, s.speaker, Line(text, detected, Original));
    var to := Other(s.speaker);
    TranslateAndSpeak(s2, dict, text, detected, LangOf(s2, to), to)
  }

  /** `onRecognitionError`: both flags drop. */
  function OnError(s: Session): (r: Session)
    ensures !r.recording && !r.processing
    ensures r.(recording := s.recording, processing := s.processing) == s
  {
    s.(recording := false, processing := false)
  }

  /** The status text `onRecognitionError` shows for an error code. */
  function ErrorMessage(code: string): (r: string)
    ensures r == "Recognition error" <==> code !in {"no-speech", "audio-capture", "not-allowed", "network"}
  {
    match code
    case "no-speech" => "No speech detected"
    case "audio-capture" => "Microphone not accessible"
    case "not-allowed" => "Microphone permission denied"
    case "network" => "Network error"
    case _ => "Recognition error"
  }

  /** `onRecognitionEnd`: recording stops; processing is left alone. */
  function OnEnd(s: Session): (r: Session)
    ensures !r.recording && r.processing == s.processing
    ensures r.(recording := s.recording) == s
  {
    s.(recording := false)
  }

  /** The page-hidden handler: stop a running recording. */
  function OnHidden(s: Session): (r: Session)
    ensures !r.recording
    ensures r.processing == (s.processing || s.recording)
  {
    if s.recording then StopRecording(s) else s
  }

  /** Everything that can happen to the page. */
  datatype Event =
    | Toggle(available: bool, started: bool)
    | Result(transcript: string)
    | Error(code: string)
    | End
    | SelectSpeaker(speaker: Speaker)
    | Hidden

  /** One event handled by the page. Only a speaker button changes the
      speaker, and it changes nothing else. */
  function Step(s: Session, dict: Dictionary, e: Event): (r: Session)
    ensures e.SelectSpeaker? ==> r == s.(speaker := e.speaker)
    ensures !e.SelectSpeaker? ==> r.speaker == s.speaker
    ensures e.End? ==> !r.recording && r.processing == s.processing
  {
    match e
    case Toggle(available, started) => ToggleRecording(s, available, started)
    case Result(t) => OnResult(s, dict, t)
    case Error(_) => OnError(s)
    case End => OnEnd(s)
    case SelectSpeaker(sp) => s.(speaker := sp)
    case Hidden => OnHidden(s)
  }

  /** A series of events handled in order. Without a speaker button the
      speaker stays the one chosen before. */
  function Run(s: Session, dict: Dictionary, events: seq<Event>): (r: Session)
    ensures |events| == 0 ==> r == s
    ensures (forall i | 0 <= i < |events| :: !events[i].SelectSpeaker?) ==> r.speaker == s.speaker
    decreases |events|
  {
    if |events| == 0 then s else Run(Step(s, dict, events[0]), dict, events[1..])
  }

  /** Every event keeps the microphone out of recording-while-processing. */
  lemma StepKeepsSafe(s: Session, dict: Dictionary, e: Event)
    requires Safe(s)
    ensures Safe(Step(s, dict, e))
  {
  }

  /** Whatever happens, the page never records while it processes. */
  lemma {:induction false} RunKeepsSafe(s: Session, dict: Dictionary, events: seq<Event>)
    requires Safe(s)
    ensures Safe(Run(s, dict, events))
    decreases |events|
  {
    if |events| > 0 {
      StepKeepsSafe(s, dict, events[0]);
      RunKeepsSafe(Step(s, dict, events[0]), dict, events[1..]);
    }
  }

  /** Recognition ending without a result leaves processing set, and then
      the microphone button is ignored until a result or an error arrives. */
  lemma EndWithoutResultKeepsProcessing(s: Session, available: bool, started: bool)
    requires s.recording
    ensures var t := OnEnd(StopRecording(s));
            t.processing && ToggleRecording(t, available, started) == t
  {
  }

  /** Before the visitor has been heard, whatever the officer says reaches
      the visitor as the English fallback message, whatever the dictionary. */
  lemma OfficerFirstGetsFallback(dict: Dictionary, transcript: string)
    ensures var r := OnResult(Initial.(speaker := Officer), dict, transcript);
            r.visitorPanel == [Line(GetFallbackMessage("auto"), "auto", Translated)]
            && GetFallbackMessage("auto") == FallbackText(En)
  {
    var s := Initial.(speaker := Officer);
    UnheardSideGetsFallback(s, dict, transcript);
    assert Panel(s, Visitor) == [];
    FallbackForAutoIsEnglish();
  }

  /** A side whose language is still `'auto'` receives the fallback message. */
  lemma UnheardSideGetsFallback(s: Session, dict: Dictionary, transcript: string)
    requires LangOf(s, Other(s.speaker)) == "auto"
    ensures Panel(OnResult(s, dict, transcript), Other(s.speaker))
            == Panel(s, Other(s.speaker)) + [Line(GetFallbackMessage("auto"), "auto", Translated)]
  {
    var text := Trim(transcript);
    var code := TagCode(DetectLanguage(text));
    NothingTranslatesIntoAuto(dict, text, code);
  }

  lemma FallbackForAutoIsEnglish()
    ensures GetFallbackMessage("auto") == FallbackText(En)
  {
  }
}

=== FILE: languages.dfy ===
/** The two language vocabularies of the application: the interface language
    picked on the language screen, and the tags language detection assigns
    to free text. */
module Languages {
  import opened Common

  /** The interface language (`'english' | 'hindi' | 'konkani'`). */
  datatype Language = English | Hindi | Konkani

  /** A detected language: English, Hindi, Konkani or Russian. */
  datatype Tag = En | Hi | Kok | Ru

  /** The short code a tag is carried as (`'en'`, `'hi'`, `'kok'`, `'ru'`). */
  function TagCode(t: Tag): string {
    match t
    case En => "en"
    case Hi => "hi"
    case Kok => "kok"
    case Ru => "ru"
  }

  /** Reads a short code back; any other string is not a tag. */
  function ParseTag(code: string): (r: Option<Tag>)
    ensures r.Some? ==> TagCode(r.value) == code
  {
    match code
    case "en" => Some(En)
    case "hi" => Some(Hi)
    case "kok" => Some(Kok)
    case "ru" => Some(Ru)
    case _ => None
  }

  /** Every tag survives being written as its code and read back. */
  lemma TagCodeRoundTrip(t: Tag)
    ensures ParseTag(TagCode(t)) == Some(t)
  {
  }

  /** Distinct tags have distinct codes. */
  lemma TagCodeInjective(a: Tag, b: Tag)
    ensures TagCode(a) == TagCode(b) ==> a == b
  {
    TagCodeRoundTrip(a);
    TagCodeRoundTrip(b);
  }
}

=== FILE: officer_chat.dfy ===
/** The "talk to an officer" screen: a visitor's message is answered by a
    fixed keyword cascade (`generateOfficerResponse`), with the message and
    the answer passed through an external translator for Hindi and Konkani
    visitors. The translator is a foreign call: its outcome is a parameter,
    `None` standing for a call that failed. */
module OfficerChat {
  import opened Common
  import opened Text
  import opened Languages

  /** Which branch of the cascade answered. */
  datatype Topic = Complaint | Emergency | Clearance | Status | Thanks | Greeting | Fallback

  const ComplaintWords: seq<string> := ["complaint", "file", "report"]
  const EmergencyWords: seq<string> := ["emergency", "urgent", "help"]
  const ClearanceWords: seq<string> := ["pcc", "clearance", "certificate"]
  const StatusWords: seq<string> := ["status", "track", "token"]
  const ThanksWords: seq<string> := ["thank", "thanks"]
  const GreetingWords: seq<string> := ["hello", "hi", "namaste"]

  /** One branch of the cascade: its topic and its keywords. */
  datatype Rule = Rule(topic: Topic, words: seq<string>)

  /** The branches in the order they are tried. */
  const Rules: seq<Rule> := [
    Rule(Complaint, ComplaintWords),
    Rule(Emergency, EmergencyWords),
    Rule(Clearance, ClearanceWords),
    Rule(Status, StatusWords),
    Rule(Thanks, ThanksWords),
    Rule(Greeting, GreetingWords)
  ]

  lemma RulesInOrder()
    ensures |Rules| == 6
    ensures Rules[0].words == ComplaintWords && Rules[1].words == EmergencyWords && Rules[2].words == ClearanceWords
    ensures Rules[3].words == StatusWords && Rules[4].words == ThanksWords && Rules[5].words == GreetingWords
    ensures Rules[0].topic == Complaint && Rules[1].topic == Emergency && Rules[2].topic == Clearance
    ensures Rules[3].topic == Status && Rules[4].topic == Thanks && Rules[5].topic == Greeting
  {
  }

  /** The cascade on the lower-cased message; each test is a substring test. */
  function Classify(message: string): (r: Topic)
    ensures r == Complaint <==> ContainsAny(ToLower(message), ComplaintWords)
    ensures r == Emergency ==> ContainsAny(ToLower(message), EmergencyWords)
    ensures r == Clearance ==> ContainsAny(ToLower(message), ClearanceWords)
    ensures r == Status ==> ContainsAny(ToLower(message), StatusWords)
    ensures r == Thanks ==> ContainsAny(ToLower(message), ThanksWords)
    ensures r == Greeting ==> ContainsAny(ToLower(message), GreetingWords)
    ensures r == Fallback <==> forall k | 0 <= k < |Rules| :: !ContainsAny(ToLower(message), Rules[k].words)
  {
    var lower := ToLower(message);
    RulesInOrder();
    if ContainsAny(lower, ComplaintWords) then Complaint
    else if ContainsAny(lower, EmergencyWords) then Emergency
    else if ContainsAny(lower, ClearanceWords) then Clearance
    else if ContainsAny(lower, StatusWords) then Status
    else if ContainsAny(lower, ThanksWords) then Thanks
    else if ContainsAny(lower, GreetingWords) then Greeting
    else Fallback
  }

  /** The topic of the first rule whose keywords occur, or the fallback. */
  function FirstRule(lower: string): (r: Topic)
    ensures r == Fallback <==> forall k | 0 <= k < |Rules| :: !ContainsAny(lower, Rules[k].words)
  {
    match FirstIndex(Rules, (rule: Rule) => ContainsAny(lower, rule.words))
    case None => Fallback
    case Some(k) => Rules[k].topic
  }

  /** The cascade is "first matching rule wins" over `Rules`. */
  lemma ClassifyIsFirstRule(message: string)
    ensures Classify(message) == FirstRule(ToLower(message))
  {
    var lower := ToLower(message);
    var p := (rule: Rule) => ContainsAny(lower, rule.words);
    var k := FirstIndex(Rules, p);
    RulesInOrder();
    if k.Some? {
      assert forall j | 0 <= j < k.value :: !p(Rules[j]);
      assert p(Rules[k.value]);
      if k.value == 0 {} else if k.value == 1 {} else if k.value == 2 {}
      else if k.value == 3 {} else if k.value == 4 {} else {}
    }
  }

  /** A message naming a complaint, a file or a report is a complaint,
      whatever else it says. */
  lemma ComplaintWinsOverEverything(message: string)
    requires Contains(ToLower(message), "complaint") || Contains(ToLower(message), "file") || Contains(ToLower(message), "report")
    ensures Classify(message) == Complaint
  {
    if Contains(ToLower(message), "complaint") {
      assert Contains(ToLower(message), ComplaintWords[0]);
    } else if Contains(ToLower(message), "file") {
      assert Contains(ToLower(message), ComplaintWords[1]);
    } else {
      assert Contains(ToLower(message), ComplaintWords[2]);
    }
  }

  lemma HelpThanksLacksComplaintWords()
    ensures !ContainsAny("help, thanks", ComplaintWords)
  {
    NotContainsByChar("help, thanks", "complaint", 'c');
    NotContainsByChar("help, thanks", "file", 'f');
    NotContainsByChar("help, thanks", "report", 'r');
  }

  /** "help" is tried before "thanks": a grateful call for help is an emergency. */
  lemma HelpBeatsThanks()
    ensures Classify("help, thanks") == Emergency
  {
    var m := "help, thanks";
    assert ToLower(m) == m;
    HelpThanksLacksComplaintWords();
    ContainsAt(m, "help", 0);
    assert Contains(m, EmergencyWords[2]);
  }

  lemma ThisLacksEarlierWords()
    ensures forall k | 0 <= k < 5 :: !ContainsAny("this", Rules[k].words)
  {
    ThisLacksUrgentWords();
    ThisLacksServiceWords();
  }

  /** "this" names neither a complaint nor an emergency. */
  lemma ThisLacksUrgentWords()
    ensures forall k | 0 <= k < 2 :: !ContainsAny("this", Rules[k].words)
  {
    var m := "this";
    NotContainsByChar(m, "complaint", 'c');
    NotContainsByChar(m, "file", 'f');
    NotContainsByChar(m, "report", 'r');
    NotContainsByChar(m, "emergency", 'e');
    NotContainsByChar(m, "urgent", 'u');
    NotContainsByChar(m, "help", 'e');
  }

  /** "this" names neither a clearance, a status nor thanks. */
  lemma ThisLacksServiceWords()
    ensures forall k | 2 <= k < 5 :: !ContainsAny("this", Rules[k].words)
  {
    var m := "this";
    NotContainsByChar(m, "pcc", 'p');
    NotContainsByChar(m, "clearance", 'c');
    NotContainsByChar(m, "certificate", 'c');
    NotContainsByChar(m, "status", 'a');
    NotContainsByChar(m, "track", 'r');
    NotContainsByChar(m, "token", 'o');
    NotContainsByChar(m, "thank", 'a');
    NotContainsByChar(m, "thanks", 'a');
  }

  /** "hi" is a substring test: any word holding it, such as "this", is a greeting. */
  lemma ThisIsAGreeting()
    ensures Classify("this") == Greeting
  {
    var m := "this";
    assert ToLower(m) == m;
    ThisLacksEarlierWords();
    RulesInOrder();
    assert !ContainsAny(m, ComplaintWords) && !ContainsAny(m, EmergencyWords) && !ContainsAny(m, ClearanceWords);
    assert !ContainsAny(m, StatusWords) && !ContainsAny(m, ThanksWords);
    ContainsAt(m, "hi", 1);
    assert Contains(m, GreetingWords[1]);
  }

  const ComplaintReply: string := "I understand you want to file a complaint. You can use our complaint filing system from the main menu. Would you like me to guide you through the process?"
  const EmergencyReply: string := "If this is an emergency, please use the SOS button on the main screen immediately. For non-emergency assistance, I'm here to help. Can you tell me more about your situation?"
  const ClearanceReply: string := "For Police Clearance Certificate applications, you can use the PCC section from the main menu. The process is simple and guided. Do you need help with the requirements?"
  const StatusReply: string := "To check the status of your application, you'll need your token number. Do you have your token number with you?"
  const ThanksReply: string := "You're welcome! I'm here to help. Is there anything else you need assistance with?"
  const GreetingReply: string := "Hello! I'm here to assist you with any police-related services. What can I help you with today?"
  const FallbackReply: string := "I understand your concern. Could you please provide more details so I can assist you better? You can also use our complaint filing system or emergency services if needed."

  /** The seven fixed answers. */
  const Replies: seq<string> := [ComplaintReply, EmergencyReply, ClearanceReply, StatusReply, ThanksReply, GreetingReply, FallbackReply]

  function ReplyFor(t: Topic): string {
    match t
    case Complaint => ComplaintReply
    case Emergency => EmergencyReply
    case Clearance => ClearanceReply
    case Status => StatusReply
    case Thanks => ThanksReply
    case Greeting => GreetingReply
    case Fallback => FallbackReply
  }

  /** `generateOfficerResponse`: always one of the seven fixed answers, the
      one of the first rule that fires. */
  function GenerateOfficerResponse(message: string): (r: string)
    ensures r in Replies
    ensures ContainsAny(ToLower(message), ComplaintWords) ==> r == ComplaintReply
    ensures r == ReplyFor(FirstRule(ToLower(message)))
  {
    ClassifyIsFirstRule(message);
    ReplyFor(Classify(message))
  }

  // ---------------------------------------------------------------- messages

  datatype Sender = Visitor | Officer

  /** A chat bubble; `original` is the English answer behind a translated one. */
  datatype ChatMessage = ChatMessage(text: string, sender: Sender, original: Option<string>)

  // The texts after each greeting word, kept apart so that proofs about the
  // opening characters need not unfold them.
  const WelcomeRestEnglish := "I am Officer Sharma. How can I assist you today?"
  const WelcomeRestHindi := "मैं अधिकारी शर्मा हूं। आज मैं आपकी कैसे सहायता कर सकता हूं?"
  const WelcomeRestKonkani := "हांव अधिकारी शर्मा. आज हांव तुमची कशी मदत करूं शकतां?"

  /** The officer's opening line in the visitor's language. */
  function Welcome(language: Language): (r: string)
    ensures |r| > 0
    ensures language == English <==> 'A' <= r[0] <= 'Z'
  {
    match language
    case English => "Hello! " + WelcomeRestEnglish
    case Hindi => "नमस्ते! " + WelcomeRestHindi
    case Konkani => "नमस्कार! " + WelcomeRestKonkani
  }

  /** The three opening lines are distinct, and the English one is itself
      a greeting for the officer's cascade. */
  lemma WelcomesDistinct(a: Language, b: Language)
    ensures a != b ==> Welcome(a) != Welcome(b)
    ensures ContainsAny(ToLower(Welcome(English)), GreetingWords)
  {
    if a != b && a != English && b != English {
      assert Welcome(a)[4] != Welcome(b)[4];
    }
    var w := ToLower(Welcome(English));
    assert w[..5] == "hello";
    ContainsAt(w, "hello", 0);
    assert Contains(w, GreetingWords[0]);
  }

  /** The conversation when the screen opens (or the language changes). */
  function Opened(language: Language): (r: seq<ChatMessage>)
    ensures |r| == 1 && r[0].sender == Officer && r[0].original.None?
  {
    [ChatMessage(Welcome(language), Officer, None)]
  }

  const Apology: string := "I apologize, but I am having trouble with translation. Could you please try again?"

  /** `sendMessage`: nothing for a blank message; otherwise the visitor's
      message, then the officer's answer. For a Hindi or Konkani visitor the
      message is translated to English (`toEnglish`), answered, and the
      answer translated back (`fromEnglish`); a failed translation gives the
      apology instead. */
  function SendMessage(messages: seq<ChatMessage>, language: Language, text: string,
                       toEnglish: Option<string>, fromEnglish: string -> Option<string>): (r: seq<ChatMessage>)
    ensures Trim(text) == "" ==> r == messages
    ensures Trim(text) != "" ==> |r| == |messages| + 2 && r[..|messages|] == messages
    ensures Trim(text) != "" ==> r[|messages|] == ChatMessage(text, Visitor, None) && r[|messages| + 1].sender == Officer
    ensures Trim(text) != "" && language == English ==>
              r[|messages| + 1] == ChatMessage(GenerateOfficerResponse(text), Officer, Some(GenerateOfficerResponse(text)))
    ensures Trim(text) != "" && language != English && toEnglish.None? ==>
              r[|messages| + 1] == ChatMessage(Apology, Officer, None)
    ensures Trim(text) != "" && language != English && toEnglish.Some? ==>
              var en := GenerateOfficerResponse(toEnglish.value);
              (fromEnglish(en).None? ==> r[|messages| + 1] == ChatMessage(Apology, Officer, None))
              && (fromEnglish(en).Some? ==> r[|messages| + 1] == ChatMessage(fromEnglish(en).value, Officer, Some(en)))
  {
    if Trim(text) == "" then messages
    else
      var visitor := ChatMessage(text, Visitor, None);
      var answer :=
        if language == English then
          var en := GenerateOfficerResponse(text);
          ChatMessage(en, Officer, Some(en))
        else match toEnglish
          case None => ChatMessage(Apology, Officer, None)
          case Some(t) =>
            var en := GenerateOfficerResponse(t);
            match fromEnglish(en)
            case None => ChatMessage(Apology, Officer, None)
            case Some(back) => ChatMessage(back, Officer, Some(en));
      messages + [visitor, answer]
  }

  /** A message of white space only leaves the conversation as it was. */
  lemma BlankMessageIgnored(messages: seq<ChatMessage>, language: Language, text: string,
                            toEnglish: Option<string>, fromEnglish: string -> Option<string>)
    requires forall i | 0 <= i < |text| :: IsSpace(text[i])
    ensures SendMessage(messages, language, text, toEnglish, fromEnglish) == messages
  {
    TrimEmptyIffBlank(text);
  }

  /** The answer of a translated exchange is the apology, or else the answer
      of the first rule that fires on the English translation of the
      visitor's text, read back through the translator. */
  lemma TranslatedAnswerComesFromCascade(messages: seq<ChatMessage>, language: Language, text: string,
                                         toEnglish: Option<string>, fromEnglish: string -> Option<string>)
    requires Trim(text) != "" && language != English
    ensures var a := SendMessage(messages, language, text, toEnglish, fromEnglish)[|messages| + 1];
            (a.original.None? ==> a == ChatMessage(Apology, Officer, None))
            && (a.original.Some? ==>
                  toEnglish.Some? && a.original.value == ReplyFor(FirstRule(ToLower(toEnglish.value)))
                  && a.original.value in Replies && fromEnglish(a.original.value) == Some(a.text))
  {
  }
}

=== FILE: pcc_filing.dfy ===
/** The police clearance certificate wizard (`PCCFiling`): certificate type,
    purpose, applicant details, a checklist of six documents, preview. */
module PccFiling {
  import opened Common
  import opened Languages
  import opened Wizard

  /** The applicant's `personalInfo`. */
  datatype Applicant = Applicant(
    name: string, phone: string, email: string, address: string,
    dateOfBirth: string, placeOfBirth: string, fatherName: string, motherName: string)

  datatype ApplicantField = Name | Phone | Email | Address | DateOfBirth | PlaceOfBirth | FatherName | MotherName

  function ApplicantFieldOf(a: Applicant, f: ApplicantField): string {
    match f
    case Name => a.name
    case Phone => a.phone
    case Email => a.email
    case Address => a.address
    case DateOfBirth => a.dateOfBirth
    case PlaceOfBirth => a.placeOfBirth
    case FatherName => a.fatherName
    case MotherName => a.motherName
  }

  datatype PccData = PccData(pccType: string, purpose: string, applicant: Applicant, documentsChecked: seq<string>)

  function EmptyPcc(): (r: PccData)
    ensures r.pccType == "" && r.purpose == "" && |r.documentsChecked| == 0
    ensures forall f :: ApplicantFieldOf(r.applicant, f) == ""
  {
    PccData("", "", Applicant("", "", "", "", "", "", "", ""), [])
  }

  /** The certificate types of the interface tables (`t.pccTypes`). */
  datatype PccKind = Employment | Visa | Immigration | Education | Business | OtherType

  function PccTypeLabel(kind: PccKind, language: Language): string {
    match language
    case English =>
      (match kind
       case Employment => "Employment" case Visa => "Visa Application" case Immigration => "Immigration"
       case Education => "Education" case Business => "Business License" case OtherType => "Others")
    case Hindi =>
      (match kind
       case Employment => "रोजगार" case Visa => "वीजा आवेदन" case Immigration => "आप्रवासन"
       case Education => "शिक्षा" case Business => "व्यापार लाइसेंस" case OtherType => "अन्य")
    case Konkani =>
      (match kind
       case Employment => "नोकरी" case Visa => "व्हिसा अर्ज" case Immigration => "स्थलांतर"
       case Education => "शिक्षण" case Business => "धंदो लायसन्स" case OtherType => "इतर")
  }

  /** `requiredDocuments`: six documents, named in the interface language. */
  function RequiredDocuments(language: Language): (r: seq<string>)
    ensures |r| == 6
  {
    match language
    case English =>
      [ "Aadhaar Card", "Passport Size Photographs (2)", "Birth Certificate", "Address Proof",
        "Passport (if applying for visa/immigration)", "Employment Letter (if for employment)" ]
    case Hindi =>
      [ "आधार कार्ड", "पासपोर्ट साइज फोटो (2)", "जन्म प्रमाण पत्र", "पता प्रमाण",
        "पासपोर्ट (वीजा/आप्रवासन के लिए)", "नियुक्ति पत्र (रोजगार के लिए)" ]
    case Konkani =>
      [ "आधार कार्ड", "पासपोर्ट साइज फोटो (2)", "जन्म प्रमाणपत्र", "पत्त्याचो पुरावो",
        "पासपोर्ट (व्हिसा/स्थलांतराखातीर)", "नोकरीचे पत्र (नोकरीखातीर)" ]
  }

  /** `handlePccTypeSelect`: only the certificate type changes. */
  function HandlePccTypeSelect(d: PccData, kind: string): (r: PccData)
    ensures r.pccType == kind
    ensures r.purpose == d.purpose && r.applicant == d.applicant && r.documentsChecked == d.documentsChecked
  {
    d.(pccType := kind)
  }

  /** `handlePurposeChange`: only the purpose changes. */
  function HandlePurposeChange(d: PccData, purpose: string): (r: PccData)
    ensures r.purpose == purpose
    ensures r.pccType == d.pccType && r.applicant == d.applicant && r.documentsChecked == d.documentsChecked
  {
    d.(purpose := purpose)
  }

  /** `handlePersonalInfoChange`: only the named applicant field changes. */
  function HandlePersonalInfoChange(d: PccData, f: ApplicantField, value: string): (r: PccData)
    ensures ApplicantFieldOf(r.applicant, f) == value
    ensures forall g | g != f :: ApplicantFieldOf(r.applicant, g) == ApplicantFieldOf(d.applicant, g)
    ensures r.pccType == d.pccType && r.purpose == d.purpose && r.documentsChecked == d.documentsChecked
  {
    var a := d.applicant;
    var a' := match f
      case Name => a.(name := value)
      case Phone => a.(phone := value)
      case Email => a.(email := value)
      case Address => a.(address := value)
      case DateOfBirth => a.(dateOfBirth := value)
      case PlaceOfBirth => a.(placeOfBirth := value)
      case FatherName => a.(fatherName := value)
      case MotherName => a.(motherName := value);
    d.(applicant := a')
  }

  /** `handleDocumentCheck`: only the checklist changes. */
  function HandleDocumentCheck(d: PccData, doc: string): (r: PccData)
    ensures r.pccType == d.pccType && r.purpose == d.purpose && r.applicant == d.applicant
    ensures doc in r.documentsChecked <==> doc !in d.documentsChecked
    ensures forall x | x != doc :: x in r.documentsChecked <==> x in d.documentsChecked
    ensures NoDup(d.documentsChecked) ==> NoDup(r.documentsChecked)
  {
    d.(documentsChecked := ToggleDocument(d.documentsChecked, doc))
  }

  /** Checking and unchecking a series of documents. */
  function CheckAll(d: PccData, docs: seq<string>): (r: PccData)
    ensures r.pccType == d.pccType && r.purpose == d.purpose && r.applicant == d.applicant
    decreases |docs|
  {
    if |docs| == 0 then d else CheckAll(HandleDocumentCheck(d, docs[0]), docs[1..])
  }

  predicate ChecklistWithin(d: PccData, required: seq<string>) {
    NoDup(d.documentsChecked) && forall x | x in d.documentsChecked :: x in required
  }

  /** Ticking only listed documents, the checklist stays a duplicate-free
      selection of them, so the preview's count never exceeds six. */
  lemma {:induction false} ChecklistStaysWithinRequired(d: PccData, docs: seq<string>, language: Language)
    requires ChecklistWithin(d, RequiredDocuments(language))
    requires forall x | x in docs :: x in RequiredDocuments(language)
    ensures ChecklistWithin(CheckAll(d, docs), RequiredDocuments(language))
    ensures |CheckAll(d, docs).documentsChecked| <= 6
    decreases |docs|
  {
    var required := RequiredDocuments(language);
    if |docs| == 0 {
      NoDupSubsetBound(d.documentsChecked, required);
      CardinalityOfIndexSet(required);
      assert (set x | x in required) == set i | 0 <= i < |required| :: required[i];
    } else {
      ToggleWithinList(d.documentsChecked, docs[0], required);
      ChecklistStaysWithinRequired(HandleDocumentCheck(d, docs[0]), docs[1..], language);
    }
  }

  /** The Next button's `disabled` condition: step 1 without a type, step 2
      without a purpose, step 3 with one of the seven required applicant
      fields (all but the e-mail) empty. */
  predicate NextDisabled(step: int, d: PccData) {
    (step == 1 && d.pccType == "") || (step == 2 && d.purpose == "")
    || (step == 3 && (d.applicant.name == "" || d.applicant.phone == "" || d.applicant.address == ""
                      || d.applicant.dateOfBirth == "" || d.applicant.placeOfBirth == ""
                      || d.applicant.fatherName == "" || d.applicant.motherName == ""))
  }

  /** Next on the certificate form: a type is needed to leave step 1, a
      purpose to leave step 2, and every applicant field but the e-mail to
      leave step 3, while step 4 always moves on. */
  function PressNext(step: int, d: PccData): (r: int)
    ensures ValidStep(step) ==> ValidStep(r)
    ensures r == step + 1 <==> step < LastStep && !NextDisabled(step, d)
    ensures r != step + 1 ==> r == step
    ensures step == 1 ==> (r == 2 <==> d.pccType != "")
    ensures step == 2 ==> (r == 3 <==> d.purpose != "")
    ensures step == 3 ==> (r == 4 <==> forall f | f != ApplicantField.Email :: ApplicantFieldOf(d.applicant, f) != "")
    ensures step == 4 ==> r == 5
  {
    RequiredFieldsFilled(d.applicant);
    Advance(step, NextDisabled(step, d))
  }

  /** The seven fields step 3 checks are exactly the applicant fields other
      than the e-mail. */
  lemma RequiredFieldsFilled(a: Applicant)
    ensures (forall f | f != ApplicantField.Email :: ApplicantFieldOf(a, f) != "")
            <==> (a.name != "" && a.phone != "" && a.address != "" && a.dateOfBirth != ""
                  && a.placeOfBirth != "" && a.fatherName != "" && a.motherName != "")
  {
    if a.name != "" && a.phone != "" && a.address != "" && a.dateOfBirth != ""
       && a.placeOfBirth != "" && a.fatherName != "" && a.motherName != "" {
      forall f | f != ApplicantField.Email
        ensures ApplicantFieldOf(a, f) != ""
      {
      }
    } else {
      // an empty one of the seven
      var f := if a.name == "" then ApplicantField.Name
               else if a.phone == "" then ApplicantField.Phone
               else if a.address == "" then ApplicantField.Address
               else if a.dateOfBirth == "" then DateOfBirth
               else if a.placeOfBirth == "" then PlaceOfBirth
               else if a.fatherName == "" then FatherName
               else MotherName;
      assert f != ApplicantField.Email && ApplicantFieldOf(a, f) == "";
    }
  }

  /** From the empty form Next stays put until a type is chosen; after that,
      and a purpose, the applicant step is reached. */
  lemma EmptyFormIsStuck()
    ensures PressNext(1, EmptyPcc()) == 1
  {
  }

  lemma TypeAndPurposeReachDetails(d: PccData)
    requires d.pccType != "" && d.purpose != ""
    ensures PressNext(PressNext(1, d), d) == 3
  {
  }
}

=== FILE: pcc_pdf.dfy ===
/** The English wording of the certificate PDF (`translateToEnglish` of the
    PDF generator): Hindi and Konkani certificate types and document names
    are mapped to English, everything else passes through. The typed purpose
    and applicant details are printed as entered. The PDF layout itself is
    not modelled. */
module PccPdf {
  import opened Languages
  import opened PccFiling

  const PdfTranslations: map<string, string> := map[
    "रोजगार" := "Employment",
    "वीजा आवेदन" := "Visa Application",
    "आप्रवासन" := "Immigration",
    "शिक्षा" := "Education",
    "व्यापार लाइसेंस" := "Business License",
    "अन्य" := "Others",
    "नोकरी" := "Employment",
    "व्हिसा अर्ज" := "Visa Application",
    "स्थलांतर" := "Immigration",
    "शिक्षण" := "Education",
    "धंदो लायसन्स" := "Business License",
    "इतर" := "Others",
    "आधार कार्ड" := "Aadhaar Card",
    "पासपोर्ट साइज फोटो (2)" := "Passport Size Photographs (2)",
    "जन्म प्रमाण पत्र" := "Birth Certificate",
    "जन्म प्रमाणपत्र" := "Birth Certificate",
    "पता प्रमाण" := "Address Proof",
    "पत्त्याचो पुरावो" := "Address Proof",
    "पासपोर्ट (वीजा/आप्रवासन के लिए)" := "Passport (for visa/immigration)",
    "पासपोर्ट (व्हिसा/स्थलांतराखातीर)" := "Passport (for visa/immigration)",
    "नियुक्ति पत्र (रोजगार के लिए)" := "Employment Letter (for employment)",
    "नोकरीचे पत्र (नोकरीखातीर)" := "Employment Letter (for employment)"
  ]

  /** English text is kept; otherwise a listed term becomes English and
      anything else is kept. */
  function TranslateToEnglish(text: string, language: Language): (r: string)
    ensures language == English ==> r == text
    ensures language != English && text in PdfTranslations ==> r == PdfTranslations[text]
    ensures text !in PdfTranslations ==> r == text
  {
    if language == English then text
    else if text in PdfTranslations && PdfTranslations[text] != "" then PdfTranslations[text]
    else text
  }

  /** Every value of the table is Latin text, hence not itself a key. */
  lemma ValuesAreNotKeys(text: string)
    requires text in PdfTranslations
    ensures PdfTranslations[text] !in PdfTranslations
  {
    KeysAreDevanagari();
    ValuesAreLatin();
  }

  lemma KeysAreDevanagari()
    ensures forall k | k in PdfTranslations :: |k| > 0 && k[0] >= '\U{0900}'
  {
  }

  lemma ValuesAreLatin()
    ensures forall k | k in PdfTranslations :: |PdfTranslations[k]| > 0 && PdfTranslations[k][0] <= 'Z'
  {
  }

  /** Translating a second time changes nothing. */
  lemma TranslateIdempotent(text: string, language: Language)
    ensures TranslateToEnglish(TranslateToEnglish(text, language), language) == TranslateToEnglish(text, language)
  {
    if language != English && text in PdfTranslations {
      ValuesAreNotKeys(text);
    }
  }

  /** Hindi and Konkani certificate types print as the English label. */
  lemma PccTypesPrintInEnglish(kind: PccKind, language: Language)
    ensures TranslateToEnglish(PccTypeLabel(kind, language), language) == PccTypeLabel(kind, English)
  {
    match language
    case English =>
    case Hindi => HindiPccTypeListed(kind);
    case Konkani => KonkaniPccTypeListed(kind);
  }

  lemma HindiPccTypeListed(kind: PccKind)
    ensures PccTypeLabel(kind, Hindi) in PdfTranslations
    ensures PdfTranslations[PccTypeLabel(kind, Hindi)] == PccTypeLabel(kind, English)
  {
  }

  lemma KonkaniPccTypeListed(kind: PccKind)
    ensures PccTypeLabel(kind, Konkani) in PdfTranslations
    ensures PdfTranslations[PccTypeLabel(kind, Konkani)] == PccTypeLabel(kind, English)
  {
  }

  /** The first four required documents print under their English names in
      every language. */
  lemma FirstDocumentsPrintInEnglish(language: Language, i: nat)
    requires i < 4
    ensures TranslateToEnglish(RequiredDocuments(language)[i], language) == RequiredDocuments(English)[i]
  {
  }

  /** The last two print with a wording that differs from the English
      checklist's ("for" against "if applying for" / "if for"). */
  lemma LastDocumentsPrintDifferently(language: Language, i: nat)
    requires language != English && 4 <= i < 6
    ensures TranslateToEnglish(RequiredDocuments(language)[i], language) != RequiredDocuments(English)[i]
  {
    var t := TranslateToEnglish(RequiredDocuments(language)[i], language);
    var e := RequiredDocuments(English)[i];
    if i == 4 {
      assert t == "Passport (for visa/immigration)";
      assert t[10] != e[10];
    } else {
      assert t == "Employment Letter (for employment)";
      assert t[19] != e[19];
    }
  }

  /** The wording of the PDF's fields: the type under "PCC Type:" and each
      checked document pass through the table, while the typed purpose and
      the applicant's details are printed as entered. */
  datatype PrintedPcc = PrintedPcc(pccType: string, purpose: string, applicant: Applicant, documents: seq<string>)

  function PrintedFields(d: PccData, language: Language): (r: PrintedPcc)
    ensures r.pccType == TranslateToEnglish(d.pccType, language)
    ensures r.purpose == d.purpose && r.applicant == d.applicant
    ensures |r.documents| == |d.documentsChecked|
    ensures forall i | 0 <= i < |r.documents| :: r.documents[i] == TranslateToEnglish(d.documentsChecked[i], language)
  {
    PrintedPcc(TranslateToEnglish(d.pccType, language), d.purpose, d.applicant,
               seq(|d.documentsChecked|, i requires 0 <= i < |d.documentsChecked| => TranslateToEnglish(d.documentsChecked[i], language)))
  }

  /** A type picked from the cards prints as its English label, and picking
      it leaves the printed purpose as typed. */
  lemma ChosenTypePrintsInEnglish(d: PccData, kind: PccKind, language: Language)
    ensures PrintedFields(HandlePccTypeSelect(d, PccTypeLabel(kind, language)), language).pccType == PccTypeLabel(kind, English)
    ensures PrintedFields(HandlePccTypeSelect(d, PccTypeLabel(kind, language)), language).purpose == d.purpose
  {
    PccTypesPrintInEnglish(kind, language);
  }

  /** The purpose is not translated: a Hindi purpose that happens to be a
      type label still prints in Hindi, where the same text as the type
      prints in English. */
  lemma PurposePrintsAsTyped(d: PccData)
    ensures PrintedFields(HandlePurposeChange(d, "रोजगार"), Hindi).purpose == "रोजगार"
    ensures PrintedFields(HandlePccTypeSelect(d, "रोजगार"), Hindi).pccType == "Employment"
  {
    HindiPccTypeListed(Employment);
  }
}

=== FILE: rag_history.dfy ===
/** The conversation memory of the retrieval-and-reply engine
    (`addToHistory`, `getConversationContext`, `clearHistory`): a bounded
    first-in-first-out list of the last ten turns, and the text of the last
    four turns that the reply builder consults. Time stamps are not modelled. */
module History {
  import opened Common
  import opened Text
  import opened Languages

  datatype Role = User | Assistant

  /** One conversation turn; `language` is the optional detected language. */
  datatype Message = Message(role: Role, content: string, language: Option<Tag>)

  /** `maxHistoryLength`. */
  const MaxHistory: nat := 10

  /** How many turns the conversation context shows. */
  const ContextWindow: nat := 4

  /** `s.slice(-n)` for `n > 0`: the last `n` elements, or all of them. */
  function LastN<T>(s: seq<T>, n: nat): (r: seq<T>)
    ensures |r| == if |s| < n then |s| else n
    ensures forall i | 0 <= i < |r| :: r[i] == s[|s| - |r| + i]
  {
    if |s| <= n then s else s[|s| - n..]
  }

  /** `addToHistory`: push, then keep only the newest `MaxHistory` turns. */
  function AddToHistory(h: seq<Message>, m: Message): (r: seq<Message>)
    ensures |r| <= MaxHistory
    ensures |r| > 0 && r[|r| - 1] == m
    ensures |h| < MaxHistory ==> |r| == |h| + 1 && r[..|h|] == h
    ensures |h| >= MaxHistory ==> |r| == MaxHistory
    ensures forall i | 0 <= i < |r| - 1 :: r[i] == h[|h| - (|r| - 1) + i]
  {
    var pushed := h + [m];
    if |pushed| > MaxHistory then pushed[|pushed| - MaxHistory..] else pushed
  }

  /** Adding the turns of `ms` one by one. */
  function AddAll(h: seq<Message>, ms: seq<Message>): (r: seq<Message>)
    decreases |ms|
  {
    if |ms| == 0 then h else AddAll(AddToHistory(h, ms[0]), ms[1..])
  }

  /** However many turns are added, the history is the newest ten of all of
      them: the bounded list behaves as a sliding window over the whole
      conversation. */
  lemma {:induction false} AddAllIsWindow(h: seq<Message>, ms: seq<Message>)
    requires |h| <= MaxHistory
    ensures AddAll(h, ms) == LastN(h + ms, MaxHistory)
    decreases |ms|
  {
    if |ms| > 0 {
      var h1 := AddToHistory(h, ms[0]);
      assert AddAll(h, ms) == AddAll(h1, ms[1..]);
      AddAllIsWindow(h1, ms[1..]);
      WindowStep(h, ms);
    }
  }

  /** Two turns added in a row leave the newest ten of the old history and
      both turns. */
  lemma AddTwoIsWindow(h: seq<Message>, a: Message, b: Message)
    requires |h| <= MaxHistory
    ensures AddToHistory(AddToHistory(h, a), b) == LastN(h + [a, b], MaxHistory)
  {
    AddAllIsWindow(h, [a, b]);
    assert [a, b][1..] == [b];
    assert AddAll(AddToHistory(h, a), [b]) == AddAll(AddToHistory(AddToHistory(h, a), b), []);
  }

  /** Pushing the first turn and windowing the rest is windowing them all. */
  lemma WindowStep(h: seq<Message>, ms: seq<Message>)
    requires |h| <= MaxHistory && |ms| > 0
    ensures LastN(AddToHistory(h, ms[0]) + ms[1..], MaxHistory) == LastN(h + ms, MaxHistory)
  {
    var m := ms[0];
    var rest := ms[1..];
    var a := AddToHistory(h, m) + rest;
    var b := h + ms;
    var la := LastN(a, MaxHistory);
    var lb := LastN(b, MaxHistory);
    assert |la| == |lb|;
    forall i | 0 <= i < |la|
      ensures la[i] == lb[i]
    {
      var j := |b| - |lb| + i;
      if j >= |h| + 1 {
        assert b[j] == rest[j - |h| - 1];
      } else if j == |h| {
        assert b[j] == m;
      } else {
        assert b[j] == h[j];
      }
    }
  }

  /** `clearHistory`. */
  function ClearHistory(): (r: seq<Message>)
    ensures |r| == 0
  {
    []
  }

  function RoleName(role: Role): string {
    match role
    case User => "user"
    case Assistant => "assistant"
  }

  /** A turn as the context shows it: `role: content`. */
  function Render(m: Message): (r: string)
    ensures |r| == |RoleName(m.role)| + 2 + |m.content|
    ensures StartsWith(r, RoleName(m.role) + ": ")
    ensures r[|RoleName(m.role)| + 2..] == m.content
    ensures Contains(r, m.content)
    ensures '\n' in r <==> '\n' in m.content
  {
    var r := RoleName(m.role) + ": " + m.content;
    assert r[|RoleName(m.role) + ": "|..] == m.content;
    ContainsAt(r, m.content, |RoleName(m.role) + ": "|);
    r
  }

  /** Reads a context line back into its role and content. */
  function ParseTurn(line: string): Option<(Role, string)> {
    if StartsWith(line, "user: ") then Some((User, line[6..]))
    else if StartsWith(line, "assistant: ") then Some((Assistant, line[11..]))
    else None
  }

  /** A rendered turn reads back as the turn's role and content. */
  lemma RenderParses(m: Message)
    ensures ParseTurn(Render(m)) == Some((m.role, m.content))
  {
    var r := Render(m);
    if m.role == Assistant {
      assert r[0] == 'a';
    }
  }

  function RenderAll(ms: seq<Message>): (r: seq<string>)
    ensures |r| == |ms|
    ensures forall i | 0 <= i < |ms| :: r[i] == Render(ms[i])
  {
    seq(|ms|, i requires 0 <= i < |ms| => Render(ms[i]))
  }

  /** The turns the context shows hold no line break of their own. */
  predicate SingleLineWindow(h: seq<Message>) {
    forall i | 0 <= i < |h| && |h| - i <= ContextWindow :: '\n' !in h[i].content
  }

  /** `lines` are one line for each of the last four turns of `h` (all of
      them when there are fewer), oldest first, and each line reads back as
      that turn's role and content. */
  predicate ReadsBack(h: seq<Message>, lines: seq<string>) {
    |lines| == (if |h| < ContextWindow then |h| else ContextWindow)
    && |lines| <= |h|
    && forall k | 0 <= k < |lines| ::
         ParseTurn(lines[k]) == Some((h[|h| - |lines| + k].role, h[|h| - |lines| + k].content))
  }

  /** Splitting `context` at line breaks gives the lines of the last four
      turns of `h`. */
  predicate LinesReadBack(h: seq<Message>, context: string) {
    ReadsBack(h, SplitOn(context, '\n'))
  }

  /** `getConversationContext`: empty without history, else the last four
      turns rendered and joined by line breaks. When no shown turn holds a
      line break of its own, the lines of the context read back, in order,
      as the roles and contents of the last four turns. */
  function Context(h: seq<Message>): (r: string)
    ensures |h| == 0 <==> r == ""
    ensures forall i | 0 <= i < |h| && |h| - i <= ContextWindow :: Contains(r, h[i].content)
    ensures |h| > 0 && SingleLineWindow(h) ==> LinesReadBack(h, r)
  {
    if |h| == 0 then ""
    else
      var shown := RenderAll(LastN(h, ContextWindow));
      ContextShowsWindow(h, shown);
      ContextLines(h, shown);
      Join("\n", shown)
  }

  /** Splitting the joined lines at line breaks gives back the rendered
      turns, each of which reads back as its turn. */
  lemma ContextLines(h: seq<Message>, shown: seq<string>)
    requires |h| > 0 && shown == RenderAll(LastN(h, ContextWindow))
    ensures SingleLineWindow(h) ==> LinesReadBack(h, Join("\n", shown))
  {
    if !SingleLineWindow(h) {
      return;
    }
    ShownLinesAreSingle(h, shown);
    SplitJoinRoundTrip('\n', shown);
    assert ['\n'] == "\n";
    assert SplitOn(Join("\n", shown), '\n') == shown;
    ShownLinesParse(h, shown);
  }

  /** The rendered turns of a single-line window hold no line break. */
  lemma ShownLinesAreSingle(h: seq<Message>, shown: seq<string>)
    requires |h| > 0 && shown == RenderAll(LastN(h, ContextWindow)) && SingleLineWindow(h)
    ensures |shown| > 0 && forall k | 0 <= k < |shown| :: '\n' !in shown[k]
  {
    var w := LastN(h, ContextWindow);
    forall k | 0 <= k < |shown|
      ensures '\n' !in shown[k]
    {
      assert w[k] == h[|h| - |w| + k];
    }
  }

  /** Each rendered turn of the window reads back as its turn. */
  lemma ShownLinesParse(h: seq<Message>, shown: seq<string>)
    requires |h| > 0 && shown == RenderAll(LastN(h, ContextWindow))
    ensures ReadsBack(h, shown)
  {
    forall k | 0 <= k < |shown|
      ensures ParseTurn(shown[k]) == Some((h[|h| - |shown| + k].role, h[|h| - |shown| + k].content))
    {
      ShownLineParses(h, shown, k);
    }
  }

  /** The line at position `k` of the window reads back as its turn. */
  lemma ShownLineParses(h: seq<Message>, shown: seq<string>, k: nat)
    requires shown == RenderAll(LastN(h, ContextWindow)) && k < |shown|
    ensures |h| - |shown| + k < |h|
    ensures ParseTurn(shown[k]) == Some((h[|h| - |shown| + k].role, h[|h| - |shown| + k].content))
  {
    var w := LastN(h, ContextWindow);
    var m := w[k];
    assert shown[k] == Render(m);
    RenderParses(m);
    assert m == h[|h| - |shown| + k];
  }

  lemma ContextShowsWindow(h: seq<Message>, shown: seq<string>)
    requires |h| > 0 && shown == RenderAll(LastN(h, ContextWindow))
    ensures Join("\n", shown) != ""
    ensures forall i | 0 <= i < |h| && |h| - i <= ContextWindow :: Contains(Join("\n", shown), h[i].content)
  {
    var w := LastN(h, ContextWindow);
    assert StartsWith(Join("\n", shown), Render(w[0]));
    forall i | 0 <= i < |h| && |h| - i <= ContextWindow
      ensures Contains(Join("\n", shown), h[i].content)
    {
      var k := i - (|h| - |w|);
      assert w[k] == h[i];
      JoinContains("\n", shown, k);
      ContainsTransitive(Join("\n", shown), shown[k], h[i].content);
    }
  }

  /** The turn just added is always part of the context. */
  lemma ContextShowsLatest(h: seq<Message>, m: Message)
    ensures Contains(Context(AddToHistory(h, m)), m.content)
  {
  }

  /** The context after clearing is empty. */
  lemma ClearedContextIsEmpty()
    ensures Context(ClearHistory()) == ""
  {
  }
}

=== FILE: rag_language.dfy ===
/** Language detection of the retrieval-and-reply engine
    (`RAGService.detectLanguage`): script first (Cyrillic, then Devanagari
    with Konkani marker words), then Konkani marker words in Latin script,
    then a count of words holding transliterated Hindi or Konkani words. */
module RagLanguage {
  import opened Common
  import opened Text
  import opened Languages

  /** A code point matched by the case-insensitive class `/[а-яё]/i`: the
      lower-case letters а-я and ё, their capitals А-Я and Ё, and the
      historic variants U+1C80-U+1C86 whose upper-case forms lie in А-Я. */
  predicate IsCyrillicLetter(c: char) {
    ('\U{0430}' <= c <= '\U{044F}') || c == '\U{0451}'
    || ('\U{0410}' <= c <= '\U{042F}') || c == '\U{0401}'
    || ('\U{1C80}' <= c <= '\U{1C86}')
  }

  /** A code point of the Devanagari block U+0900-U+097F. */
  predicate IsDevanagari(c: char) {
    '\U{0900}' <= c <= '\U{097F}'
  }

  predicate HasCyrillic(s: string) {
    exists i | 0 <= i < |s| :: IsCyrillicLetter(s[i])
  }

  predicate HasDevanagari(s: string) {
    exists i | 0 <= i < |s| :: IsDevanagari(s[i])
  }

  /** Konkani words looked for in Devanagari text. */
  const DevanagariKonkaniMarkers: seq<string> := ["हांव", "तुम्ही", "आमी", "कितें", "कसो", "कशें"]

  /** Konkani words looked for in Latin-script text. */
  const LatinKonkaniMarkers: seq<string> := ["hanv", "tumhi", "ami", "kitem", "kaso", "kashem"]

  /** Transliterated Hindi words counted by the fallback score. */
  const HindiWords: seq<string> := ["kya", "hai", "mera", "mujhe", "kaise", "kahan", "kyun", "aap", "hum"]

  /** Transliterated Konkani words counted by the fallback score. */
  const KonkaniWords: seq<string> := ["kitem", "asa", "mhaka", "kaso", "khoim", "kiteak", "tumi", "ami"]

  /** Number of words that contain at least one of `vocabulary` (as a substring). */
  function Score(words: seq<string>, vocabulary: seq<string>): (n: nat)
    ensures n <= |words|
    ensures n == 0 <==> forall j | 0 <= j < |words| :: !ContainsAny(words[j], vocabulary)
  {
    Count(words, w => ContainsAny(w, vocabulary))
  }

  /** The verdict of the Latin-script score: Konkani only with a strictly
      higher Konkani count, else Hindi with any Hindi word, else English. */
  function ScoreVerdict(hindi: nat, konkani: nat): (r: Tag)
    ensures r == Kok <==> konkani > hindi
    ensures r == Hi <==> konkani <= hindi && hindi > 0
    ensures r == En <==> konkani <= hindi && hindi == 0
  {
    if konkani > hindi then Kok
    else if hindi > 0 then Hi
    else En
  }

  function DetectLanguage(text: string): (r: Tag)
    // the script checks come first, Cyrillic before Devanagari
    ensures r == Ru <==> HasCyrillic(text)
    ensures !HasCyrillic(text) && HasDevanagari(text) ==> r in {Hi, Kok}
    ensures !HasCyrillic(text) && HasDevanagari(text) ==>
              (r == Kok <==> ContainsAny(ToLower(text), DevanagariKonkaniMarkers))
    ensures !HasCyrillic(text) && !HasDevanagari(text) && ContainsAny(ToLower(text), LatinKonkaniMarkers) ==> r == Kok
    // otherwise the counts of words holding a Hindi or a Konkani word decide
    ensures !HasCyrillic(text) && !HasDevanagari(text) && !ContainsAny(ToLower(text), LatinKonkaniMarkers) ==>
              r == ScoreVerdict(Score(SplitWs(ToLower(text)), HindiWords), Score(SplitWs(ToLower(text)), KonkaniWords))
  {
    var lower := ToLower(text);
    if HasCyrillic(text) then Ru
    else if HasDevanagari(text) then
      (if ContainsAny(lower, DevanagariKonkaniMarkers) then Kok else Hi)
    else if ContainsAny(lower, LatinKonkaniMarkers) then Kok
    else
      var words := SplitWs(lower);
      ScoreVerdict(Score(words, HindiWords), Score(words, KonkaniWords))
  }

  /** Empty input is English, without error. */
  lemma EmptyIsEnglish()
    ensures DetectLanguage("") == En
  {
    assert SplitWs("") == [""];
    assert !ContainsAny("", LatinKonkaniMarkers);
    assert !ContainsAny("", HindiWords);
    assert !ContainsAny("", KonkaniWords);
  }

  /** Lower-casing never adds or removes a Cyrillic or Devanagari letter. */
  lemma LowerPreservesScripts(s: string)
    ensures HasCyrillic(ToLower(s)) == HasCyrillic(s)
    ensures HasDevanagari(ToLower(s)) == HasDevanagari(s)
  {
    var l := ToLower(s);
    if HasCyrillic(s) {
      var i :| 0 <= i < |s| && IsCyrillicLetter(s[i]);
      assert IsCyrillicLetter(l[i]);
    }
    if HasCyrillic(l) {
      var i :| 0 <= i < |l| && IsCyrillicLetter(l[i]);
      assert IsCyrillicLetter(s[i]);
    }
    if HasDevanagari(s) {
      var i :| 0 <= i < |s| && IsDevanagari(s[i]);
      assert IsDevanagari(l[i]);
    }
  }

  /** Detection ignores letter case: a lower-cased text gets the same tag. */
  lemma DetectIgnoresCase(text: string)
    ensures DetectLanguage(ToLower(text)) == DetectLanguage(text)
  {
    LowerPreservesScripts(text);
    ToLowerIdempotent(text);
  }

  /** Substring matching makes "ami" fire inside "family": this English
      phrase is classified as Konkani. */
  lemma FamilyIsKonkani()
    ensures DetectLanguage("my family") == Kok
  {
    var t := "my family";
    assert forall i | 0 <= i < |t| :: t[i] == ' ' || 'a' <= t[i] <= 'z';
    PlainLowerText(t);
    ContainsAt(t, "ami", 4);
    assert Contains(ToLower(t), LatinKonkaniMarkers[2]);
  }

  /** Transliterated Hindi without a Konkani marker is decided by the word
      scores: "mujhe" makes this request Hindi. */
  lemma TransliteratedHindiIsHindi(t: string)
    requires t == "mujhe madad do"
    ensures DetectLanguage(t) == Hi
  {
    assert forall i | 0 <= i < |t| :: t[i] == ' ' || 'a' <= t[i] <= 'z';
    PlainLowerText(t);
    assert ToLower(t) == t;
    RequestHasNoLatinMarker();
    RequestScores();
  }

  lemma RequestScores()
    ensures Score(SplitWs("mujhe madad do"), HindiWords) > 0
    ensures Score(SplitWs("mujhe madad do"), KonkaniWords) == 0
  {
    RequestWords();
    RequestWordScores(["mujhe", "madad", "do"]);
  }

  lemma RequestWordScores(words: seq<string>)
    requires words == ["mujhe", "madad", "do"]
    ensures Score(words, HindiWords) > 0
    ensures Score(words, KonkaniWords) == 0
  {
    ContainsSelf(words[0]);
    assert Contains(words[0], HindiWords[3]);
    LacksKonkaniWords(words[0]);
    LacksKonkaniWords(words[1]);
    LacksKonkaniWords(words[2]);
  }

  /** A word without `s`, `t`, `i` and `k` holds no Konkani score word. */
  lemma LacksKonkaniWords(w: string)
    requires 's' !in w && 't' !in w && 'i' !in w && 'k' !in w
    ensures !ContainsAny(w, KonkaniWords)
  {
    forall k | 0 <= k < |KonkaniWords|
      ensures !Contains(w, KonkaniWords[k])
    {
      if k == 1 { NotContainsByChar(w, KonkaniWords[k], 's'); }
      else if k == 6 { NotContainsByChar(w, KonkaniWords[k], 't'); }
      else if k == 7 { NotContainsByChar(w, KonkaniWords[k], 'i'); }
      else { NotContainsByChar(w, KonkaniWords[k], 'k'); }
    }
  }

  lemma RequestHasNoLatinMarker()
    ensures !ContainsAny("mujhe madad do", LatinKonkaniMarkers)
  {
    var t := "mujhe madad do";
    NotContainsByChar(t, "hanv", 'n');
    NotContainsByChar(t, "tumhi", 't');
    NotContainsByChar(t, "ami", 'i');
    NotContainsByChar(t, "kitem", 'k');
    NotContainsByChar(t, "kaso", 'k');
    NotContainsByChar(t, "kashem", 'k');
  }

  lemma RequestWords()
    ensures SplitWs("mujhe madad do") == ["mujhe", "madad", "do"]
  {
    var t := "mujhe madad do";
    assert NextSpace(t, 0) == 5;
    assert SkipSpaces(t, 5) == 6;
    assert NextSpace(t, 6) == 11;
    assert SkipSpaces(t, 11) == 12;
    assert NextSpace(t, 12) == 14;
    assert t[0..5] == "mujhe" && t[6..11] == "madad" && t[12..] == "do";
    assert SplitFrom(t, 12) == ["do"];
    assert SplitFrom(t, 6) == ["madad"] + SplitFrom(t, 12);
    assert SplitFrom(t, 0) == ["mujhe"] + SplitFrom(t, 6);
  }

  /** Text of lower-case ASCII letters and spaces is its own lower case and
      holds neither script. */
  lemma PlainLowerText(t: string)
    requires forall i | 0 <= i < |t| :: t[i] == ' ' || 'a' <= t[i] <= 'z'
    ensures ToLower(t) == t && !HasCyrillic(t) && !HasDevanagari(t)
  {
  }

  /** Devanagari text without any of the six marker words is Hindi. */
  lemma DevanagariWithoutMarkersIsHindi(text: string)
    requires HasDevanagari(text) && !HasCyrillic(text)
    requires forall k | 0 <= k < |DevanagariKonkaniMarkers| :: !Contains(text, DevanagariKonkaniMarkers[k])
    ensures DetectLanguage(text) == Hi
  {
    forall k | 0 <= k < |DevanagariKonkaniMarkers|
      ensures !Contains(ToLower(text), DevanagariKonkaniMarkers[k])
    {
      LowerKeepsDevanagariOccurrences(text, DevanagariKonkaniMarkers[k]);
    }
  }

  /** A pattern written wholly in Devanagari occurs in the lower-cased text
      exactly when it occurs in the text. */
  lemma LowerKeepsDevanagariOccurrences(text: string, pattern: string)
    requires forall j | 0 <= j < |pattern| :: IsDevanagari(pattern[j])
    ensures Contains(ToLower(text), pattern) <==> Contains(text, pattern)
  {
    var l := ToLower(text);
    if Contains(l, pattern) {
      var i :| 0 <= i <= |l| && StartsWith(l[i..], pattern);
      forall j | 0 <= j < |pattern|
        ensures text[i + j] == pattern[j]
      {
        assert l[i + j] == pattern[j];
      }
      assert text[i..i + |pattern|] == pattern;
      ContainsAt(text, pattern, i);
    }
    if Contains(text, pattern) {
      var i :| 0 <= i <= |text| && StartsWith(text[i..], pattern);
      forall j | 0 <= j < |pattern|
        ensures l[i + j] == pattern[j]
      {
        assert text[i + j] == pattern[j];
      }
      assert l[i..i + |pattern|] == pattern;
      ContainsAt(l, pattern, i);
    }
  }
}

=== FILE: rag_reply.dfy ===
/** Reply assembly of the retrieval-and-reply engine (`isGreeting`,
    `translateText`, `generateContextualResponse`, `generateResponse`,
    `getLanguageCode`). One call detects the language, records the user
    turn, answers with the greeting, the no-match template, a single-match
    answer or a numbered list of matches, and records the reply. */
module Reply {
  import opened Common
  import opened Text
  import opened Languages
  import opened RagLanguage
  import opened Retrieval
  import opened History

  // ------------------------------------------------------------ greetings

  /** Greeting words in English, Hindi and Russian; any of them anywhere in
      the lower-cased text makes it a greeting. */
  const Greetings: seq<string> := [
    "hello", "hi", "hey", "namaste", "namaskar", "good morning", "good afternoon", "good evening",
    "नमस्ते", "नमस्कार", "हैलो", "हाय", "सुप्रभात", "शुभ दोपहर", "शुभ संध्या",
    "привет", "здравствуйте", "доброе утро", "добрый день", "добрый вечер"
  ]

  function IsGreeting(text: string): (r: bool)
    ensures r <==> exists g | g in Greetings :: Contains(ToLower(text), g)
    ensures Contains(ToLower(text), "hi") || Contains(ToLower(text), "hello") ==> r
    ensures r ==> |text| >= 2
  {
    assert Greetings[0] == "hello" && Greetings[1] == "hi";
    ContainsAny(ToLower(text), Greetings)
  }

  /** Greeting detection ignores letter case. */
  lemma GreetingIgnoresCase(text: string)
    ensures IsGreeting(ToLower(text)) == IsGreeting(text)
  {
    ToLowerIdempotent(text);
  }

  /** Substring matching finds "hi" inside "which": a question starting with
      "Which" counts as a greeting. */
  lemma WhichIsGreeting()
    ensures IsGreeting("Which form do I need?")
  {
    var t := "Which form do I need?";
    assert ToLower(t)[..5] == "which";
    ContainsAt(ToLower(t), "hi", 1);
    assert Contains(ToLower(t), Greetings[1]);
  }

  /** Cyrillic capitals are lower-cased before matching. */
  lemma CapitalisedRussianGreeting()
    ensures IsGreeting("Привет")
  {
    assert ToLower("Привет") == "привет";
    ContainsSelf("привет");
    assert Contains(ToLower("Привет"), Greetings[15]);
  }

  // ------------------------------------------------------------ templates

  // The templates are written as concatenations of short pieces; each piece
  // is small enough for the verifier to inspect character by character.

  /** The English greeting the engine sends through `translateText`. */
  const GreetingEn: string :=
      "Hello! " +
      "I am Goa " +
      "Police AI " +
      "Assistant. " +
      "How can I " +
      "help you?"

  /** The English no-match reply the engine sends through `translateText`. */
  const NoMatchEn: string :=
      "I would be " +
      "happy to " +
      "help you. " +
      "Could you please rephrase" +
      " your " +
      "question? " +
      "You can ask " +
      "about " +
      "filing " +
      "reports, " +
      "emergency " +
      "help, or " +
      "your rights."

  /** The reply when retrieval hands over no incident at all. */
  const FallbackEn: string := FallbackHead + FallbackAsk + FallbackTail
  const FallbackHead: string :=
      "I " +
      "understand " +
      "your " +
      "concern. "
  const FallbackAsk: string := "Could you provide"
  const FallbackTail: string :=
      " more " +
      "specific " +
      "details " +
      "about your " +
      "situation? " +
      "This will " +
      "help me " +
      "give you " +
      "the most " +
      "accurate " +
      "guidance."

  const GreetingHi: string :=
      "नमस्ते! मैं " +
      "गोवा पुलिस " +
      "एआई सहायक " +
      "हूं। मैं " +
      "आपकी कैसे " +
      "मदद कर सकता " +
      "हूं?"

  const GreetingKok: string :=
      "नमस्कार! " +
      "हांव गोवा " +
      "पोलिस एआई " +
      "सहाय्यक. " +
      "हांव तुमची " +
      "कशी मदत " +
      "करूं शकतां?"

  const GreetingRu: string :=
      "Привет! Я " +
      "помощник " +
      "полиции Гоа " +
      "с ИИ. Как я " +
      "могу вам " +
      "помочь?"

  const NoMatchHi: string := NoMatchHiAsk + NoMatchHiHint

  const NoMatchHiAsk: string :=
      "मुझे खुशी " +
      "होगी कि मैं " +
      "आपकी मदद " +
      "करूं। क्या " +
      "आप अपना " +
      "सवाल दूसरे " +
      "तरीके से " +
      "पूछ सकते " +
      "हैं? "

  const NoMatchHiHint: string :=
      "आप " +
      "रिपोर्ट " +
      "दर्ज करने, " +
      "आपातकालीन " +
      "सहायता, या " +
      "अपने " +
      "अधिकारों के " +
      "बारे में " +
      "पूछ सकते " +
      "हैं।"

  const NoMatchKok: string :=
      "हांव तुमची " +
      "मदत करपाक " +
      "खुश जातलों। " +
      "तुम्ही " +
      "तुमचो " +
      "प्रश्न " +
      "दुसऱ्या " +
      "तरेन " +
      "विचारूं " +
      "शकता? " +
      "तुम्ही " +
      "रिपोर्ट " +
      "दाखल करप, " +
      "तातकाळीन " +
      "मदत, वा " +
      "तुमच्या " +
      "हक्कांविशीं " +
      "विचारूं " +
      "शकता."

  const NoMatchRu: string :=
      "Я буду рад " +
      "помочь вам. " +
      "Можете ли " +
      "вы " +
      "переформулир" +
      "овать свой " +
      "вопрос? Вы " +
      "можете " +
      "спросить о " +
      "подаче " +
      "заявления, " +
      "экстренной " +
      "помощи или " +
      "ваших " +
      "правах."

  function GreetingTemplate(lang: Tag): (r: string)
    ensures |r| > 0
  {
    match lang
    case Hi => GreetingHi
    case Kok => GreetingKok
    case Ru => GreetingRu
    case En => GreetingEn
  }

  function NoMatchTemplate(lang: Tag): (r: string)
    ensures |r| > 0
  {
    match lang
    case Hi => NoMatchHi
    case Kok => NoMatchKok
    case Ru => NoMatchRu
    case En => NoMatchEn
  }

  /** The text is recognised as the greeting. */
  predicate GreetingTrigger(text: string) {
    Contains(text, "Hello") || Contains(text, "I am Goa Police")
  }

  /** The text is recognised as the no-match reply. */
  predicate NoMatchTrigger(text: string) {
    Contains(text, "Could you please rephrase")
  }

  /** `translateText`: a message recognised as the greeting or the no-match
      reply is swapped whole for that template in the target language;
      any other message is returned as it is. The contract only names the
      three cases; what they amount to is proved separately:
      `TranslateIdempotent` (a second translation changes nothing),
      `TemplateTriggers` (which templates trigger which case) and
      `EngineMessagesBecomeTemplates` (the engine's own English messages
      become the templates). */
  function TranslateText(text: string, lang: Tag): (r: string)
    ensures GreetingTrigger(text) ==> r == GreetingTemplate(lang)
    ensures !GreetingTrigger(text) && NoMatchTrigger(text) ==> r == NoMatchTemplate(lang)
    ensures !GreetingTrigger(text) && !NoMatchTrigger(text) ==> r == text
  {
    if GreetingTrigger(text) then GreetingTemplate(lang)
    else if NoMatchTrigger(text) then NoMatchTemplate(lang)
    else text
  }

  /** Neither trigger phrase occurs. */
  predicate NoTrigger(text: string) {
    !GreetingTrigger(text) && !NoMatchTrigger(text)
  }

  /** Every trigger phrase holds a Latin `o`; a text without one carries no trigger. */
  lemma NoTriggerWithoutLatinO(text: string)
    requires 'o' !in text
    ensures NoTrigger(text)
  {
    NotContainsByChar(text, "Hello", 'o');
    NotContainsByChar(text, "I am Goa Police", 'o');
    NotContainsByChar(text, "Could you please rephrase", 'o');
  }

  /** The Hindi, Konkani and Russian templates carry no English trigger phrase. */
  lemma ForeignTemplatesHaveNoTrigger(lang: Tag)
    requires lang != En
    ensures NoTrigger(GreetingTemplate(lang)) && NoTrigger(NoMatchTemplate(lang))
  {
    match lang
    case Hi =>
      GreetingHiHasNoTrigger();
      NoMatchHiHasNoTrigger();
    case Kok =>
      GreetingKokHasNoTrigger();
      NoMatchKokHasNoTrigger();
    case Ru =>
      GreetingRuHasNoTrigger();
      NoMatchRuHasNoTrigger();
  }

  // One lemma per template keeps each character scan small.
  lemma GreetingHiHasNoTrigger() ensures NoTrigger(GreetingHi) { NoTriggerWithoutLatinO(GreetingHi); }
  lemma NoMatchHiHasNoTrigger()
    ensures NoTrigger(NoMatchHi)
  {
    NoMatchHiLacksLatinO();
    NoTriggerWithoutLatinO(NoMatchHi);
  }

  lemma NoMatchHiLacksLatinO()
    ensures 'o' !in NoMatchHi
  {
    NoMatchHiAskLacksLatinO();
    NoMatchHiHintLacksLatinO();
  }

  lemma NoMatchHiAskLacksLatinO() ensures 'o' !in NoMatchHiAsk { }
  lemma NoMatchHiHintLacksLatinO() ensures 'o' !in NoMatchHiHint { }
  lemma GreetingKokHasNoTrigger() ensures NoTrigger(GreetingKok) { NoTriggerWithoutLatinO(GreetingKok); }
  lemma NoMatchKokHasNoTrigger() ensures NoTrigger(NoMatchKok) { NoTriggerWithoutLatinO(NoMatchKok); }
  lemma GreetingRuHasNoTrigger() ensures NoTrigger(GreetingRu) { NoTriggerWithoutLatinO(GreetingRu); }
  lemma NoMatchRuHasNoTrigger() ensures NoTrigger(NoMatchRu) { NoTriggerWithoutLatinO(NoMatchRu); }

  /** Each English template carries its own trigger phrase and only that one. */
  lemma EnglishTemplateTriggers()
    ensures GreetingTrigger(GreetingEn)
    ensures !GreetingTrigger(NoMatchEn) && NoMatchTrigger(NoMatchEn)
  {
    GreetingEnSaysHello();
    NoMatchEnIsNoGreeting();
    NoMatchEnAsksToRephrase();
  }

  lemma GreetingEnSaysHello() ensures Contains(GreetingEn, "Hello") { ContainsAt(GreetingEn, "Hello", 0); }

  lemma NoMatchEnIsNoGreeting()
    ensures !GreetingTrigger(NoMatchEn)
  {
    NoMatchEnLacksHello();
    NoMatchEnLacksG();
    NotContainsByChar(NoMatchEn, "I am Goa Police", 'G');
  }

  lemma NoMatchEnLacksG() ensures 'G' !in NoMatchEn { }
  lemma NoMatchEnLacksHello() ensures !Contains(NoMatchEn, "Hello") { NotContainsByChar(NoMatchEn, "Hello", 'H'); }

  lemma NoMatchEnAsksToRephrase()
    ensures NoMatchTrigger(NoMatchEn)
  {
    ContainsAt(NoMatchEn, "Could you please rephrase", 30);
  }

  /** No template of another language carries an English trigger phrase, and
      each English template carries only its own. */
  lemma TemplateTriggers(lang: Tag)
    ensures GreetingTrigger(GreetingTemplate(lang)) <==> lang == En
    ensures !GreetingTrigger(NoMatchTemplate(lang))
    ensures NoMatchTrigger(NoMatchTemplate(lang)) <==> lang == En
  {
    if lang == En {
      EnglishTemplateTriggers();
    } else {
      ForeignTemplatesHaveNoTrigger(lang);
    }
  }

  /** Translating an already translated message changes nothing. */
  lemma TranslateIdempotent(text: string, lang: Tag)
    ensures TranslateText(TranslateText(text, lang), lang) == TranslateText(text, lang)
  {
    TemplatesAreFixed(lang);
  }

  /** A template translated again into its own language is itself. */
  lemma TemplatesAreFixed(lang: Tag)
    ensures TranslateText(GreetingTemplate(lang), lang) == GreetingTemplate(lang)
    ensures TranslateText(NoMatchTemplate(lang), lang) == NoMatchTemplate(lang)
  {
    var g := GreetingTemplate(lang);
    var n := NoMatchTemplate(lang);
    if lang == En {
      EnglishTemplateTriggers();
      assert GreetingTrigger(g);
      assert !GreetingTrigger(n) && NoMatchTrigger(n);
    } else {
      ForeignTemplatesHaveNoTrigger(lang);
      assert NoTrigger(g) && NoTrigger(n);
    }
  }

  /** The fallback reply carries no trigger phrase: it stays English whatever
      the detected language. */
  lemma FallbackHasNoTrigger()
    ensures NoTrigger(FallbackEn)
  {
    FallbackLacksHello();
    FallbackLacksG();
    NotContainsByChar(FallbackEn, "I am Goa Police", 'G');
    FallbackLacksRephrase();
  }

  lemma FallbackLacksHello() ensures !Contains(FallbackEn, "Hello") { NotContainsByChar(FallbackEn, "Hello", 'H'); }

  /** The only `C` of the fallback starts "Could you provide", which parts
      from "Could you please" at its eleventh character. */
  lemma FallbackLacksRephrase()
    ensures !Contains(FallbackEn, "Could you please rephrase")
  {
    var phrase := "Could you please rephrase";
    FallbackTailLacksC();
    FallbackAskPartsFromPhrase();
    NotContainsAround(FallbackHead, FallbackAsk, FallbackTail, phrase);
  }

  /** None of the fallback's three parts holds a `G`. */
  lemma FallbackLacksG()
    ensures 'G' !in FallbackEn
  {
    FallbackHeadLacksG();
    FallbackTailLacksG();
    assert 'G' !in FallbackAsk;
  }

  lemma FallbackHeadLacksG() ensures 'G' !in FallbackHead { }
  lemma FallbackTailLacksG() ensures 'G' !in FallbackTail { }

  lemma FallbackTailLacksC() ensures 'C' !in FallbackHead && 'C' !in FallbackTail { }

  lemma FallbackAskPartsFromPhrase()
    ensures 'C' !in FallbackAsk[1..]
    ensures !StartsWith(FallbackAsk + FallbackTail, "Could you please rephrase")
  {
    assert (FallbackAsk + FallbackTail)[11] == 'r';
  }

  /** The two English messages the engine translates become the templates of
      the detected language; the fallback reply passes through unchanged. */
  lemma EngineMessagesBecomeTemplates(lang: Tag)
    ensures TranslateText(GreetingEn, lang) == GreetingTemplate(lang)
    ensures TranslateText(NoMatchEn, lang) == NoMatchTemplate(lang)
    ensures TranslateText(FallbackEn, lang) == FallbackEn
  {
    TemplateTriggers(En);
    FallbackHasNoTrigger();
  }

  // ------------------------------------------------------------ single match

  const SingleLead: string := "Based on your query about "
  const SingleMiddle: string := ", here's what you should do:\n\n"
  const UrgentNote: string := "\n\nSince this seems urgent, you can also call 100 for immediate police assistance."

  /** The context asks for the call-100 addendum. */
  predicate SoundsUrgent(context: string) {
    Contains(context, "emergency") || Contains(context, "urgent")
  }

  /** The reply for exactly one retrieved incident, before translation. */
  function SingleMatchText(incident: Incident, context: string): (r: string)
    ensures StartsWith(r, SingleLead + ToLower(incident.category) + SingleMiddle + incident.answer)
    ensures SoundsUrgent(context) <==> |r| == |SingleLead + ToLower(incident.category) + SingleMiddle + incident.answer| + |UrgentNote|
    ensures SoundsUrgent(context) ==> EndsWith(r, UrgentNote)
    ensures !SoundsUrgent(context) ==> r == SingleLead + ToLower(incident.category) + SingleMiddle + incident.answer
  {
    var base := SingleLead + ToLower(incident.category) + SingleMiddle + incident.answer;
    if SoundsUrgent(context) then base + UrgentNote else base
  }

  /** An answer that itself says "Hello" is swapped for the greeting
      template: the whole-message swap does not look at where the trigger is. */
  lemma HelloInAnswerBecomesGreeting(incident: Incident, context: string, lang: Tag)
    requires Contains(incident.answer, "Hello")
    ensures TranslateText(SingleMatchText(incident, context), lang) == GreetingTemplate(lang)
  {
    var head := SingleLead + ToLower(incident.category) + SingleMiddle;
    ContainsConcat(head, incident.answer, "Hello");
    var base := head + incident.answer;
    if SoundsUrgent(context) {
      ContainsConcat(base, UrgentNote, "Hello");
    }
  }

  /** A user who writes "urgent" gets the call-100 addendum on a single-match
      reply, since the context is read after the user turn is recorded. */
  lemma UrgentQueryGetsAddendum(h: seq<Message>, user: Message, incident: Incident)
    requires Contains(user.content, "urgent")
    ensures EndsWith(SingleMatchText(incident, Context(AddToHistory(h, user))), UrgentNote)
  {
    UrgentQueryMakesUrgentContext(h, user);
  }

  lemma UrgentQueryMakesUrgentContext(h: seq<Message>, user: Message)
    requires Contains(user.content, "urgent")
    ensures SoundsUrgent(Context(AddToHistory(h, user)))
  {
    var context := Context(AddToHistory(h, user));
    ContextShowsLatest(h, user);
    ContainsTransitive(context, user.content, "urgent");
  }

  // ------------------------------------------------------------ multiple matches

  const MultiHeader: string := "I found several relevant procedures that might help you:\n\n"
  const MultiQuestion: string := "Which of these situations best matches your case?"

  function DigitChar(d: nat): (c: char)
    requires d < 10
    ensures '0' <= c <= '9'
  {
    ('0' as int + d) as char
  }

  /** Decimal digits of `n`, most significant first, as `${n}` renders it. */
  function NatToString(n: nat): (r: string)
    ensures |r| >= 1
    ensures forall i | 0 <= i < |r| :: '0' <= r[i] <= '9'
  {
    if n < 10 then [DigitChar(n)] else NatToString(n / 10) + [DigitChar(n % 10)]
  }

  /** The value of a string of decimal digits. */
  function DigitsValue(s: string): (n: nat)
    requires forall i | 0 <= i < |s| :: '0' <= s[i] <= '9'
  {
    if |s| == 0 then 0 else 10 * DigitsValue(s[..|s| - 1]) + (s[|s| - 1] as int - '0' as int)
  }

  /** The number printed in a list item reads back as the number. */
  lemma {:induction false} NatToStringRoundTrip(n: nat)
    ensures DigitsValue(NatToString(n)) == n
  {
    if n >= 10 {
      var s := NatToString(n);
      assert s[..|s| - 1] == NatToString(n / 10);
      NatToStringRoundTrip(n / 10);
    }
  }

  /** Item `number` of the list: `${number}. **${category}**: ${answer}` and a blank line. */
  function Item(number: nat, incident: Incident): (r: string)
    ensures StartsWith(r, NatToString(number) + ". **" + incident.category + "**: ")
    ensures EndsWith(r, incident.answer + "\n\n")
    ensures |r| == |NatToString(number) + ". **" + incident.category + "**: "| + |incident.answer| + 2
  {
    NatToString(number) + ". **" + incident.category + "**: " + incident.answer + "\n\n"
  }

  /** The first `n` items, numbered from 1. */
  function ItemsUpTo(incidents: seq<Incident>, n: nat): (r: string)
    requires n <= |incidents|
  {
    if n == 0 then "" else ItemsUpTo(incidents, n - 1) + Item(n, incidents[n - 1])
  }

  /** The reply for several retrieved incidents, before translation. */
  function MultiMatchText(incidents: seq<Incident>): (r: string)
    ensures StartsWith(r, MultiHeader)
    ensures EndsWith(r, MultiQuestion)
    ensures |r| == |MultiHeader| + |ItemsUpTo(incidents, |incidents|)| + |MultiQuestion|
  {
    MultiHeader + ItemsUpTo(incidents, |incidents|) + MultiQuestion
  }

  /** Builds the multi-match reply the way the source does: append one item
      per incident, then the closing question. */
  method BuildMultiMatchReply(incidents: seq<Incident>) returns (response: string)
    ensures response == MultiMatchText(incidents)
    ensures StartsWith(response, MultiHeader)
    ensures EndsWith(response, MultiQuestion)
    ensures forall i | 0 <= i < |incidents| :: Contains(response, Item(i + 1, incidents[i]))
  {
    response := MultiHeader;
    var i := 0;
    while i < |incidents|
      invariant 0 <= i <= |incidents|
      invariant response == MultiHeader + ItemsUpTo(incidents, i)
    {
      response := response + Item(i + 1, incidents[i]);
      i := i + 1;
    }
    response := response + MultiQuestion;
    MultiMatchListsEveryItem(incidents);
  }

  /** Every retrieved incident appears in the list under its position + 1,
      between the header and the closing question. */
  lemma MultiMatchListsEveryItem(incidents: seq<Incident>)
    ensures StartsWith(MultiMatchText(incidents), MultiHeader)
    ensures EndsWith(MultiMatchText(incidents), MultiQuestion)
    ensures forall i | 0 <= i < |incidents| :: Contains(MultiMatchText(incidents), Item(i + 1, incidents[i]))
  {
    var items := ItemsUpTo(incidents, |incidents|);
    forall i | 0 <= i < |incidents|
      ensures Contains(MultiMatchText(incidents), Item(i + 1, incidents[i]))
    {
      ItemsContain(incidents, |incidents|, i);
      ContainsConcat(MultiHeader, items, Item(i + 1, incidents[i]));
      ContainsConcat(MultiHeader + items, MultiQuestion, Item(i + 1, incidents[i]));
    }
  }

  lemma {:induction false} ItemsContain(incidents: seq<Incident>, n: nat, i: nat)
    requires i < n <= |incidents|
    ensures Contains(ItemsUpTo(incidents, n), Item(i + 1, incidents[i]))
  {
    var item := Item(i + 1, incidents[i]);
    if i == n - 1 {
      ContainsSelf(item);
      ContainsConcat(ItemsUpTo(incidents, n - 1), item, item);
    } else {
      ItemsContain(incidents, n - 1, i);
      ContainsConcat(ItemsUpTo(incidents, n - 1), Item(n, incidents[n - 1]), item);
    }
  }

  /** Items appear in retrieval order: the list of the first `n` items is
      the list of the first `k` followed by the rest. */
  lemma {:induction false} ItemsInOrder(incidents: seq<Incident>, k: nat, n: nat)
    requires k <= n <= |incidents|
    ensures StartsWith(ItemsUpTo(incidents, n), ItemsUpTo(incidents, k))
  {
    if k < n {
      ItemsInOrder(incidents, k, n - 1);
      var a := ItemsUpTo(incidents, n - 1);
      assert (a + Item(n, incidents[n - 1]))[..|ItemsUpTo(incidents, k)|] == a[..|ItemsUpTo(incidents, k)|];
    } else {
      assert ItemsUpTo(incidents, n)[..|ItemsUpTo(incidents, k)|] == ItemsUpTo(incidents, k);
    }
  }

  // ------------------------------------------------------------ assembly

  /** `generateContextualResponse`. */
  function ContextualResponse(incidents: seq<Incident>, lang: Tag, context: string): (r: string)
    ensures |incidents| == 0 ==> r == FallbackEn
    ensures |incidents| == 1 ==> r == TranslateText(SingleMatchText(incidents[0], context), lang)
    ensures |incidents| > 1 ==> r == TranslateText(MultiMatchText(incidents), lang)
    ensures |r| > 0
  {
    EngineMessagesBecomeTemplates(lang);
    if |incidents| == 1 then TranslateText(SingleMatchText(incidents[0], context), lang)
    else if |incidents| > 1 then TranslateText(MultiMatchText(incidents), lang)
    else TranslateText(FallbackEn, lang)
  }

  /** What `generateResponse` returns, with the history it leaves behind. */
  datatype Response = Response(response: string, language: Tag, history: seq<Message>)

  /** The reply `generateResponse` chooses, in the detected language `lang`
      and with `context` the conversation context after the user turn: the
      greeting for a greeting, the no-match template when nothing is
      retrieved, else the contextual reply. */
  function Answer(query: string, corpus: seq<Incident>, lang: Tag, context: string): (r: string)
    ensures IsGreeting(query) ==> r == GreetingTemplate(lang)
    ensures !IsGreeting(query) && |FindRelevantIncidents(query, corpus)| == 0 ==> r == NoMatchTemplate(lang)
    ensures !IsGreeting(query) && |FindRelevantIncidents(query, corpus)| > 0 ==>
              r == ContextualResponse(FindRelevantIncidents(query, corpus), lang, context)
    ensures |r| > 0
  {
    EngineMessagesBecomeTemplates(lang);
    if IsGreeting(query) then TranslateText(GreetingEn, lang)
    else
      var found := FindRelevantIncidents(query, corpus);
      if |found| == 0 then TranslateText(NoMatchEn, lang)
      else ContextualResponse(found, lang, context)
  }

  /** `generateResponse`: detect the language, record the user turn, answer,
      record the answer. */
  function GenerateResponse(h: seq<Message>, query: string, corpus: seq<Incident>): (r: Response)
    ensures r.language == DetectLanguage(query)
    ensures |r.history| == if |h| + 2 <= MaxHistory then |h| + 2 else MaxHistory
    ensures r.history[|r.history| - 2] == Message(User, query, Some(r.language))
    ensures r.history[|r.history| - 1] == Message(Assistant, r.response, Some(r.language))
    ensures r.response == Answer(query, corpus, r.language, Context(AddToHistory(h, Message(User, query, Some(r.language)))))
  {
    var lang := DetectLanguage(query);
    var h1 := AddToHistory(h, Message(User, query, Some(lang)));
    var reply := Answer(query, corpus, lang, Context(h1));
    var h2 := AddToHistory(h1, Message(Assistant, reply, Some(lang)));
    assert h2[|h2| - 2] == h1[|h1| - 1];
    Response(reply, lang, h2)
  }

  /** A call records exactly two turns: the history afterwards is the newest
      ten of the history before plus the user turn and the reply. */
  lemma GenerateResponseRecordsTwoTurns(h: seq<Message>, query: string, corpus: seq<Incident>)
    requires |h| <= MaxHistory
    ensures var r := GenerateResponse(h, query, corpus);
            r.history == LastN(h + [Message(User, query, Some(r.language)), Message(Assistant, r.response, Some(r.language))], MaxHistory)
  {
    var r := GenerateResponse(h, query, corpus);
    var user := Message(User, query, Some(r.language));
    var reply := Message(Assistant, r.response, Some(r.language));
    assert r.history == AddToHistory(AddToHistory(h, user), reply);
    AddTwoIsWindow(h, user, reply);
  }

  // ------------------------------------------------------------ speech

  /** `getLanguageCode`: the speech locale of a detected-language code;
      Konkani is spoken with the Hindi voice and anything else in English. */
  function SpeechLocale(code: string): (r: string)
    ensures code == "hi" || code == "kok" <==> r == "hi-IN"
    ensures r == "ru-RU" <==> code == "ru"
    ensures r == "en-IN" <==> code != "hi" && code != "kok" && code != "ru"
  {
    match code
    case "en" => "en-IN"
    case "hi" => "hi-IN"
    case "kok" => "hi-IN"
    case "ru" => "ru-RU"
    case _ => "en-IN"
  }
}

=== FILE: rag_retrieval.dfy ===
/** Lexical retrieval of the retrieval-and-reply engine
    (`RAGService.calculateSimilarity` and `findRelevantIncidents`): every
    corpus record is scored by word overlap with the query, the scores are
    sorted (stably, best first), the first `limit` are kept and those at or
    below the threshold are dropped. Scores are exact rationals. */
module Retrieval {
  import opened Common
  import opened Text

  /** A corpus record. */
  datatype Incident = Incident(question: string, category: string, answer: string)

  /** A corpus record with its position in the corpus and its score. */
  datatype Scored = Scored(index: nat, incident: Incident, score: real)

  /** How many incidents `findRelevantIncidents` keeps by default. */
  const DefaultLimit: nat := 3

  /** Weight of a match against the answer text. */
  const AnswerWeight: real := 0.5

  /** Scores must exceed this to be returned. */
  const Threshold: real := 0.1

  /** A query word counts as matched when some target word contains it or
      is contained in it. */
  predicate WordMatches(word: string, targetWords: seq<string>) {
    exists j | 0 <= j < |targetWords| :: Contains(targetWords[j], word) || Contains(word, targetWords[j])
  }

  /** The words `split(/\s+/)` produces from the lower-cased text. */
  function Words(s: string): (r: seq<string>)
    ensures |r| >= 1
  {
    SplitWs(ToLower(s))
  }

  /** Number of query words matched by some word of `target`. */
  function Matches(query: string, target: string): (n: nat)
    ensures n <= |Words(query)|
    ensures n == 0 <==> forall i | 0 <= i < |Words(query)| :: !WordMatches(Words(query)[i], Words(target))
    ensures n == |Words(query)| <==> forall i | 0 <= i < |Words(query)| :: WordMatches(Words(query)[i], Words(target))
  {
    var tw := Words(target);
    Count(Words(query), w => WordMatches(w, tw))
  }

  /** matches / max(#query words, #target words). */
  function Similarity(query: string, target: string): (r: real)
    ensures 0.0 <= r <= 1.0
    ensures r == 0.0 <==> Matches(query, target) == 0
    ensures r == 1.0 <==> Matches(query, target) == |Words(query)| && |Words(query)| >= |Words(target)|
  {
    var m := Matches(query, target);
    var d := Max(|Words(query)|, |Words(target)|);
    Ratio(m, d);
    m as real / d as real
  }

  lemma Ratio(m: nat, d: nat)
    requires 1 <= d && m <= d
    ensures 0.0 <= m as real / d as real <= 1.0
    ensures m as real / d as real == 0.0 <==> m == 0
    ensures m as real / d as real == 1.0 <==> m == d
  {
    var q := m as real / d as real;
    assert q * d as real == m as real;
  }

  /** The empty token that a leading blank or an empty query produces
      matches every word list, since every string contains "". */
  lemma EmptyTokenMatches(targetWords: seq<string>)
    requires |targetWords| > 0
    ensures WordMatches("", targetWords)
  {
    ContainsEmpty(targetWords[0]);
  }

  /** An empty query is similar to everything: its single empty word
      matches, so the score is 1 / #target words. */
  lemma EmptyQuerySimilarity(target: string)
    ensures Similarity("", target) == 1.0 / |Words(target)| as real
    ensures Similarity("", target) > 0.0
  {
    assert Words("") == [""];
    EmptyTokenMatches(Words(target));
  }

  /** A text is fully similar to itself. */
  lemma SimilaritySelf(s: string)
    ensures Similarity(s, s) == 1.0
  {
    var w := Words(s);
    forall i | 0 <= i < |w|
      ensures WordMatches(w[i], w)
    {
      ContainsSelf(w[i]);
    }
  }

  /** `Math.max(question, category, 0.5 * answer)`. */
  function Score(query: string, incident: Incident): (r: real)
    ensures 0.0 <= r <= 1.0
    ensures r >= Similarity(query, incident.question)
    ensures r >= Similarity(query, incident.category)
    ensures r >= AnswerWeight * Similarity(query, incident.answer)
    ensures r == Similarity(query, incident.question) || r == Similarity(query, incident.category)
         || r == AnswerWeight * Similarity(query, incident.answer)
  {
    MaxReal(MaxReal(Similarity(query, incident.question), Similarity(query, incident.category)),
            AnswerWeight * Similarity(query, incident.answer))
  }

  /** An answer match alone never scores above one half. */
  lemma AnswerOnlyScoreBound(query: string, incident: Incident)
    requires Similarity(query, incident.question) == 0.0 && Similarity(query, incident.category) == 0.0
    ensures Score(query, incident) <= 0.5
  {
  }

  /** The filter `similarity > 0.1`. */
  predicate Above(x: Scored) {
    x.score > Threshold
  }

  /** Every corpus record paired with its index and score. */
  function ScoreAll(query: string, corpus: seq<Incident>): (r: seq<Scored>)
    ensures |r| == |corpus|
    ensures forall k | 0 <= k < |r| :: r[k] == Scored(k, corpus[k], Score(query, corpus[k]))
  {
    seq(|corpus|, k requires 0 <= k < |corpus| => Scored(k, corpus[k], Score(query, corpus[k])))
  }

  // ------------------------------------------------------------ stable sort

  predicate NonIncreasing(s: seq<Scored>) {
    forall i, j | 0 <= i < j < |s| :: s[i].score >= s[j].score
  }

  /** Equal scores appear in corpus order. */
  predicate TiesInOrder(s: seq<Scored>) {
    forall i, j | 0 <= i < j < |s| :: s[i].score == s[j].score ==> s[i].index < s[j].index
  }

  predicate IndicesIncreasing(s: seq<Scored>) {
    forall i, j | 0 <= i < j < |s| :: s[i].index < s[j].index
  }

  /** Where `x` goes: after every element scoring more than it, before the
      first one scoring no more. */
  function InsertPos(x: Scored, s: seq<Scored>): (i: nat)
    ensures i <= |s|
    ensures forall k | 0 <= k < i :: s[k].score > x.score
    ensures i < |s| ==> s[i].score <= x.score
  {
    if |s| == 0 || s[0].score <= x.score then 0 else 1 + InsertPos(x, s[1..])
  }

  function Insert(x: Scored, s: seq<Scored>): (r: seq<Scored>)
    ensures |r| == |s| + 1
    ensures multiset(r) == multiset(s) + multiset{x}
  {
    var i := InsertPos(x, s);
    assert s == s[..i] + s[i..];
    s[..i] + [x] + s[i..]
  }

  /** Where each element of `s` lands after inserting `x`. */
  lemma InsertShape(x: Scored, s: seq<Scored>)
    ensures var i := InsertPos(x, s); var r := Insert(x, s);
            (forall k | 0 <= k < i :: r[k] == s[k]) && r[i] == x && (forall k | i < k < |r| :: r[k] == s[k - 1])
  {
  }

  /** Inserting keeps a best-first list best-first. */
  lemma InsertKeepsOrder(x: Scored, s: seq<Scored>)
    requires NonIncreasing(s)
    ensures NonIncreasing(Insert(x, s))
  {
    var i := InsertPos(x, s);
    var r := Insert(x, s);
    InsertShape(x, s);
    forall a, b | 0 <= a < b < |r|
      ensures r[a].score >= r[b].score
    {
      if b < i {
        assert r[a] == s[a] && r[b] == s[b];
      } else if b == i {
        assert r[a] == s[a];
      } else if a < i {
        assert r[a] == s[a] && r[b] == s[b - 1];
      } else if a == i {
        assert r[b] == s[b - 1];
        assert s[i].score <= x.score;
      } else {
        assert r[a] == s[a - 1] && r[b] == s[b - 1];
      }
    }
  }

  /** Inserting an element that comes before every element in the corpus
      keeps ties in corpus order. */
  lemma InsertKeepsTies(x: Scored, s: seq<Scored>)
    requires NonIncreasing(s) && TiesInOrder(s)
    requires forall k | 0 <= k < |s| :: x.index < s[k].index
    ensures TiesInOrder(Insert(x, s))
  {
    var i := InsertPos(x, s);
    var r := Insert(x, s);
    InsertShape(x, s);
    forall a, b | 0 <= a < b < |r|
      ensures r[a].score == r[b].score ==> r[a].index < r[b].index
    {
      if b < i {
        assert r[a] == s[a] && r[b] == s[b];
      } else if b == i {
        assert r[a] == s[a];
      } else if a < i {
        assert r[a] == s[a] && r[b] == s[b - 1];
      } else if a == i {
        assert r[b] == s[b - 1];
      } else {
        assert r[a] == s[a - 1] && r[b] == s[b - 1];
      }
    }
  }

  /** `sort((a, b) => b.score - a.score)`: best first. */
  function Sort(s: seq<Scored>): (r: seq<Scored>)
    ensures multiset(r) == multiset(s)
    ensures |r| == |s|
    ensures NonIncreasing(r)
  {
    if |s| == 0 then []
    else
      var rest := Sort(s[1..]);
      assert s == [s[0]] + s[1..];
      InsertKeepsOrder(s[0], rest);
      Insert(s[0], rest)
  }

  /** The sort is stable: records with equal scores stay in corpus order. */
  lemma {:induction false} SortStable(s: seq<Scored>)
    requires IndicesIncreasing(s)
    ensures TiesInOrder(Sort(s))
  {
    if |s| > 0 {
      var rest := Sort(s[1..]);
      SortStable(s[1..]);
      forall k | 0 <= k < |rest|
        ensures s[0].index < rest[k].index
      {
        assert rest[k] in multiset(s[1..]);
        var j :| 0 <= j < |s[1..]| && s[1..][j] == rest[k];
        assert s[1..][j] == s[j + 1];
      }
      InsertKeepsTies(s[0], rest);
    }
  }

  // ------------------------------------------------------------ retrieval

  /** `slice(0, limit)`. */
  function Take<T>(s: seq<T>, limit: nat): (r: seq<T>)
    ensures |r| == if limit < |s| then limit else |s|
    ensures r == s[..|r|]
  {
    if limit < |s| then s[..limit] else s
  }

  /** The best `limit` entries of a scored corpus, then the threshold filter. */
  function TopAbove(all: seq<Scored>, limit: nat): (r: seq<Scored>)
    requires forall k | 0 <= k < |all| :: all[k].index == k
    ensures |r| <= limit && |r| <= |all|
    ensures forall k | 0 <= k < |r| :: r[k].score > Threshold
    ensures forall k | 0 <= k < |r| :: r[k].index < |all| && r[k] == all[r[k].index]
    ensures NonIncreasing(r) && TiesInOrder(r)
    ensures r == Sort(all)[..|r|]
  {
    TopAboveIsSortedPrefix(all, limit);
    Filter(Take(Sort(all), limit), Above)
  }

  lemma TopAboveIsSortedPrefix(all: seq<Scored>, limit: nat)
    requires forall k | 0 <= k < |all| :: all[k].index == k
    ensures var r := Filter(Take(Sort(all), limit), Above);
            && r == Sort(all)[..|r|]
            && (forall k | 0 <= k < |r| :: r[k].index < |all| && r[k] == all[r[k].index])
            && NonIncreasing(r) && TiesInOrder(r)
  {
    var sorted := Sort(all);
    var t := Take(sorted, limit);
    var r := Filter(t, Above);
    FilterAboveIsPrefix(t);
    assert r == sorted[..|r|];
    SortStable(all);
    SortedEntriesAreScored(all);
    PrefixKeepsOrder(sorted, |r|);
  }

  lemma PrefixKeepsOrder(s: seq<Scored>, n: nat)
    requires n <= |s|
    ensures forall k | 0 <= k < n :: s[..n][k] == s[k]
    ensures NonIncreasing(s) ==> NonIncreasing(s[..n])
    ensures TiesInOrder(s) ==> TiesInOrder(s[..n])
  {
  }

  /** The ranked records of the corpus for `query`. */
  function Ranked(query: string, corpus: seq<Incident>, limit: nat): (r: seq<Scored>)
    ensures |r| <= limit && |r| <= |corpus|
    ensures forall k | 0 <= k < |r| :: Above(r[k])
    ensures forall k | 0 <= k < |r| :: r[k].index < |corpus| && r[k] == Scored(r[k].index, corpus[r[k].index], Score(query, corpus[r[k].index]))
    ensures NonIncreasing(r) && TiesInOrder(r)
    ensures r == Sort(ScoreAll(query, corpus))[..|r|]
  {
    TopAbove(ScoreAll(query, corpus), limit)
  }

  /** Every sorted entry is the entry of its own corpus index. */
  lemma SortedEntriesAreScored(all: seq<Scored>)
    requires forall k | 0 <= k < |all| :: all[k].index == k
    ensures forall k | 0 <= k < |Sort(all)| :: Sort(all)[k].index < |all| && Sort(all)[k] == all[Sort(all)[k].index]
  {
    var sorted := Sort(all);
    forall k | 0 <= k < |sorted|
      ensures sorted[k].index < |all| && sorted[k] == all[sorted[k].index]
    {
      assert sorted[k] in multiset(all);
    }
  }

  /** On a best-first list, dropping the scores at or below the threshold
      keeps a prefix: exactly the entries above the threshold. */
  lemma {:induction false} FilterAboveIsPrefix(s: seq<Scored>)
    requires NonIncreasing(s)
    ensures Filter(s, Above) == s[..|Filter(s, Above)|]
    ensures forall k | |Filter(s, Above)| <= k < |s| :: s[k].score <= Threshold
  {
    if |s| > 0 {
      FilterAboveIsPrefix(s[1..]);
      if s[0].score <= Threshold {
        NoneAbove(s[1..]);
      }
    }
  }

  lemma {:induction false} NoneAbove(s: seq<Scored>)
    requires forall k | 0 <= k < |s| :: s[k].score <= Threshold
    ensures Filter(s, Above) == []
  {
    if |s| > 0 {
      NoneAbove(s[1..]);
    }
  }

  /** `findRelevantIncidents(query)`: at most three records, best first. */
  function FindRelevantIncidents(query: string, corpus: seq<Incident>): (r: seq<Incident>)
    ensures |r| <= DefaultLimit
    ensures forall k | 0 <= k < |r| :: r[k] in corpus && Score(query, r[k]) > Threshold
    ensures forall k | 0 <= k < |r| - 1 :: Score(query, r[k]) >= Score(query, r[k + 1])
  {
    var ranked := Ranked(query, corpus, DefaultLimit);
    RankedIncidents(query, corpus, ranked);
    IncidentsOf(ranked)
  }

  lemma RankedIncidents(query: string, corpus: seq<Incident>, ranked: seq<Scored>)
    requires forall k | 0 <= k < |ranked| :: Above(ranked[k])
    requires forall k | 0 <= k < |ranked| :: ranked[k].index < |corpus|
               && ranked[k] == Scored(ranked[k].index, corpus[ranked[k].index], Score(query, corpus[ranked[k].index]))
    requires NonIncreasing(ranked)
    ensures forall k | 0 <= k < |ranked| :: ranked[k].incident in corpus && Score(query, ranked[k].incident) > Threshold
    ensures forall k | 0 <= k < |ranked| - 1 :: Score(query, ranked[k].incident) >= Score(query, ranked[k + 1].incident)
  {
    forall k | 0 <= k < |ranked|
      ensures ranked[k].incident in corpus && ranked[k].score == Score(query, ranked[k].incident)
    {
    }
  }

  /** `map(item => item.incident)`. */
  function IncidentsOf(s: seq<Scored>): (r: seq<Incident>)
    ensures |r| == |s|
    ensures forall k | 0 <= k < |s| :: r[k] == s[k].incident
  {
    seq(|s|, k requires 0 <= k < |s| => s[k].incident)
  }

  /** Nothing is left out that should be in: the result holds exactly
      `min(limit, number of records above the threshold)` records. */
  lemma RankedComplete(query: string, corpus: seq<Incident>, limit: nat)
    ensures var above := Count(ScoreAll(query, corpus), Above);
            |Ranked(query, corpus, limit)| == if limit < above then limit else above
  {
    var all := ScoreAll(query, corpus);
    var sorted := Sort(all);
    var p := Above;
    CountPermutation(all, sorted, p);
    CountNonIncreasingPrefix(sorted, limit);
  }

  /** On a best-first list, `limit` entries are above the threshold among the
      first `limit`, or every entry above the threshold is among them. */
  lemma CountNonIncreasingPrefix(s: seq<Scored>, limit: nat)
    requires NonIncreasing(s)
    ensures var above := Count(s, Above);
            |Filter(Take(s, limit), Above)| == if limit < above then limit else above
  {
    var t := Take(s, limit);
    FilterAboveIsPrefix(s);
    var m := |Filter(s, Above)|;
    assert forall k | 0 <= k < m :: Above(s[k]) by {
      forall k | 0 <= k < m ensures Above(s[k]) {
        assert s[k] == Filter(s, Above)[k];
      }
    }
    FilterLengthIsCount(s, Above);
    FilterLengthIsCount(t, Above);
    CountFirstRun(s, Above, m, |t|);
  }

  /** When exactly the first `m` elements satisfy `p`, the first `len`
      elements hold `min(len, m)` of them. */
  lemma {:induction false} CountFirstRun<T>(s: seq<T>, p: T -> bool, m: nat, len: nat)
    requires m <= |s| && len <= |s|
    requires forall k | 0 <= k < m :: p(s[k])
    requires forall k | m <= k < |s| :: !p(s[k])
    ensures Count(s[..len], p) == if len < m then len else m
  {
    if len > 0 {
      CountFirstRun(s, p, m, len - 1);
      assert s[..len] == s[..len - 1] + [s[len - 1]];
      CountConcat(s[..len - 1], [s[len - 1]], p);
    }
  }

  lemma {:induction false} CountConcat<T>(a: seq<T>, b: seq<T>, p: T -> bool)
    ensures Count(a + b, p) == Count(a, p) + Count(b, p)
  {
    if |a| > 0 {
      assert (a + b)[1..] == a[1..] + b;
      CountConcat(a[1..], b, p);
    } else {
      assert a + b == b;
    }
  }

  /** Reordering does not change a count. */
  lemma {:induction false} CountPermutation<T>(a: seq<T>, b: seq<T>, p: T -> bool)
    requires multiset(a) == multiset(b)
    ensures Count(a, p) == Count(b, p)
    decreases |a|
  {
    if |a| > 0 {
      assert a[0] in multiset(b);
      var i :| 0 <= i < |b| && b[i] == a[0];
      var rest := b[..i] + b[i + 1..];
      assert b == b[..i] + [b[i]] + b[i + 1..];
      assert multiset(b) == multiset(b[..i]) + multiset{b[i]} + multiset(b[i + 1..]);
      assert a == [a[0]] + a[1..];
      assert multiset(a) == multiset{a[0]} + multiset(a[1..]);
      assert multiset(rest) == multiset(b[..i]) + multiset(b[i + 1..]);
      assert multiset(a[1..]) == multiset(a) - multiset{a[0]};
      assert multiset(rest) == multiset(b) - multiset{b[i]};
      CountPermutation(a[1..], rest, p);
      CountConcat(b[..i], b[i + 1..], p);
      CountConcat(b[..i] + [b[i]], b[i + 1..], p);
      CountConcat(b[..i], [b[i]], p);
    }
  }
}

=== FILE: text.dfy ===
/** The JavaScript string built-ins the application relies on, stated over
    `seq<char>`: `includes`, `startsWith`, `toLowerCase`, `trim`,
    `split(/\s+/)` and `join`. */
module Text {

  /** The code points JavaScript's `\s` class and `String.prototype.trim`
      treat as white space (WhiteSpace and LineTerminator). */
  predicate IsSpace(c: char) {
    c == '\t' || c == '\n' || c == '\U{000B}' || c == '\U{000C}' || c == '\r' || c == ' '
    || c == '\U{00A0}' || c == '\U{1680}' || ('\U{2000}' <= c <= '\U{200A}')
    || c == '\U{2028}' || c == '\U{2029}' || c == '\U{202F}' || c == '\U{205F}'
    || c == '\U{3000}' || c == '\U{FEFF}'
  }

  /** `toLowerCase` on one code point, for the scripts the application
      handles: Basic Latin capitals and the Cyrillic capitals U+0400-U+042F.
      Every other code point (Devanagari included) has no lower-case form here. */
  function LowerChar(c: char): (r: char)
    ensures 'A' <= c <= 'Z' ==> 'a' <= r <= 'z'
    ensures !('A' <= c <= 'Z') && !('\U{0400}' <= c <= '\U{042F}') ==> r == c
  {
    if 'A' <= c <= 'Z' then (c as int + 32) as char
    else if '\U{0410}' <= c <= '\U{042F}' then (c as int + 32) as char
    else if '\U{0400}' <= c <= '\U{040F}' then (c as int + 80) as char
    else c
  }

  function ToLower(s: string): (r: string)
    ensures |r| == |s|
    ensures forall i | 0 <= i < |s| :: r[i] == LowerChar(s[i])
  {
    seq(|s|, i requires 0 <= i < |s| => LowerChar(s[i]))
  }

  /** Lower-casing twice is lower-casing once. */
  lemma ToLowerIdempotent(s: string)
    ensures ToLower(ToLower(s)) == ToLower(s)
  {
  }

  predicate StartsWith(s: string, prefix: string) {
    |prefix| <= |s| && s[..|prefix|] == prefix
  }

  predicate EndsWith(s: string, suffix: string) {
    |suffix| <= |s| && s[|s| - |suffix|..] == suffix
  }

  /** `s.includes(sub)`. */
  predicate Contains(s: string, sub: string) {
    exists i | 0 <= i <= |s| :: StartsWith(s[i..], sub)
  }

  /** `patterns.some(p => s.includes(p))`. */
  predicate ContainsAny(s: string, patterns: seq<string>) {
    exists k | 0 <= k < |patterns| :: Contains(s, patterns[k])
  }

  lemma ContainsAt(s: string, sub: string, i: nat)
    requires i + |sub| <= |s| && s[i..i + |sub|] == sub
    ensures Contains(s, sub)
  {
    assert StartsWith(s[i..], sub);
  }

  /** The empty string occurs in every string. */
  lemma ContainsEmpty(s: string)
    ensures Contains(s, "")
  {
    assert StartsWith(s[0..], "");
  }

  lemma ContainsSelf(s: string)
    ensures Contains(s, s)
  {
    assert StartsWith(s[0..], s);
  }

  /** A string cannot contain a pattern one of whose characters it lacks. */
  lemma NotContainsByChar(s: string, sub: string, c: char)
    requires c in sub && c !in s
    ensures !Contains(s, sub)
  {
  }

  /** Occurrence is transitive. */
  lemma ContainsTransitive(a: string, b: string, c: string)
    requires Contains(a, b) && Contains(b, c)
    ensures Contains(a, c)
  {
    var i :| 0 <= i <= |a| && StartsWith(a[i..], b);
    var j :| 0 <= j <= |b| && StartsWith(b[j..], c);
    forall t | 0 <= t < |c|
      ensures a[i + j + t] == c[t]
    {
      assert a[i..][j + t] == b[j + t];
      assert b[j..][t] == c[t];
    }
    assert a[i + j..i + j + |c|] == c;
    ContainsAt(a, c, i + j);
  }

  /** `a + m + b` lacks `sub` when the first character of `sub` occurs
      only at the start of `m`, and `m + b` does not start with `sub`. */
  lemma NotContainsAround(a: string, m: string, b: string, sub: string)
    requires |sub| > 0 && |m| > 0
    requires sub[0] !in a && sub[0] !in m[1..] && sub[0] !in b
    requires !StartsWith(m + b, sub)
    ensures !Contains(a + m + b, sub)
  {
    var s := a + m + b;
    forall i | 0 <= i <= |s|
      ensures !StartsWith(s[i..], sub)
    {
      if i == |a| {
        assert s[i..] == m + b;
      } else if i < |s| {
        if i < |a| {
          assert s[i] == a[i];
        } else if i < |a| + |m| {
          assert s[i] == m[1..][i - |a| - 1];
        } else {
          assert s[i] == b[i - |a| - |m|];
        }
      }
    }
  }

  /** An occurrence inside a part is an occurrence inside the whole. */
  lemma ContainsConcat(a: string, b: string, sub: string)
    ensures Contains(a, sub) ==> Contains(a + b, sub)
    ensures Contains(b, sub) ==> Contains(a + b, sub)
  {
    if Contains(a, sub) {
      var i :| 0 <= i <= |a| && StartsWith(a[i..], sub);
      assert (a + b)[i..i + |sub|] == a[i..][..|sub|];
      ContainsAt(a + b, sub, i);
    }
    if Contains(b, sub) {
      var i :| 0 <= i <= |b| && StartsWith(b[i..], sub);
      assert (a + b)[|a| + i..|a| + i + |sub|] == b[i..][..|sub|];
      ContainsAt(a + b, sub, |a| + i);
    }
  }

  // ---------------------------------------------------------------- trim

  function TrimStart(s: string): (r: string)
    ensures |r| <= |s| && r == s[|s| - |r|..]
    ensures |r| > 0 ==> !IsSpace(r[0])
    ensures forall i | 0 <= i < |s| - |r| :: IsSpace(s[i])
  {
    if |s| > 0 && IsSpace(s[0]) then TrimStart(s[1..]) else s
  }

  function TrimEnd(s: string): (r: string)
    ensures |r| <= |s| && r == s[..|r|]
    ensures |r| > 0 ==> !IsSpace(r[|r| - 1])
    ensures forall i | |r| <= i < |s| :: IsSpace(s[i])
  {
    if |s| > 0 && IsSpace(s[|s| - 1]) then TrimEnd(s[..|s| - 1]) else s
  }

  /** `String.prototype.trim`. */
  function Trim(s: string): string {
    TrimEnd(TrimStart(s))
  }

  /** `!s.trim()` holds exactly for the strings made only of white space. */
  lemma TrimEmptyIffBlank(s: string)
    ensures Trim(s) == "" <==> forall i | 0 <= i < |s| :: IsSpace(s[i])
  {
    var t := TrimStart(s);
    if Trim(s) != "" {
      var r := Trim(s);
      assert r[0] == t[0];
      assert t[0] == s[|s| - |t|];
    }
  }

  /** One space on each side of a word is trimmed away. */
  lemma TrimPadded(w: string)
    requires |w| > 0 && !IsSpace(w[0]) && !IsSpace(w[|w| - 1])
    ensures Trim(" " + w + " ") == w
  {
    var s := " " + w + " ";
    assert s[1..] == w + " ";
    assert TrimStart(w + " ") == w + " ";
    assert (w + " ")[..|w|] == w;
  }

  // ---------------------------------------------------------------- split

  /** Index of the first white-space code point at or after `k`, or `|s|`. */
  function NextSpace(s: string, k: nat): (i: nat)
    requires k <= |s|
    ensures k <= i <= |s|
    ensures i < |s| ==> IsSpace(s[i])
    ensures forall j | k <= j < i :: !IsSpace(s[j])
    decreases |s| - k
  {
    if k == |s| || IsSpace(s[k]) then k else NextSpace(s, k + 1)
  }

  /** Index of the first non-white-space code point at or after `k`, or `|s|`. */
  function SkipSpaces(s: string, k: nat): (i: nat)
    requires k <= |s|
    ensures k <= i <= |s|
    ensures forall j | k <= j < i :: IsSpace(s[j])
    decreases |s| - k
  {
    if k == |s| || !IsSpace(s[k]) then k else SkipSpaces(s, k + 1)
  }

  /** The pieces of `s[k..]` between maximal runs of white space. */
  function SplitFrom(s: string, k: nat): (r: seq<string>)
    requires k <= |s|
    ensures |r| >= 1
    ensures forall t | t in r :: forall c | c in t :: !IsSpace(c)
    ensures forall t | t in r :: forall c | c in t :: c in s
    decreases |s| - k
  {
    var i := NextSpace(s, k);
    if i == |s| then [s[k..]]
    else [s[k..i]] + SplitFrom(s, SkipSpaces(s, i))
  }

  /** `s.split(/\s+/)`: a leading or trailing run of white space yields an
      empty first or last piece, and the empty string splits into `[""]`. */
  function SplitWs(s: string): (r: seq<string>)
    ensures |r| >= 1
    ensures forall t | t in r :: forall c | c in t :: !IsSpace(c)
    ensures forall t | t in r :: forall c | c in t :: c in s
  {
    SplitFrom(s, 0)
  }

  /** A string without white space is a single piece. */
  lemma SplitNoSpace(s: string)
    requires forall c | c in s :: !IsSpace(c)
    ensures SplitWs(s) == [s]
  {
  }

  // ---------------------------------------------------------------- join

  /** `xs.join(sep)`. */
  function Join(sep: string, xs: seq<string>): (r: string)
    ensures |xs| == 0 ==> r == ""
    ensures |xs| > 0 ==> StartsWith(r, xs[0])
  {
    if |xs| == 0 then ""
    else if |xs| == 1 then xs[0]
    else xs[0] + sep + Join(sep, xs[1..])
  }

  /** Index of the first occurrence of `c` in `s`. */
  function CharIndex(s: string, c: char): (i: nat)
    requires c in s
    ensures i < |s| && s[i] == c
    ensures forall j | 0 <= j < i :: s[j] != c
  {
    if s[0] == c then 0 else CharIndex(s[1..], c) + 1
  }

  /** `s.split(c)` for a one-character separator: the pieces between the
      occurrences of `c`, so that `n` occurrences give `n + 1` pieces. */
  function SplitOn(s: string, c: char): (r: seq<string>)
    ensures |r| >= 1
    ensures forall k | 0 <= k < |r| :: c !in r[k]
    decreases |s|
  {
    if c !in s then [s]
    else
      var i := CharIndex(s, c);
      [s[..i]] + SplitOn(s[i + 1..], c)
  }

  /** Splitting on the separator undoes joining pieces that do not hold it. */
  lemma {:induction false} SplitJoinRoundTrip(c: char, xs: seq<string>)
    requires |xs| > 0
    requires forall k | 0 <= k < |xs| :: c !in xs[k]
    ensures SplitOn(Join([c], xs), c) == xs
  {
    if |xs| > 1 {
      var s := Join([c], xs);
      var rest := Join([c], xs[1..]);
      assert s == xs[0] + [c] + rest;
      assert s[|xs[0]|] == c;
      assert forall j | 0 <= j < |xs[0]| :: s[j] == xs[0][j];
      assert CharIndex(s, c) == |xs[0]|;
      assert s[..|xs[0]|] == xs[0];
      assert s[|xs[0]| + 1..] == rest;
      SplitJoinRoundTrip(c, xs[1..]);
    }
  }

  /** Every joined piece occurs in the joined string. */
  lemma {:induction false} JoinContains(sep: string, xs: seq<string>, i: nat)
    requires i < |xs|
    ensures Contains(Join(sep, xs), xs[i])
  {
    if i == 0 {
      assert StartsWith(Join(sep, xs)[0..], xs[0]);
    } else {
      JoinContains(sep, xs[1..], i - 1);
      ContainsConcat(xs[0] + sep, Join(sep, xs[1..]), xs[i]);
    }
  }
}

=== FILE: translation_assistant.dfy ===
/** The translation assistant screen: visitor and officer take turns at the
    microphone, and each utterance is stored with a canned translation
    (`mockTranslate`) from three small phrase tables. Recognition and
    synthesis are browser I/O and appear only as the locales chosen for them. */
module Assistant {
  import opened Common
  import opened Text
  import opened Languages

  datatype Speaker = Visitor | Officer

  /** Hindi phrases and their English meaning. */
  const HindiToEnglish: map<string, string> := map[
    "नमस्ते" := "Hello",
    "मुझे मदद चाहिए" := "I need help",
    "मैं शिकायत दर्ज करना चाहता हूं" := "I want to file a complaint",
    "धन्यवाद" := "Thank you"
  ]

  /** Konkani phrases and their English meaning. */
  const KonkaniToEnglish: map<string, string> := map[
    "नमस्कार" := "Hello",
    "मका मदत जाय" := "I need help",
    "हांव शिकायत दाखल करूंक सोदता" := "I want to file a complaint",
    "देव बरे करूं" := "Thank you"
  ]

  /** English officer phrases and their rendering in each interface language. */
  const EnglishTranslations: map<string, map<Language, string>> := map[
    "Hello" := map[English := "Hello", Hindi := "नमस्ते", Konkani := "नमस्कार"],
    "How can I help you?" := map[English := "How can I help you?", Hindi := "मैं आपकी कैसे मदद कर सकता हूं?", Konkani := "हांव तुमची कशी मदत करूं शकतां?"],
    "Please provide your details" := map[English := "Please provide your details", Hindi := "कृपया अपना विवरण दें", Konkani := "कृपया तुमचे तपशील द्या"],
    "Thank you" := map[English := "Thank you", Hindi := "धन्यवाद", Konkani := "देव बरे करूं"]
  ]

  /** What an unknown phrase becomes. */
  function Bracketed(text: string): (r: string)
    ensures StartsWith(r, "[Translation: ") && EndsWith(r, text + "]")
    ensures |r| == |text| + 15
  {
    "[Translation: " + text + "]"
  }

  /** A table entry, or the bracketed text when the key is missing or its
      value is empty (`table[text] || ...`). */
  function LookupOr(table: map<string, string>, text: string): (r: string)
    ensures text in table && table[text] != "" ==> r == table[text]
    ensures !(text in table && table[text] != "") ==> r == Bracketed(text)
  {
    if text in table && table[text] != "" then table[text] else Bracketed(text)
  }

  /** The visitor's table for an interface language; English has none. */
  function VisitorTable(language: Language): Option<map<string, string>> {
    match language
    case English => None
    case Hindi => Some(HindiToEnglish)
    case Konkani => Some(KonkaniToEnglish)
  }

  /** `mockTranslate`. A visitor's words go to English (unchanged for an
      English visitor); an officer's go to the visitor's language. */
  function MockTranslate(text: string, speaker: Speaker, language: Language): (r: string)
    ensures speaker == Visitor && language == English ==> r == text
    ensures speaker == Visitor && language == Hindi ==> r == LookupOr(HindiToEnglish, text)
    ensures speaker == Visitor && language == Konkani ==> r == LookupOr(KonkaniToEnglish, text)
    ensures speaker == Officer && text !in EnglishTranslations ==> r == Bracketed(text)
    ensures (speaker == Officer && text in EnglishTranslations && language in EnglishTranslations[text]
             && EnglishTranslations[text][language] != "") ==> r == EnglishTranslations[text][language]
  {
    match speaker
    case Visitor =>
      (match VisitorTable(language)
       case None => text
       case Some(table) => LookupOr(table, text))
    case Officer =>
      if text in EnglishTranslations && language in EnglishTranslations[text] && EnglishTranslations[text][language] != ""
      then EnglishTranslations[text][language]
      else Bracketed(text)
  }

  /** Every officer phrase is its own English rendering. */
  lemma OfficerTableIsIdentityInEnglish()
    ensures forall k | k in EnglishTranslations :: English in EnglishTranslations[k] && EnglishTranslations[k][English] == k
  {
  }

  /** For an English visitor the officer's words come back unchanged when
      known, bracketed when not. */
  lemma OfficerEnglishIsIdentityOrBracket(text: string)
    ensures MockTranslate(text, Officer, English) == (if text in EnglishTranslations then text else Bracketed(text))
  {
    OfficerTableIsIdentityInEnglish();
  }

  lemma HindiGreetingsRoundTrip()
    ensures MockTranslate(MockTranslate("नमस्ते", Visitor, Hindi), Officer, Hindi) == "नमस्ते"
    ensures MockTranslate(MockTranslate("धन्यवाद", Visitor, Hindi), Officer, Hindi) == "धन्यवाद"
  {
    assert HindiToEnglish["नमस्ते"] == "Hello";
    assert HindiToEnglish["धन्यवाद"] == "Thank you";
    assert EnglishTranslations["Hello"][Hindi] == "नमस्ते";
    assert EnglishTranslations["Thank you"][Hindi] == "धन्यवाद";
  }

  lemma KonkaniGreetingsRoundTrip()
    ensures MockTranslate(MockTranslate("नमस्कार", Visitor, Konkani), Officer, Konkani) == "नमस्कार"
    ensures MockTranslate(MockTranslate("देव बरे करूं", Visitor, Konkani), Officer, Konkani) == "देव बरे करूं"
  {
    assert KonkaniToEnglish["नमस्कार"] == "Hello";
    assert KonkaniToEnglish["देव बरे करूं"] == "Thank you";
    assert EnglishTranslations["Hello"][Konkani] == "नमस्कार";
    assert EnglishTranslations["Thank you"][Konkani] == "देव बरे करूं";
  }

  /** "I need help" is known to the visitor tables but not to the officer's:
      the request for help does not survive a round trip. */
  lemma HelpDoesNotRoundTrip()
    ensures MockTranslate(MockTranslate("मुझे मदद चाहिए", Visitor, Hindi), Officer, Hindi) == Bracketed("I need help")
  {
    assert HindiToEnglish["मुझे मदद चाहिए"] == "I need help";
    assert "I need help" !in EnglishTranslations;
  }

  /** `getLanguageCode` of this screen: the synthesis locale of a language. */
  function LanguageLocale(language: Language): (r: string)
    ensures r == "hi-IN" <==> language != English
    ensures r == "en-US" <==> language == English
  {
    match language
    case Hindi => "hi-IN"
    case Konkani => "hi-IN"
    case English => "en-US"
  }

  /** The recognition locale of `startListening`: English for the officer,
      the visitor's language for the visitor. */
  function RecognitionLocale(speaker: Speaker, language: Language): (r: string)
    ensures speaker == Officer ==> r == "en-US"
    ensures r == "hi-IN" <==> speaker == Visitor && language != English
  {
    if speaker == Visitor then (if language == English then "en-US" else "hi-IN")
    else "en-US"
  }

  /** The visitor is listened to in the locale their language is spoken in. */
  lemma VisitorRecognitionMatchesSpeech(language: Language)
    ensures RecognitionLocale(Visitor, language) == LanguageLocale(language)
  {
  }

  /** The microphone: whether it listens and in which locale. */
  datatype Listener = Listener(listening: bool, lang: string)

  /** `startListening`: only with a recogniser and when not listening yet. */
  function StartListening(l: Listener, available: bool, speaker: Speaker, language: Language): (r: Listener)
    ensures !available || l.listening ==> r == l
    ensures available && !l.listening ==> r.listening && r.lang == RecognitionLocale(speaker, language)
  {
    if available && !l.listening then Listener(true, RecognitionLocale(speaker, language)) else l
  }

  /** A stored utterance and its canned translation. */
  datatype Message = Message(text: string, translated: string, sender: Speaker)

  /** `handleTranslation`: exactly one message is appended, from the current speaker. */
  function HandleTranslation(messages: seq<Message>, text: string, speaker: Speaker, language: Language): (r: seq<Message>)
    ensures |r| == |messages| + 1 && r[..|messages|] == messages
    ensures r[|messages|].sender == speaker && r[|messages|].text == text
    ensures r[|messages|].translated == MockTranslate(text, speaker, language)
  {
    messages + [Message(text, MockTranslate(text, speaker, language), speaker)]
  }

  /** The locale the translation is read out in: English for a visitor's
      words, the visitor's language for the officer's. */
  function PlaybackLocale(speaker: Speaker, language: Language): (r: string)
    ensures speaker == Visitor ==> r == "en-US"
    ensures speaker == Officer ==> r == LanguageLocale(language)
  {
    if speaker == Visitor then "en-US" else LanguageLocale(language)
  }

  /** Messages are only ever appended: a run of utterances keeps every
      earlier message in place and adds one per utterance. */
  function Converse(messages: seq<Message>, turns: seq<(string, Speaker)>, language: Language): (r: seq<Message>)
    decreases |turns|
  {
    if |turns| == 0 then messages
    else Converse(HandleTranslation(messages, turns[0].0, turns[0].1, language), turns[1..], language)
  }

  lemma {:induction false} ConverseAppends(messages: seq<Message>, turns: seq<(string, Speaker)>, language: Language)
    ensures |Converse(messages, turns, language)| == |messages| + |turns|
    ensures Converse(messages, turns, language)[..|messages|] == messages
    ensures forall i | 0 <= i < |turns| :: Converse(messages, turns, language)[|messages| + i].sender == turns[i].1
    decreases |turns|
  {
    if |turns| > 0 {
      var next := HandleTranslation(messages, turns[0].0, turns[0].1, language);
      ConverseAppends(next, turns[1..], language);
      var r := Converse(messages, turns, language);
      assert r == Converse(next, turns[1..], language);
      assert r[..|messages|] == next[..|next|][..|messages|];
      forall i | 0 <= i < |turns|
        ensures r[|messages| + i].sender == turns[i].1
      {
        if i == 0 {
          assert r[|messages|] == next[|messages|];
        } else {
          assert turns[1..][i - 1] == turns[i];
          assert r[|next| + (i - 1)].sender == turns[1..][i - 1].1;
        }
      }
    }
  }

  /** `clearMessages` empties the panel, so afterwards it holds exactly the
      utterances spoken since, one message each, in order. */
  lemma ClearThenConverse(turns: seq<(string, Speaker)>, language: Language)
    ensures |Converse([], turns, language)| == |turns|
    ensures forall i | 0 <= i < |turns| :: Converse([], turns, language)[i].sender == turns[i].1
  {
    ConverseAppends([], turns, language);
  }
}

=== FILE: wizard.dfy ===
/** What the three filing wizards (report, complaint, certificate) share:
    a five-step counter with Next and Back buttons, a checklist of documents
    toggled on and off, the incident details form, and the issue names of the
    interface language tables. Each handler is a pure function from the old
    state to the new one. */
module Wizard {
  import opened Common
  import opened Languages

  // ---------------------------------------------------------------- steps

  const FirstStep: int := 1
  const LastStep: int := 5

  predicate ValidStep(step: int) {
    FirstStep <= step <= LastStep
  }

  /** `handleNext`: one step forward, except on the last step. */
  function HandleNext(step: int): (r: int)
    ensures ValidStep(step) ==> ValidStep(r)
    ensures step < LastStep ==> r == step + 1
    ensures step >= LastStep ==> r == step
  {
    if step < LastStep then step + 1 else step
  }

  /** The Next button as the user can press it: it is shown only below the
      last step and moves on only when it is not disabled. Each wizard
      supplies its own `disabled` condition. */
  function Advance(step: int, disabled: bool): (r: int)
    ensures ValidStep(step) ==> ValidStep(r)
    ensures r == step + 1 <==> step < LastStep && !disabled
    ensures r != step + 1 ==> r == step
  {
    if step < LastStep && !disabled then HandleNext(step) else step
  }

  /** The outcome of Back: the new step, and whether the wizard was left
      (the `onBack` callback). */
  datatype BackOutcome = BackOutcome(step: int, leave: bool)

  /** `handleBack`: one step back, or leave the wizard from the first step
      without moving. */
  function HandleBack(step: int): (r: BackOutcome)
    ensures ValidStep(step) ==> ValidStep(r.step)
    ensures r.leave <==> step <= FirstStep
    ensures r.leave ==> r.step == step
    ensures !r.leave ==> r.step == step - 1
  {
    if step > FirstStep then BackOutcome(step - 1, false) else BackOutcome(step, true)
  }

  /** Back undoes Next below the last step, and Next undoes Back above the first. */
  lemma NextBackInverse(step: int)
    requires ValidStep(step)
    ensures step < LastStep ==> HandleBack(HandleNext(step)) == BackOutcome(step, false)
    ensures step > FirstStep ==> HandleNext(HandleBack(step).step) == step
  {
  }

  datatype Button = NextButton | BackButton

  /** Where a sequence of button presses leads, and whether one of them left
      the wizard (after which the rest have no effect). */
  function Navigate(step: int, presses: seq<Button>): (r: BackOutcome)
    decreases |presses|
  {
    if |presses| == 0 then BackOutcome(step, false)
    else if presses[0] == NextButton then Navigate(HandleNext(step), presses[1..])
    else
      var b := HandleBack(step);
      if b.leave then b else Navigate(b.step, presses[1..])
  }

  /** However the buttons are pressed, the step stays within 1..5, and the
      wizard is only left from the first step. */
  lemma {:induction false} NavigateStaysInRange(step: int, presses: seq<Button>)
    requires ValidStep(step)
    ensures ValidStep(Navigate(step, presses).step)
    ensures Navigate(step, presses).leave ==> Navigate(step, presses).step == FirstStep
    decreases |presses|
  {
    if |presses| > 0 {
      if presses[0] == NextButton {
        NavigateStaysInRange(HandleNext(step), presses[1..]);
      } else if step > FirstStep {
        NavigateStaysInRange(step - 1, presses[1..]);
      }
    }
  }

  // ------------------------------------------------------------ documents

  /** `handleDocumentCheck`: a checked document is unchecked (every copy
      removed), an unchecked one is appended. */
  function ToggleDocument(docs: seq<string>, doc: string): (r: seq<string>)
    ensures doc in r <==> doc !in docs
    ensures forall d | d != doc :: d in r <==> d in docs
    ensures NoDup(docs) ==> NoDup(r)
    ensures doc !in docs ==> r == docs + [doc]
  {
    if doc in docs then RemoveAll(docs, doc) else docs + [doc]
  }

  /** Toggling the same document twice leaves the same documents checked. */
  lemma ToggleTwiceSameDocuments(docs: seq<string>, doc: string)
    ensures forall d :: d in ToggleDocument(ToggleDocument(docs, doc), doc) <==> d in docs
  {
  }

  /** Checking an unchecked document and unchecking it again restores the list. */
  lemma ToggleTwiceAbsent(docs: seq<string>, doc: string)
    requires doc !in docs
    ensures ToggleDocument(ToggleDocument(docs, doc), doc) == docs
  {
    RemoveAllConcat(docs, [doc], doc);
    assert RemoveAll([doc], doc) == [];
  }

  /** Unchecking a checked document and checking it again moves it to the end. */
  lemma ToggleTwicePresent(docs: seq<string>, doc: string)
    requires doc in docs
    ensures ToggleDocument(ToggleDocument(docs, doc), doc) == RemoveAll(docs, doc) + [doc]
  {
  }

  /** The list comes back unchanged from two toggles exactly when the
      document was unchecked, or checked once and last. */
  lemma ToggleTwiceIdentical(docs: seq<string>, doc: string)
    ensures ToggleDocument(ToggleDocument(docs, doc), doc) == docs <==>
              doc !in docs || (docs[|docs| - 1] == doc && doc !in docs[..|docs| - 1])
  {
    if doc !in docs {
      ToggleTwiceAbsent(docs, doc);
    } else {
      ToggleTwicePresent(docs, doc);
      if docs[|docs| - 1] == doc && doc !in docs[..|docs| - 1] {
        MovedToEndIdentical(docs, doc);
      } else {
        MovedToEndDiffers(docs, doc);
      }
    }
  }

  lemma MovedToEndIdentical(docs: seq<string>, doc: string)
    requires |docs| > 0 && docs[|docs| - 1] == doc && doc !in docs[..|docs| - 1]
    ensures RemoveAll(docs, doc) + [doc] == docs
  {
    var p := docs[..|docs| - 1];
    assert docs == p + [doc];
    RemoveAllConcat(p, [doc], doc);
    assert RemoveAll(p, doc) == p;
    assert RemoveAll([doc], doc) == [];
    assert RemoveAll(docs, doc) == p;
  }

  lemma MovedToEndDiffers(docs: seq<string>, doc: string)
    requires |docs| > 0 && !(docs[|docs| - 1] == doc && doc !in docs[..|docs| - 1])
    ensures RemoveAll(docs, doc) + [doc] != docs
  {
    var rest := RemoveAll(docs, doc);
    assert doc !in rest;
    assert (rest + [doc])[..|rest|] == rest;
  }

  /** Toggling only documents from a list keeps the checked ones a
      duplicate-free selection from that list, so no more of them than the
      list holds. */
  lemma ToggleWithinList(docs: seq<string>, doc: string, required: seq<string>)
    requires NoDup(docs) && forall d | d in docs :: d in required
    requires doc in required
    ensures NoDup(ToggleDocument(docs, doc))
    ensures forall d | d in ToggleDocument(docs, doc) :: d in required
    ensures |ToggleDocument(docs, doc)| <= |required|
  {
    var r := ToggleDocument(docs, doc);
    NoDupSubsetBound(r, required);
    assert (set x | x in required) == set i | 0 <= i < |required| :: required[i];
    CardinalityOfIndexSet(required);
  }

  /** A sequence has at most as many distinct values as elements. */
  lemma {:induction false} CardinalityOfIndexSet(s: seq<string>)
    ensures |set i | 0 <= i < |s| :: s[i]| <= |s|
  {
    if |s| > 0 {
      var last := s[..|s| - 1];
      CardinalityOfIndexSet(last);
      assert (set i | 0 <= i < |s| :: s[i]) == (set i | 0 <= i < |last| :: last[i]) + {s[|s| - 1]};
    }
  }

  // ------------------------------------------------------ incident details

  /** The `personalInfo` part of a report or complaint. */
  datatype IncidentInfo = IncidentInfo(
    name: string, phone: string, email: string, address: string,
    incidentDate: string, incidentLocation: string, description: string)

  datatype IncidentField = Name | Phone | Email | Address | IncidentDate | IncidentLocation | Description

  function FieldOf(info: IncidentInfo, f: IncidentField): string {
    match f
    case Name => info.name
    case Phone => info.phone
    case Email => info.email
    case Address => info.address
    case IncidentDate => info.incidentDate
    case IncidentLocation => info.incidentLocation
    case Description => info.description
  }

  /** `handleInputChange` / `handlePersonalInfoChange`: exactly the named
      field takes the new value. */
  function SetField(info: IncidentInfo, f: IncidentField, value: string): (r: IncidentInfo)
    ensures FieldOf(r, f) == value
    ensures forall g | g != f :: FieldOf(r, g) == FieldOf(info, g)
  {
    match f
    case Name => info.(name := value)
    case Phone => info.(phone := value)
    case Email => info.(email := value)
    case Address => info.(address := value)
    case IncidentDate => info.(incidentDate := value)
    case IncidentLocation => info.(incidentLocation := value)
    case Description => info.(description := value)
  }

  /** Editing a field twice keeps the last value; editing two different
      fields commutes. */
  lemma SetFieldLaws(info: IncidentInfo, f: IncidentField, g: IncidentField, a: string, b: string)
    ensures SetField(SetField(info, f, a), f, b) == SetField(info, f, b)
    ensures f != g ==> SetField(SetField(info, f, a), g, b) == SetField(SetField(info, g, b), f, a)
  {
  }

  /** The state of the report and complaint wizards: the chosen issue, the
      incident details and the checked documents. */
  datatype FilingData = FilingData(issueType: string, info: IncidentInfo, documentsChecked: seq<string>)

  /** The empty form; the report wizard pre-fills the date with today's. */
  function EmptyFiling(date: string): (r: FilingData)
    ensures r.issueType == "" && |r.documentsChecked| == 0
    ensures forall f | f != IncidentDate :: FieldOf(r.info, f) == ""
    ensures r.info.incidentDate == date
  {
    FilingData("", IncidentInfo("", "", "", "", date, "", ""), [])
  }

  /** The input handler: one incident field changes, nothing else does. */
  function UpdateInfo(d: FilingData, f: IncidentField, value: string): (r: FilingData)
    ensures r.issueType == d.issueType && r.documentsChecked == d.documentsChecked
    ensures FieldOf(r.info, f) == value
    ensures forall g | g != f :: FieldOf(r.info, g) == FieldOf(d.info, g)
  {
    d.(info := SetField(d.info, f, value))
  }

  /** `handleDocumentCheck` on the form: only the checklist changes. */
  function CheckDocument(d: FilingData, doc: string): (r: FilingData)
    ensures r.issueType == d.issueType && r.info == d.info
    ensures doc in r.documentsChecked <==> doc !in d.documentsChecked
    ensures forall x | x != doc :: x in r.documentsChecked <==> x in d.documentsChecked
  {
    d.(documentsChecked := ToggleDocument(d.documentsChecked, doc))
  }

  /** The six fields step 3 asks for: everything but the e-mail. */
  predicate IncidentFieldsFilled(info: IncidentInfo) {
    info.name != "" && info.phone != "" && info.address != ""
    && info.incidentDate != "" && info.incidentLocation != "" && info.description != ""
  }

  // ---------------------------------------------------------- issue names

  /** The issue types named in the interface language tables. */
  datatype Issue = Theft | Harassment | Cybercrime | TrafficViolation | PccIssue | OtherIssue

  /** `t.theft`, `t.harassment`, `t.cybercrime`, `t.trafficViolation`, `t.pcc`, `t.others`. */
  function IssueLabel(issue: Issue, language: Language): string {
    match language
    case English =>
      (match issue
       case Theft => "Theft" case Harassment => "Harassment" case Cybercrime => "Cybercrime"
       case TrafficViolation => "Traffic Violation" case PccIssue => "Police Clearance Certificate (PCC)"
       case OtherIssue => "Others")
    case Hindi =>
      (match issue
       case Theft => "चोरी" case Harassment => "उत्पीड़न" case Cybercrime => "साइबर अपराध"
       case TrafficViolation => "यातायात उल्लंघन" case PccIssue => "पुलिस चरित्र प्रमाणपत्र (पीसीसी)"
       case OtherIssue => "अन्य")
    case Konkani =>
      (match issue
       case Theft => "चोरी" case Harassment => "छळवणूक" case Cybercrime => "सायबर गुन्हा"
       case TrafficViolation => "वाहतूक उल्लंघन" case PccIssue => "पोलिस चारित्र्य प्रमाणपत्र (पीसीसी)"
       case OtherIssue => "इतर")
  }
}

=== FILE: women_officer.dfy ===
/** The women officer section (`WomenOfficerSection`): a complaint type with
    a fixed urgency, a one-page form, and a submission tagged for the women's
    desk. The token, the date and the outcome of the database write are
    parameters. */
module WomenOfficer {
  import opened Common
  import opened Languages
  import Dashboard

  datatype Urgency = Low | Medium | High

  /** An entry of `complaintTypes`. */
  datatype ComplaintType = ComplaintType(id: string, urgency: Urgency)

  /** `complaintTypes`: four high-urgency types, then three medium ones. */
  const ComplaintTypes: seq<ComplaintType> := [
    ComplaintType("domestic_violence", High),
    ComplaintType("sexual_harassment", High),
    ComplaintType("stalking", High),
    ComplaintType("dowry_harassment", High),
    ComplaintType("workplace_harassment", Medium),
    ComplaintType("cyber_crime_women", Medium),
    ComplaintType("other_women", Medium)
  ]

  const HighUrgencyIds: set<string> := {"domestic_violence", "sexual_harassment", "stalking", "dowry_harassment"}

  /** The displayed name of a type in the interface language. The page reads
      the name off the card itself, so only the seven ids of `ComplaintTypes`
      ever reach this lookup; the last of them, "other_women", takes the
      default branch, and any other id is named like it. */
  function TypeName(id: string, language: Language): (r: string)
    ensures |r| > 0
    ensures language == English <==> 'A' <= r[0] <= 'Z'
  {
    match id
    case "domestic_violence" => (match language case English => "Domestic Violence" case Hindi => "घरेलू हिंसा" case Konkani => "घरगुती हिंसा")
    case "sexual_harassment" => (match language case English => "Sexual Harassment" case Hindi => "यौन उत्पीड़न" case Konkani => "लैंगिक छळवणूक")
    case "stalking" => (match language case English => "Stalking" case Hindi => "पीछा करना" case Konkani => "पाठलाग करप")
    case "dowry_harassment" => (match language case English => "Dowry Harassment" case Hindi => "दहेज उत्पीड़न" case Konkani => "हुंडा छळवणूक")
    case "workplace_harassment" => (match language case English => "Workplace Harassment" case Hindi => "कार्यक्षेत्र उत्पीड़न" case Konkani => "कामाच्या जाग्यार छळवणूक")
    case "cyber_crime_women" => (match language case English => "Cyber Crime Against Women" case Hindi => "महिलाओं के खिलाफ साइबर अपराध" case Konkani => "महिलांविरुद्ध सायबर गुन्हा")
    case _ => (match language case English => "Other Women Safety Issues" case Hindi => "अन्य महिला सुरक्षा मुद्दे" case Konkani => "हेर महिला सुरक्षा मुद्दे")
  }

  /** The seven cards carry seven different names in every language. */
  lemma TypeNamesDistinct(language: Language)
    ensures forall i, j | 0 <= i < j < |ComplaintTypes| ::
              TypeName(ComplaintTypes[i].id, language) != TypeName(ComplaintTypes[j].id, language)
  {
    var names := Names(language);
    // the seven names already differ in their first three characters
    var keys := NameKeys(language);
    match language
    case English => EnglishPrefixes(names, keys);
    case Hindi => HindiPrefixes(names, keys);
    case Konkani => KonkaniPrefixes(names, keys);
    KeysDistinct(keys);
    KeysSeparate(names, keys);
  }

  /** The names of the seven cards, in order. */
  function Names(language: Language): (r: seq<string>)
    ensures |r| == |ComplaintTypes|
    ensures forall i | 0 <= i < |ComplaintTypes| :: r[i] == TypeName(ComplaintTypes[i].id, language)
  {
    seq(|ComplaintTypes|, i requires 0 <= i < |ComplaintTypes| => TypeName(ComplaintTypes[i].id, language))
  }

  /** A short prefix of each card's name. */
  function NameKeys(language: Language): seq<string> {
    match language
    case English => ["Dom", "Sex", "Sta", "Dow", "Wor", "Cyb", "Oth"]
    case Hindi => ["घरे", "यौन", "पीछ", "दहे", "कार", "महि", "अन्"]
    case Konkani => ["घरग", "लैं", "पाठ", "हुं", "काम", "महि", "हेर"]
  }

  lemma EnglishPrefixes(names: seq<string>, keys: seq<string>)
    requires names == Names(English) && keys == NameKeys(English)
    ensures |names| == |keys|
    ensures forall i | 0 <= i < |keys| :: |keys[i]| <= |names[i]| && names[i][..|keys[i]|] == keys[i]
  {
  }

  lemma HindiPrefixes(names: seq<string>, keys: seq<string>)
    requires names == Names(Hindi) && keys == NameKeys(Hindi)
    ensures |names| == |keys|
    ensures forall i | 0 <= i < |keys| :: |keys[i]| <= |names[i]| && names[i][..|keys[i]|] == keys[i]
  {
  }

  lemma KonkaniPrefixes(names: seq<string>, keys: seq<string>)
    requires names == Names(Konkani) && keys == NameKeys(Konkani)
    ensures |names| == |keys|
    ensures forall i | 0 <= i < |keys| :: |keys[i]| <= |names[i]| && names[i][..|keys[i]|] == keys[i]
  {
  }

  lemma KeysDistinct(keys: seq<string>)
    requires keys in [["Dom", "Sex", "Sta", "Dow", "Wor", "Cyb", "Oth"],
                      ["घरे", "यौन", "पीछ", "दहे", "कार", "महि", "अन्"],
                      ["घरग", "लैं", "पाठ", "हुं", "काम", "महि", "हेर"]]
    ensures forall i, j | 0 <= i < j < |keys| :: |keys[i]| == |keys[j]| && keys[i] != keys[j]
  {
  }

  /** Strings with pairwise different prefixes of one length are pairwise different. */
  lemma KeysSeparate(names: seq<string>, keys: seq<string>)
    requires |names| == |keys|
    requires forall i | 0 <= i < |keys| :: |keys[i]| <= |names[i]| && names[i][..|keys[i]|] == keys[i]
    requires forall i, j | 0 <= i < j < |keys| :: |keys[i]| == |keys[j]| && keys[i] != keys[j]
    ensures forall i, j | 0 <= i < j < |names| :: names[i] != names[j]
  {
  }

  /** Exactly the four listed types are urgent; no type is low, and ids are distinct. */
  lemma UrgencyTable()
    ensures forall i | 0 <= i < |ComplaintTypes| :: ComplaintTypes[i].urgency == High <==> ComplaintTypes[i].id in HighUrgencyIds
    ensures forall i | 0 <= i < |ComplaintTypes| :: ComplaintTypes[i].urgency != Low
    ensures forall i, j | 0 <= i < j < |ComplaintTypes| :: ComplaintTypes[i].id != ComplaintTypes[j].id
  {
  }

  /** The form. */
  datatype WomenComplaint = WomenComplaint(
    kind: string, name: string, phone: string, email: string,
    description: string, location: string, date: string, urgency: Urgency)

  /** The initial form: empty except today's date, with medium urgency. */
  function Initial(today: string): (r: WomenComplaint)
    ensures r.urgency == Medium && r.date == today
    ensures r.kind == "" && r.name == "" && r.phone == "" && r.email == "" && r.description == "" && r.location == ""
  {
    WomenComplaint("", "", "", "", "", "", today, Medium)
  }

  datatype Field = Kind | Name | Phone | Email | Description | Location | Date

  function FieldOf(c: WomenComplaint, f: Field): string {
    match f
    case Kind => c.kind
    case Name => c.name
    case Phone => c.phone
    case Email => c.email
    case Description => c.description
    case Location => c.location
    case Date => c.date
  }

  /** `handleInputChange`: exactly the named field changes. */
  function HandleInputChange(c: WomenComplaint, f: Field, value: string): (r: WomenComplaint)
    ensures FieldOf(r, f) == value
    ensures forall g | g != f :: FieldOf(r, g) == FieldOf(c, g)
    ensures r.urgency == c.urgency
  {
    match f
    case Kind => c.(kind := value)
    case Name => c.(name := value)
    case Phone => c.(phone := value)
    case Email => c.(email := value)
    case Description => c.(description := value)
    case Location => c.(location := value)
    case Date => c.(date := value)
  }

  /** `handleTypeSelect`: exactly the type and the urgency change. */
  function HandleTypeSelect(c: WomenComplaint, kind: string, urgency: Urgency): (r: WomenComplaint)
    ensures r.kind == kind && r.urgency == urgency
    ensures forall g | g != Kind :: FieldOf(r, g) == FieldOf(c, g)
  {
    c.(kind := kind, urgency := urgency)
  }

  /** Choosing a listed type makes the form urgent exactly for the four
      high-urgency types. */
  lemma SelectingTypeSetsUrgency(c: WomenComplaint, i: nat)
    requires i < |ComplaintTypes|
    ensures var r := HandleTypeSelect(c, ComplaintTypes[i].id, ComplaintTypes[i].urgency);
            r.urgency == High <==> r.kind in HighUrgencyIds
  {
    UrgencyTable();
  }

  /** The submit button's `disabled` condition, also checked by `handleSubmit`. */
  predicate Incomplete(c: WomenComplaint) {
    c.kind == "" || c.name == "" || c.phone == "" || c.description == ""
  }

  /** What is stored: the dashboard's view, plus the women's-desk tags. */
  datatype StoredComplaint = StoredComplaint(complaint: Dashboard.Complaint, form: WomenComplaint, priority: Urgency, assignedTo: string)

  datatype SubmitOutcome =
    | Refused
    | Submitted(token: string, stored: StoredComplaint, receipt: bool)

  /** `handleSubmit`: refused while incomplete; otherwise stored as a pending
      complaint with category `women_safety`, and the receipt is shown
      whether or not the write succeeded. */
  function Submit(c: WomenComplaint, token: string, saved: bool): (r: SubmitOutcome)
    ensures r.Refused? <==> Incomplete(c)
    ensures r.Submitted? ==> r.receipt && r.token == token
    ensures r.Submitted? ==> r.stored.complaint == Dashboard.Complaint("complaint", token, c.name, Dashboard.Pending, Some("women_safety"))
    ensures r.Submitted? ==> r.stored.priority == c.urgency && r.stored.form == c && r.stored.assignedTo == "women_officer"
  {
    if Incomplete(c) then Refused
    else Submitted(token, StoredComplaint(Dashboard.Complaint("complaint", token, c.name, Dashboard.Pending, Some("women_safety")),
                                          c, c.urgency, "women_officer"), true)
  }

  /** The receipt does not depend on the database write. */
  lemma ReceiptDespiteFailure(c: WomenComplaint, token: string)
    requires !Incomplete(c)
    ensures Submit(c, token, false).receipt && Submit(c, token, true).receipt
  {
  }

  /** A submitted complaint raises the dashboard's women's-safety card by one
      and leaves the SOS card alone. */
  lemma SubmissionCountsOnWomenCard(cs: seq<Dashboard.Complaint>, c: WomenComplaint, token: string, saved: bool)
    requires !Incomplete(c)
    ensures var x := Submit(c, token, saved).stored.complaint;
            Dashboard.WomenSafetyCount(cs + [x]) == Dashboard.WomenSafetyCount(cs) + 1
            && Dashboard.SosCount(cs + [x]) == Dashboard.SosCount(cs)
  {
    var x := Submit(c, token, saved).stored.complaint;
    CountAppend(cs, x, (k: Dashboard.Complaint) => k.category == Some("women_safety"));
    CountAppend(cs, x, (k: Dashboard.Complaint) => k.kind == "sos");
  }
}
